=== FILE: README.md ===
# Kaleidoscope front end in Dafny

This project models the front end of the Kaleidoscope toy language, the
language of the LLVM tutorial, as pure functions. It has five parts:

- **Tokens and lexer** (`tokens.dfy`, `lexer.dfy`, `legacy_lexer.dfy`, `decimal.dfy`).
  The character-level lexer tracks line and column. It is applied once to the
  whole program text, which gives a token stream that ends in a sticky end token.
  The older copy of the lexer is modelled separately and proved to agree with
  the newer one.
- **Operator registry and parser** (`binop.dfy`, `ast.dfy`, `parser.dfy`, `parser_props.dfy`).
  The registry is a map of precedence overrides on top of the fixed built-in
  table. The parser is recursive descent with precedence climbing over the token
  stream. Every parse function returns the stream position where it stopped,
  whether it succeeded or failed.
- **Symbol table** (`named_values.dfy`). The table maps names to nullable
  slots. Its observable view is a map from names to slots.
- **Code generation** (`codegen.dfy`, `function_gen.dfy`, `codegen_props.dfy`).
  Each generator is a function from a state record to an outcome. The state
  holds:
  - the scope;
  - the operator registry;
  - the function table, mapping names to an arity and an optional body;
  - the next fresh id;
  - the emitted instructions;
  - the current block;
  - the diagnostics printed so far.

  An outcome is `Emitted(value, state)`, `Failed(state)` (a diagnostic was
  printed and null returned) or `Crashed(state)` (the source's `assert` fired).
  Instructions are load, store, arithmetic, compare, call, branch, label, a
  two-input merge, and return. Slots and block labels are numbered from one
  shared counter.
- **Driver loop** (`dispatch.dfy`, `dispatch_props.dfy`). The loop dispatches
  on the current token. A parse failure skips one token. A failed code
  generation is only reported. A crash ends the program, but from a fresh
  session no input reaches one (`DispatchProps.FreshSessionFinishes`).

The model follows the source code in these places:

- **Definition token.** The lexer's definition keyword `def` is the token of
  code -2. The enum calls this code `tok_function`, and the driver dispatches
  on it. `tok_def`, which parser.h returns, is absent from the enum.
- **Definition parser.** dispatch.h:7 calls `parse_function()`, which none
  of the modelled headers defines. It is modelled as `ParseDefinition`
  (`def`, then a prototype, then an expression), the shape that
  ast/ast_parse.h:319-328 gives the definition parser.
- **`var` restore order.** `var` writes its saved bindings back first name
  first. If a name repeats in one list, it stays bound to an inner slot
  (`CodegenProps.RepeatedVarLeaksBinding`). "The scope afterwards equals the
  scope before" is therefore stated only for `var` lists of distinct names.
- **Failure paths.** `for` and `var` restore shadowed names only when they
  succeed.
- **Erasing a failed function.** A function whose body fails is erased from
  the module, even when its declaration came from an earlier `extern`.
- **Number lexemes.** A number lexeme is read as the exact decimal value of
  its longest `digits[.digits]` prefix. For example, `1.2.3` reads as 1.2.

The model departs from the source in one place:

- **Assignment target.** `1 = x` parses, because `=` is a binary operator
  of precedence 2. In the source (ast/ast_binary_expr.h:30-35) the null check
  after the `static_cast` can never fire, so the right side is generated and
  then `getName` is called on a node that is not a variable, which is
  undefined behaviour. `Codegen.GenBinary` instead fails with "destination of
  '=' must be a variable" before generating the right side, and
  `CodegenProps.AssignNeedsVariable` states that failure.

## Model

| member | source | states |
|---|---|---|
| Tokens.Code | lex.h:10-38 | Character tokens have their own code in 0..255. Named tokens have negative codes. The end token is exactly code -1, and code -2 is exactly the definition token. |
| Tokens.CodeRoundTrip | lex.h:10-38 | Decoding a token's code gives back the token's kind, so a code identifies its token kind. |
| Tokens.CodesDistinct | lex.h:10-38 | Two tokens share a code iff they are of the same kind. In particular, the named codes are pairwise distinct. |
| Tokens.KeywordOrIdentifier | parser.h:76-96 | Each of the ten reserved words, and only that word, gives its own keyword token. Any other word becomes an identifier carrying the word itself. |
| Tokens.KeywordsReserved | parser.h:76-96 | A word is an identifier token iff it is not one of the ten reserved words. |
| Lexer.NextLoc | parser.h:47-57 | A line end moves to column 0 of the next line. Anything else moves one column right. Either way the location strictly advances. |
| Lexer.Advance | parser.h:47-57 | Reading consumes exactly the lookahead character. The line never decreases. |
| Lexer.SkipSpace | parser.h:66-69 | Skips exactly the leading run of blanks and stops at a non-blank or the end. |
| Lexer.ScanRun | parser.h:72-73 | Collects exactly the longest run of the given character class and leaves the rest unread. |
| Lexer.GetToken | parser.h:61-128 | Every token except the end consumes input. The end token leaves the lookahead at end of input. The token location lies between the location before skipping and the location after the token. |
| Lexer.Tokenize | parser.h:144-148 | Repeated `get_next_token` produces a stream with no end token inside it. Consecutive token locations never go backwards, and every one lies between the start location and the end token's location. |
| Lexer.LexIdentifier | parser.h:71-97 | After blanks, a letter starts a token spelled by the letter and the longest following alphanumeric run. It is a keyword or an identifier. |
| Lexer.LexNumber | parser.h:99-108 | After blanks, a digit or dot starts a number token. Its lexeme is the longest run of digits and dots. |
| Lexer.LexOtherChar | parser.h:124-127 | A character that starts no identifier, number or comment is consumed and returned as its own token. |
| Lexer.LexComment | parser.h:110-118 | `#` skips to the end of the line and lexing resumes after it. |
| Lexer.LexEnd | parser.h:120-122 | With only blanks left, the lexer returns the end token. |
| Lexer.EofIsSticky | parser.h:120-122 | After the end token, every later call returns the end token again, at the same location. |
| LegacyLexer.AdvanceAgrees | ast.h:25-34 | The older `advance` reads the same character and moves the location exactly as the newer one does. |
| LegacyLexer.SkipAgrees | ast.h:41-42 | The older blank-skipping loop matches the newer one. |
| LegacyLexer.ScanAgrees | ast.h:46-83 | The older run scanning for words and numbers matches the newer one. |
| LegacyLexer.GetTokAgrees | ast.h:37-103 | The older `gettok` returns the same token, location and lexer state as the newer `get_token`. This covers keywords with `def` as the definition token, numbers, comments and the unconsumed end. |
| Decimal.StrToD | parser.h:106 | The value is never negative, and a lexeme that is all digits reads as the integer it spells. |
| Decimal.StrToDOfDecimal | parser.h:106 | `digits.digits` followed by anything that does not start with a digit reads as the integer part plus the fraction over the matching power of ten. |
| Decimal.StrToDOfDigits | parser.h:106 | A plain digit lexeme converts to the integer it spells. |
| Decimal.StrToDStopsAtSecondDot | parser.h:106 | The lexeme `1.2.3` converts as `1.2`: conversion stops at the second dot. |
| Decimal.StrToDOfDots | parser.h:106 | A lexeme made only of dots converts to zero. |
| Decimal.ShowRoundTrip | ast/ast_expr.h:29-32 | The decimal text printed for a location number reads back as that number. |
| Ast.LocationSuffix | ast/ast_expr.h:29-32 | The `:line:col` suffix that `dump` appends reads back as exactly the node's line and column. |
| Ast.SuffixRoundTrip | ast/ast_expr.h:29-32 | Any `:a:b` suffix of digit strings reads back as the two numbers. |
| Ast.OperatorName | ast/ast_abs.h:50-54 | For an operator prototype, the result is the last character of the name. |
| Ast.OperatorNameRoundTrip | ast/ast_function_prototype.h:44-58 | An operator prototype named `unary`+c with one parameter is a unary operator. One named `binary`+c with two parameters is a binary operator. In both cases the operator character read back is c. |
| Ast.OperatorKindsExclusive | ast/ast_function_prototype.h:44-52 | No prototype is both unary and binary. Either kind needs the operator flag, and for a flagged prototype the kind is fixed by the arity: one parameter is unary, two is binary. |
| Ast.PlainIsNoOperator | ast.h:279-280 | A prototype not flagged as an operator is neither unary nor binary, whatever its arity. |
| Ast.DumpFunction | ast.h:303-308 | A function with no body dumps as `FunctionAST` followed by `Body:null`. A function with a body ends with the body's dump. |
| Binop.Builtin | binop_precedence.h:27-38 | The built-in precedences are positive exactly for `=`, `<`, `+`, `-` and `*`. Every other symbol gets -1. |
| Binop.BuiltinOrder | binop_precedence.h:27-38 | The built-in values: `=` is 2, `<` is 10, `+` and `-` are 20, `*` is 40. Anything else is -1 when there are no overrides. |
| Binop.GetBinopPrecedence | binop_precedence.h:22-39 | An override wins, even for a built-in symbol. Without one, the built-in table answers. |
| Binop.SetPrecedence | binop_precedence.h:12-15 | The symbol then reads as the new value. Every other symbol reads as before. |
| Binop.RemovePrecedence | binop_precedence.h:17-20 | The symbol reverts to its built-in reading. Every other override is kept. |
| Binop.LastWriteWins | binop_precedence.h:14 | Two writes to one symbol equal the second write alone. |
| Binop.InstallThenRollback | binop_precedence.h:12-20 | Installing and then removing a symbol that had no override restores the registry exactly. |
| NamedValues.Set | named_values.h:11-14 | After `set`, `get` returns the new value. Every other name is unchanged. |
| NamedValues.Get | named_values.h:16-19 | Returns the bound slot, or null for an unbound name. The null entry it inserts is invisible. |
| NamedValues.Unset | named_values.h:21-24 | After `unset`, the name reads null. Every other name is unchanged. |
| NamedValues.Clear | named_values.h:26-29 | After `clear`, every name reads null. |
| NamedValues.ViewCommutes | named_values.h:11-29 | On the observable view, `set`, `unset` and `clear` are binding, unbinding and the empty scope. |
| NamedValues.BindRestores | ast/ast_for_expr.h:79-80 | Saving a binding, shadowing it, and writing the saved value back restores the scope exactly. |
| Parser.Next | parser.h:144-148 | Moving on consumes one token, except that the end is never consumed. |
| Parser.TokenPrecedence | parser.h:131-141 | The result is the registry's value for an ASCII token with a positive precedence. Otherwise it is -1: for keywords, identifiers, numbers, the end, and non-positive registry values. |
| Parser.ParseExpression | ast/ast_parse.h:310-316 | A success consumes input, every binary operator in the tree has a positive precedence, and it stops at a token that is not a declared operator. |
| Parser.ParseUnary | ast/ast_parse.h:258-269 | Any ASCII token other than `(` and `,` is a prefix operator applied to a recursively parsed unary. Every other token goes to the primary parser. |
| Parser.ParseBinOpRHS | ast/ast_parse.h:273-305 | Never moves backwards, and every operator it builds in has a positive precedence. A success stops at a token binding below the minimum, and either returns the left side unchanged without consuming anything or returns a binary node after consuming input. |
| Parser.ParsePrimary | ast/ast_parse.h:232-255 | Each leading token selects its node kind. Any other token gives "unknown token when expecting an expression" without consuming it. |
| Parser.ParseIdentifierExpr | ast/ast_parse.h:12-48 | An identifier not followed by `(` is a variable. Followed by `(`, it is a call. |
| Parser.ParseArgs | ast/ast_parse.h:26-42 | A successful argument list is non-empty, ends at `)`, and each argument's operators are declared. |
| Parser.ParseNumberExpr | ast/ast_parse.h:52-56 | A number token becomes a number node with its value, at the token's location. |
| Parser.ParseParenExpr | ast/ast_parse.h:59-70 | Parentheses parse an expression and leave no node of their own. |
| Parser.ParseIfExpr | ast/ast_parse.h:75-109 | A success is an `if` node at the `if` token's location. |
| Parser.ParseForExpr | ast/ast_parse.h:112-166 | A success is a `for` node whose variable is the identifier after `for`. A missing identifier gives "expected identifier after for". |
| Parser.ParseForStep | ast/ast_parse.h:145-152 | The step is absent unless the current token is `,`. |
| Parser.ParseVarExpr | ast/ast_parse.h:170-223 | A success is a `var` node with at least one binding. A missing identifier gives "expected identifier after var". |
| Parser.ParseVarList | ast/ast_parse.h:182-208 | Bindings are appended in source order. The list stops at the first token that is not `,`. |
| Parser.ParseVarInit | ast/ast_parse.h:186-195 | The initializer is absent, and nothing is consumed, unless the current token is `=`. A present initializer has only declared operators. |
| Parser.ParseHead | ast/ast_function_prototype.h:74-124 | A plain name is kept with precedence 30. `unary` c names `unary`+c. `binary` c names `binary`+c, with an optional precedence that must lie in 1..100. |
| Parser.ParsePrototype | ast/ast_function_prototype.h:69-152 | A success is well formed, named by its head, and records the line. It is an operator iff it does not start with an identifier. `unary` gives a unary operator and `binary` a binary operator, which fixes their arities. |
| Parser.ParseParams | ast/ast_function_prototype.h:132-134 | Parameters are exactly the consecutive identifier tokens, with no separators. The loop stops at the first non-identifier. |
| Parser.ParseDefinition | ast/ast_parse.h:319-328 | A success has a well-formed prototype, and its body's operators are declared. |
| Parser.ParseTopLevelExpr | ast/ast_parse.h:331-340 | The expression becomes the body of a parameterless, non-operator prototype named `main`. |
| Parser.ParseExtern | ast/ast_parse.h:343-346 | `extern` yields a well-formed prototype only. |
| ParserProps.BinOpRHSStopsBelowMinimum | ast/ast_parse.h:276-281 | An operator binding less tightly than the minimum returns the left side unchanged, without consuming anything. |
| ParserProps.ExpressionEndsAtNonOperator | ast/ast_parse.h:310-316 | Any token that is not a declared operator ends the expression. |
| ParserProps.LeftFoldLast | ast/ast_parse.h:295-303 | Folding one more operator and operand onto a left fold makes it the left child of a new binary node. |
| ParserProps.ChainFoldsLeft | ast/ast_parse.h:273-305 | For any run of operators, each at or above the minimum and each followed by a unary operand after which the next token binds no tighter than that operator, the loop folds the run to the left. If the token after the run binds below the minimum, the result is exactly that left fold, stopped at that token. |
| ParserProps.ExpressionFoldsLeft | ast/ast_parse.h:310-316 | A unary operand followed by such a run, ending at a non-operator, parses as the left fold of the run over the first operand. |
| ParserProps.TighterOperandNests | ast/ast_parse.h:295-303 | When the operator after the right operand binds strictly tighter, the right operand is parsed at precedence plus one into a binary node that consumed input, and the loop continues with the left side joined to that node. |
| ParserProps.IfNeedsThenAndElse | ast/ast_parse.h:75-109 | A missing `then` or `else` is reported at the token found instead. |
| ParserProps.IfParts | ast/ast_parse.h:75-109 | A complete `if` holds its condition, then part and else part in order. |
| ParserProps.ParenNeedsClose | ast/ast_parse.h:59-70 | A missing `)` is reported. A present one is consumed. |
| ParserProps.ForNeedsSeparators | ast/ast_parse.h:112-138 | A missing `=` after the variable, or a missing `,` after the start value, is reported. |
| ParserProps.VarNeedsIn | ast/ast_parse.h:210-215 | A missing `in` after the `var` list is reported. |
| ParserProps.VariableOperand | ast/ast_parse.h:12-21 | An identifier not followed by `(` is a variable reference on its own. |
| ParserProps.LoneVariable | ast/ast_parse.h:12-21 | An identifier followed by neither `(` nor a declared operator is a whole expression: a variable, with only the name consumed. |
| ParserProps.IdentifierIsUnary | ast/ast_parse.h:232-269 | An identifier is not a prefix operator, so a unary expression starting with it is an identifier expression. |
| ParserProps.PrefixesNest | ast/ast_parse.h:258-269 | A run of prefix operators before a primary parses as those operators nested around the primary, outermost first. A failing primary is the whole unary expression's failure. |
| ParserProps.UnaryIsPrefixedPrimary | ast/ast_parse.h:258-269 | Every unary expression is the longest run of prefix operators applied to the primary parsed after it. |
| ParserProps.ForIsUnary | ast/ast_parse.h:232-269 | `for` is not a prefix operator, so a unary expression starting with it is a `for` expression. |
| ParserProps.BuiltinTable | parser.h:131-141 | With no overrides, `+` and `-` read 20 and `*` reads 40. `,`, `)`, an undeclared `^`, `in` and the end read -1. |
| ParserProps.DeclaredCaret | binop_precedence.h:12-38 | After declaring `^` at 60, `^` reads 60, `+` still reads 20 and the end still reads -1. |
| ParserProps.TighterNestsExample | ast/ast_parse.h:273-305 | `a + b * c` parses as `a + (b * c)`. |
| ParserProps.EqualAssociatesLeftExample | ast/ast_parse.h:295-303 | `a - b - c` parses as `(a - b) - c`. |
| ParserProps.UndeclaredOperatorEndsExample | parser.h:131-141 | `a + b ^ c` with `^` undeclared ends before `^`. |
| ParserProps.DeclaredOperatorNestsExample | ast/ast_parse.h:295-303 | With `^` declared at 60, `a + b ^ c` nests `^` to the right. |
| ParserProps.UnaryBindsTighterExample | ast/ast_parse.h:258-269 | A prefix operator applies to the operand before any binary operator. |
| ParserProps.EmptyCallExample | ast/ast_parse.h:20-48 | `f()` is a call with no arguments. |
| ParserProps.CallAssembles | ast/ast_parse.h:20-48 | A name, `(` and an argument list closed by `)` form a call at the name's location, holding the arguments, with the `)` consumed. |
| ParserProps.ArgChainParses | ast/ast_parse.h:26-42 | Any list of expressions separated by commas and closed by `)` parses as exactly those arguments, in order, after the ones already collected, stopping at the `)`. |
| ParserProps.ParsedArgsAreChain | ast/ast_parse.h:26-42 | Conversely, every successful argument list keeps the arguments already collected and is such a comma-separated chain ending at `)`. |
| ParserProps.LastArgument | ast/ast_parse.h:27-34 | An argument followed by `)` is appended and ends the list, leaving the `)` unread. |
| ParserProps.TwoArguments | ast/ast_parse.h:26-42 | `x, y )` is the argument list `x`, `y`, stopping at the `)`. |
| ParserProps.CallExample | ast/ast_parse.h:20-48 | `f(x, y)` is a call with its arguments in order. |
| ParserProps.CallNeedsSeparatorExample | ast/ast_parse.h:36-40 | Arguments without a comma between them give "Expected ')' or ',' in argument list". |
| ParserProps.ForWithoutStepExample | ast/ast_parse.h:145-165 | A `for` without a step has an absent step. |
| ParserProps.ForWithoutStep | ast/ast_parse.h:112-166 | `for` name `=` start `,` end `in` body is a `for` node with those parts and an absent step. |
| ParserProps.ForWithoutStepLoop | ast/ast_parse.h:112-166 | The `for` parser reads `for i = a, b in x` as a `for` node with an absent step, located at the token after the body. |
| ParserProps.BinaryHeadExample | ast/ast_function_prototype.h:101-122 | `binary | 5` names `binary|` with precedence 5. |
| ParserProps.BinaryPrototypeExample | ast/ast_function_prototype.h:69-152 | `binary | 5 (l r)` declares a binary operator with two parameters. |
| ParserProps.PrototypeAssembles | ast/ast_function_prototype.h:126-152 | A head, `(`, identifiers and `)` form a prototype with those parameters, flagged as an operator iff the head was not a plain name, once the operator arity matches. |
| ParserProps.PrecedenceOutOfRangeExample | ast/ast_function_prototype.h:114-121 | A precedence outside 1..100 is rejected. |
| ParserProps.OperatorArityExample | ast/ast_function_prototype.h:144-149 | A binary operator with one parameter is rejected after the list is read. |
| ParserProps.ParametersHaveNoCommasExample | ast/ast_function_prototype.h:132-139 | `f(a, b)` stops at the comma with "Expected ')' in prototype". |
| Codegen.GenExpr | ast/ast_expr.h:35 | Every generator keeps the function table and registry, and only extends the code and diagnostics. For distinct `var` names, a success leaves the scope as it found it. When every user operator in the tree has its `binary` function in the table, generation never crashes. |
| Codegen.GenUnary | ast/ast_unary_expr.h:20-35 | Keeps definitions and only extends code and diagnostics. For distinct `var` names, a success leaves the scope as it found it. It never crashes when every user operator in the node has its `binary` function. |
| Codegen.GenBinary | ast/ast_binary_expr.h:20-85 | Keeps definitions and only extends code and diagnostics. For distinct `var` names, a success leaves the scope as it found it. It never crashes when every user operator in the node has its `binary` function. |
| Codegen.GenCall | ast/ast_call_expr.h:23-50 | Keeps definitions and only extends code and diagnostics. For distinct `var` names, a success leaves the scope as it found it. It never crashes when every user operator in the node has its `binary` function. |
| Codegen.GenVariable | ast/ast_variable_expr.h:20-33 | An unbound name fails with "Unknown variable name". A bound one loads from exactly its slot. The scope is never changed. |
| Codegen.GenBinaryOp | ast/ast_binary_expr.h:58-84 | `+`, `-` and `*` emit one arithmetic instruction. `<` emits a compare widened to 1.0/0.0. Any other operator emits one call of `binary`+op on the two values, whose result is a fresh register. When that function is missing it crashes with "binary operator not found!" and nothing else changes. |
| Codegen.GenArgs | ast/ast_call_expr.h:43-47 | A success gives one value per remaining argument, after the values already collected. |
| Codegen.GenIf | ast/ast_if_expr.h:41-97 | Keeps definitions and only extends code and diagnostics. For distinct `var` names, a success leaves the scope as it found it. |
| Codegen.GenFor | ast/ast_for_expr.h:54-131 | A loop's value is always 0.0. For distinct names, a success leaves the scope as it found it. |
| Codegen.GenForRest | ast/ast_for_expr.h:85-128 | After body, step and end, the loop name is restored to its saved binding, or unbound if it had none. |
| Codegen.GenBinding | ast/ast_var_expr.h:41-58 | One binding yields the name's old binding. Writing it back undoes the new binding when names are distinct. |
| Codegen.GenBindings | ast/ast_var_expr.h:32-59 | Saves exactly one prior binding per name. Writing them back first name first undoes the bindings when names are distinct. |
| Codegen.GenVar | ast/ast_var_expr.h:32-73 | For distinct names, a success leaves the scope as it found it. |
| CodegenProps.NumberIsConstant | ast/ast_number_expr.h:18-22 | A literal yields its constant, emits nothing and leaves the whole state unchanged. |
| CodegenProps.UnaryOperandFirst | ast/ast_unary_expr.h:22-24 | A failed operand is the unary node's failure, before the callee is looked up. |
| CodegenProps.UnaryNeedsFunction | ast/ast_unary_expr.h:26-34 | The callee is `unary`+opcode. If it is missing, the node fails with "Unknown unary operator". Otherwise one call with the operand value is emitted. |
| CodegenProps.AssignNeedsVariable | ast/ast_binary_expr.h:25-35 | `=` with a non-variable left side fails, and nothing is generated. |
| CodegenProps.AssignRightSideFirst | ast/ast_binary_expr.h:37-39 | For `=`, a failure of the right side wins over an unknown destination. |
| CodegenProps.AssignStores | ast/ast_binary_expr.h:42-50 | An unknown destination fails with "Unknown variable name". Otherwise the right side's value is stored into the destination slot and returned. |
| CodegenProps.BothOperandsGenerated | ast/ast_binary_expr.h:53-56 | Both operands are generated, left then right, before either failure is checked. |
| CodegenProps.MissingUserOperatorCrashes | ast/ast_binary_expr.h:78-84 | A user operator absent from the module crashes rather than reporting. |
| CodegenProps.CallChecksFirst | ast/ast_call_expr.h:28-40 | "Unknown function referenced", then "Incorrect # arguments passed", are decided before any argument is generated. |
| CodegenProps.ArgumentFailureAborts | ast/ast_call_expr.h:43-47 | The first argument failure aborts the rest. |
| CodegenProps.ArgumentValues | ast/ast_call_expr.h:43-49 | A successful argument loop yields one value per argument, in source order. |
| CodegenProps.IfConditionFirst | ast/ast_if_expr.h:41-44 | A failed condition fails the conditional before any block is made. |
| CodegenProps.IfTestsNonZero | ast/ast_if_expr.h:47-66 | The condition is compared `!= 0.0` and branches to the then or the else block. |
| CodegenProps.ThenFailureSkipsElse | ast/ast_if_expr.h:70-72 | A failed then branch ends the conditional, and the else branch is never generated. |
| CodegenProps.ElseFailureAborts | ast/ast_if_expr.h:82-84 | A failed else branch ends the conditional. |
| CodegenProps.IfMerges | ast/ast_if_expr.h:74-97 | Both branches jump to the merge block. The merge has exactly two entries: the then value from the block where the then branch ended, and the else value from the block where the else branch ended. |
| CodegenProps.ForStartInEnclosingScope | ast/ast_for_expr.h:58-61 | The start value is generated before the loop variable is bound. |
| CodegenProps.ForDefaultStep | ast/ast_for_expr.h:89-122 | A missing step is 1.0. The variable is reloaded before the increment. The loop repeats iff the end value is `!= 0.0`. |
| CodegenProps.ForRestoresOnSuccess | ast/ast_for_expr.h:124-128 | On success, the shadowed binding comes back, or the name is unbound. |
| CodegenProps.ForFailureLeavesBinding | ast/ast_for_expr.h:85-86 | A failing loop body leaves the loop variable bound. |
| CodegenProps.ForBodyFailureAborts | ast/ast_for_expr.h:85-86 | A failing loop body ends the loop with the body's own failure state. The step and end are never generated. |
| CodegenProps.VarInitializerSeesOuter | ast/ast_var_expr.h:36-58 | In `var a = a in a`, the initializer loads the outer `a` and the body loads the new one. |
| CodegenProps.VarDefaultInitializer | ast/ast_var_expr.h:46-51 | A binding without an initializer stores 0.0 into its fresh slot. |
| CodegenProps.RepeatedVarLeaksBinding | ast/ast_var_expr.h:68-70 | `var a = 1, a = 2 in 0` leaves `a` bound to the first inner slot afterwards. |
| CodegenProps.IdentityFunctionExample | ast/ast_function.h:33-76 | `def id(x) x` compiles to entry label, parameter store, load, return. |
| CodegenProps.FailedOperatorRollsBack | ast/ast_function.h:79-83 | A binary operator whose body fails is erased and its precedence removed. |
| CodegenProps.DefinedOperatorKeepsPrecedence | ast/ast_function.h:51-76 | A successfully defined binary operator keeps its installed precedence. |
| FunctionGen.DeclarePrototype | ast/ast_function_prototype.h:169-186 | A new name, or a body-less declaration of the same arity, is declared. A bodied one gives "redefinition of function". A different arity gives "redefinition of function with different # args". Existing bodies are kept. |
| FunctionGen.LastIndex | ast/ast_function_prototype.h:225-259 | The last position of a parameter name, or none iff the name is not a parameter. |
| FunctionGen.LastIndexOfLastOccurrence | ast/ast_function_prototype.h:225-259 | A position whose name does not occur again later is that name's last position. |
| FunctionGen.ArgAllocas | ast/ast_function_prototype.h:225-259 | Each parameter gets a fresh slot and a store of its incoming argument, in order. Every name ends bound to its last parameter's slot, or keeps its old binding. |
| FunctionGen.LastParameterWins | ast/ast_abs.h:130-166 | A parameter name that does not occur again later is bound to its own slot. |
| FunctionGen.NonParameterUnchanged | ast/ast_abs.h:130-166 | A name that is not a parameter keeps its binding. |
| FunctionGen.GenFunction | ast/ast_function.h:33-90 | The scope is cleared and the prototype declared first. A failed declaration is the definition's failure and changes nothing more. Otherwise the body is compiled on the declared state. Either way, existing bodies are kept and diagnostics only grow. |
| FunctionGen.EntryState | ast/ast_function.h:51-59 | A binary operator's precedence is installed, every other kind leaves the registry alone. The code is the entry label followed by one store per parameter. Functions and diagnostics are unchanged. |
| FunctionGen.CompileBody | ast/ast_function.h:59-90 | A success replaces only the function's own entry, with its arity and a body that starts with a label and ends with a return. A failure erases the function and, for an operator with no earlier override, restores the registry. Diagnostics only grow. It never crashes when the body's user operators all have their functions in the table. |
| FunctionGen.DefinitionSucceeds | ast/ast_function.h:51-76 | A successful definition was declared first, and no other function changes. Its body starts with the entry label and ends with a return. A binary operator keeps its installed precedence. |
| FunctionGen.DefinitionFailureErases | ast/ast_function.h:79-83 | A declared definition whose body fails is erased from the module. A binary operator with no earlier override leaves the registry exactly as before. |
| Dispatch.Define | dispatch.h:9-12 | A failed code generation is only reported. A crash ends the loop. |
| Dispatch.HandleFunction | dispatch.h:6-17 | A parse failure is reported and exactly one token after the failure point is skipped. A parsed definition goes to code generation with no token skipped, a failure there is reported as "Error reading function definition:", and a crash ends the loop. |
| Dispatch.HandleExtern | dispatch.h:20-29 | A parse failure skips one token. Otherwise the prototype is declared, or "Error reading extern" is reported. |
| Dispatch.HandleTopLevel | dispatch.h:31-41 | A parse failure skips one token. Otherwise the expression is compiled as `main` with no token skipped, a failure there is reported as "Error generating code for top level expr", and a crash ends the loop. |
| Dispatch.Handle | dispatch.h:46-58 | Every item consumes input, keeps definitions and only extends the diagnostics. |
| Dispatch.MainLoop | dispatch.h:44-64 | At the end token the loop returns at once. Diagnostics only grow, and definitions are kept. |
| DispatchProps.BinaryOperatorName | ast/ast_function_prototype.h:54-58 | A well-formed binary operator prototype is named `binary` followed by the operator character that is read back. |
| DispatchProps.DeclaredOperatorHasNoOverride | ast/ast_function.h:33-52 | When every override belongs to a bodied operator function, a binary operator whose declaration succeeds has no earlier override. |
| DispatchProps.FailedDefinitionRestoresRegistry | ast/ast_function.h:51-83 | When every override belongs to a bodied operator function, a failed definition leaves the registry exactly as it was. |
| DispatchProps.DefineKeepsOverridesDefined | dispatch.h:9-12 | A definition that does not crash keeps every override tied to a bodied `binary` function. |
| DispatchProps.FunctionKeepsOverridesDefined | dispatch.h:6-17 | A `def` item that does not crash keeps the invariant. |
| DispatchProps.ExternKeepsOverridesDefined | dispatch.h:20-29 | An `extern` item keeps the invariant: it never touches a bodied name. |
| DispatchProps.TopLevelKeepsOverridesDefined | dispatch.h:31-41 | A top-level expression that does not crash keeps the invariant. |
| DispatchProps.HandleKeepsOverridesDefined | dispatch.h:46-58 | Every item that does not crash keeps the invariant. |
| DispatchProps.SessionKeepsOverridesDefined | dispatch.h:44-64 | A session that finishes keeps the invariant, so every failed definition in it restores the registry exactly. |
| DispatchProps.InitialOverridesDefined | binop_precedence.h:8 | A fresh session has no overrides, so the invariant holds from the start. |
| DispatchProps.DeclaredOpsDefined | ast/ast_binary_expr.h:78-84 | When every overridden symbol has its `binary` function, an expression parsed with that registry only uses user operators whose functions exist, so the assertion on the operator's function cannot fire. |
| DispatchProps.DefineNeverCrashes | dispatch.h:9-12 | Under the invariant, a definition whose body was parsed with the session's registry never crashes. |
| DispatchProps.HandleNeverCrashes | dispatch.h:46-58 | Under the invariant, no item of the loop crashes. |
| DispatchProps.SessionNeverAborts | dispatch.h:44-64 | From any state that keeps the invariant, the loop runs to the end of input. |
| DispatchProps.FreshSessionFinishes | dispatch.h:44-64 | A fresh session handles every token stream to its end: the crash on a missing operator function is unreachable. |
| DispatchProps.TopLevelDefinesMain | ast/ast_parse.h:331-340 | A top-level expression that compiles leaves `main` defined. |
| DispatchProps.SecondMainIsRedefinition | ast/ast_function_prototype.h:176-179 | Once `main` has a body, a further top-level expression fails with "redefinition of function". |
| DispatchProps.TwoTopLevelExpressionsExample | dispatch.h:44-64 | The input `1 2` defines `main` once, then reports a redefinition and a top-level error. |

## Left out

- Reading the program text (`get_prog_char`, producer.cpp, source.h): the
  input is a finite character sequence with an explicit end.
- The JIT driver, target set-up and pass manager (toy.cpp, main.cpp): they
  only seed the built-in precedences, which the registry's table already
  holds.
- Debug information (debuginfo/, debug.h, every `emitLocation`): DWARF
  metadata has no bearing on the modelled behaviour.
- LLVM's module, builder and helper singletons (llvm_helper.h,
  builder_manager.h, module_manager.h, codegen.h): replaced by the
  abstract state record.
- `verifyFunction`, the optimizer and LLVM's rename-on-conflict mechanics:
  only their observable rule, "a name already exists", is kept.
- Decimal.StrToD: the value is exact; rounding to a double is not modelled.
- Floating-point semantics: values are reals. Ordered/unordered compares and
  NaN are not modelled.
- The `dump` printers (ast/ast.h and every node's `dump`): only the null
  body case and the location suffix are modelled.
- string_helper.h: number formatting belongs to the printers.
- The "Func name:" line that every prototype's code generation prints to
  standard output (ast/ast_function_prototype.h:164-165, ast/ast_abs.h:71-72):
  the model's only output is the diagnostics list, so this trace line, printed
  for every `def`, `extern` and top-level expression, is not modelled.
- Tokens.Byte: characters are unsigned 0..255. The sign of the source's
  `char` on the build platform is not modelled.

=== FILE: ast.dfy ===
/**
 The syntax tree (the ast/ headers): expression nodes that carry the source location
 of their introducing token, prototypes and function definitions.
 */
module Ast {
  import opened Wrappers
  import opened Tokens
  import Lexer
  import Decimal

  type Loc = Lexer.Loc

  datatype Expr =
    | Number(loc: Loc, val: real)
    | Variable(loc: Loc, name: string)
    | Unary(loc: Loc, opcode: Byte, operand: Expr)
    | Binary(loc: Loc, op: Byte, lhs: Expr, rhs: Expr)
    | Call(loc: Loc, callee: string, args: seq<Expr>)
    | If(loc: Loc, cond: Expr, thenBr: Expr, elseBr: Expr)
    | For(loc: Loc, varName: string, start: Expr, end: Expr, step: Option<Expr>, body: Expr)
    | Var(loc: Loc, bindings: seq<Binding>, body: Expr)

  /** One `name [= init]` entry of a `var` list; a missing initializer is `None`. */
  datatype Binding = Binding(name: string, init: Option<Expr>)

  /**
   A function signature. `precedence` is the `unsigned` the constructor
   receives; `line` is the line of the location it was built at.
   */
  datatype Prototype = Prototype(name: string, args: seq<string>, isOperator: bool, precedence: nat, line: nat)

  datatype FunctionDef = FunctionDef(proto: Prototype, body: Expr)

  // ------------------------------------------------------------ locations

  function GetLine(e: Expr): nat {
    e.loc.line
  }

  function GetCol(e: Expr): nat {
    e.loc.col
  }

  /** The text `dump` appends after every node: `:line:col` and a newline. */
  function LocationSuffix(e: Expr): (s: string)
    ensures ReadLocationSuffix(s) == Some((GetLine(e), GetCol(e)))
  {
    var s := ":" + Decimal.Show(GetLine(e)) + ":" + Decimal.Show(GetCol(e)) + "\n";
    SuffixRoundTrip(Decimal.Show(GetLine(e)), Decimal.Show(GetCol(e)));
    Decimal.ShowRoundTrip(GetLine(e));
    Decimal.ShowRoundTrip(GetCol(e));
    s
  }

  /** Reads `:line:col\n` back; `None` when the text does not have that shape. */
  function ReadLocationSuffix(s: string): Option<(nat, nat)> {
    if |s| == 0 || s[0] != ':' then None
    else
      var a := Decimal.LeadingDigits(s[1..]);
      var rest := s[1 + |a|..];
      if |a| == 0 || |rest| == 0 || rest[0] != ':' then None
      else
        var b := Decimal.LeadingDigits(rest[1..]);
        if |b| == 0 || rest[1 + |b|..] != "\n" then None
        else Some((Decimal.DigitsValue(a), Decimal.DigitsValue(b)))
  }

  /** A digit field after `:` reads back as exactly its digits, leaving the text after it. */
  lemma FieldThen(d: string, t: string)
    requires Decimal.AllDigits(d) && |t| > 0 && !Decimal.IsDigit(t[0])
    ensures var s := ":" + d + t; Decimal.LeadingDigits(s[1..]) == d && s[1 + |d|..] == t
  {
    var s := ":" + d + t;
    assert s[1..] == d + t;
    Decimal.LeadingDigitsOfConcat(d, t);
  }

  /** Any text made of `:`, a digit field, `:`, a digit field and a line end reads back as the two fields. */
  lemma ReadFields(s: string, a: string, b: string)
    requires |a| > 0 && |b| > 0 && |s| > 1 + |a| && s[0] == ':'
    requires Decimal.LeadingDigits(s[1..]) == a
    requires var rest := s[1 + |a|..]; rest[0] == ':' && Decimal.LeadingDigits(rest[1..]) == b && rest[1 + |b|..] == "\n"
    ensures ReadLocationSuffix(s) == Some((Decimal.DigitsValue(a), Decimal.DigitsValue(b)))
  {
  }

  /** Regrouping five pieces of text so that the last three form one piece. */
  lemma Regroup<T>(p: seq<T>, a: seq<T>, q: seq<T>, b: seq<T>, r: seq<T>)
    ensures p + a + q + b + r == p + a + (q + b + r)
  {
  }

  lemma SuffixRoundTrip(a: string, b: string)
    requires |a| > 0 && |b| > 0 && Decimal.AllDigits(a) && Decimal.AllDigits(b)
    ensures ReadLocationSuffix(":" + a + ":" + b + "\n") == Some((Decimal.DigitsValue(a), Decimal.DigitsValue(b)))
  {
    var t := ":" + b + "\n";
    FieldThen(a, t);
    FieldThen(b, "\n");
    ReadFields(":" + a + t, a, b);
    Regroup(":", a, ":", b, "\n");
  }

  // ------------------------------------------------------------ prototypes

  predicate IsUnaryOp(p: Prototype) {
    p.isOperator && |p.args| == 1
  }

  predicate IsBinaryOp(p: Prototype) {
    p.isOperator && |p.args| == 2
  }

  /**
   `getOperatorName`: the operator symbol is the last character of the name.
   The source asserts the operator kind; it also indexes the name's last
   character, so the name must not be empty.
   */
  function OperatorName(p: Prototype): (c: char)
    requires IsUnaryOp(p) || IsBinaryOp(p)
    requires |p.name| > 0
    ensures p.name == p.name[..|p.name| - 1] + [c]
  {
    p.name[|p.name| - 1]
  }

  /** `getBinaryPrecedence`: the value given at construction. */
  function BinaryPrecedence(p: Prototype): nat {
    p.precedence
  }

  /** The operator kinds exclude each other, and both need the operator flag. */
  lemma OperatorKindsExclusive(p: Prototype)
    ensures !(IsUnaryOp(p) && IsBinaryOp(p))
    ensures (IsUnaryOp(p) || IsBinaryOp(p)) ==> p.isOperator
    ensures p.isOperator ==> (IsUnaryOp(p) <==> |p.args| == 1) && (IsBinaryOp(p) <==> |p.args| == 2)
  {
  }

  /** The names the parser gives operator functions. */
  function UnaryName(c: Byte): string {
    "unary" + [c]
  }

  function BinaryName(c: Byte): string {
    "binary" + [c]
  }

  /**
   A prototype declared with a synthesized operator name is recognised by the
   predicates as the operator it declares, and gives back its symbol; the two
   kinds never overlap.
   */
  lemma OperatorNameRoundTrip(c: Byte, args: seq<string>, prec: nat, line: nat)
    ensures |args| == 1 ==>
              var p := Prototype(UnaryName(c), args, true, prec, line);
              IsUnaryOp(p) && !IsBinaryOp(p) && OperatorName(p) == c
    ensures |args| == 2 ==>
              var p := Prototype(BinaryName(c), args, true, prec, line);
              IsBinaryOp(p) && !IsUnaryOp(p) && OperatorName(p) == c
  {
  }

  /** A prototype that is not flagged as an operator is neither kind, whatever its arity. */
  lemma PlainIsNoOperator(p: Prototype)
    requires !p.isOperator
    ensures !IsUnaryOp(p) && !IsBinaryOp(p)
  {
  }

  // ------------------------------------------------------------ dump

  function Indent(n: nat): string {
    seq(n, _ => ' ')
  }

  /**
   `FunctionAST::dump` of ast.h: a header, then the body's own dump, or
   `null` when there is no body. The body's dump text is given.
   */
  function DumpFunction(ind: nat, body: Option<string>): (out: string)
    ensures body.None? ==> out == Indent(ind) + "FunctionAST\n" + Indent(ind + 1) + "Body:null\n"
    ensures body.Some? ==> |out| > |body.value| && out[|out| - |body.value|..] == body.value
    ensures |out| > ind && out[..ind] == Indent(ind)
  {
    Indent(ind) + "FunctionAST\n" + Indent(ind + 1) + "Body:" + body.GetOr("null\n")
  }
}

=== FILE: binop.dfy ===
/**
 The operator precedence registry of binop_precedence.h: a map of overrides
 in front of fixed built-in precedences.
 */
module Binop {

  /** Only the overridden or user-declared operators are stored. */
  datatype Registry = Registry(overrides: map<char, int>)

  function Empty(): Registry {
    Registry(map[])
  }

  /** The fixed precedences used when a symbol has no override; -1 means "not an operator". */
  function Builtin(c: char): (p: int)
    ensures p == -1 || p in {2, 10, 20, 40}
    ensures p > 0 <==> c in {'=', '<', '+', '-', '*'}
  {
    if c == '=' then 2
    else if c == '<' then 10
    else if c == '+' then 20
    else if c == '-' then 20
    else if c == '*' then 40
    else -1
  }

  /** `getBinopPrecedence`: an override wins, even over a built-in symbol. */
  function GetBinopPrecedence(r: Registry, c: char): (p: int)
    ensures c in r.overrides ==> p == r.overrides[c]
    ensures c !in r.overrides ==> p == Builtin(c)
  {
    if c in r.overrides then r.overrides[c] else Builtin(c)
  }

  /** `setPrecedence`: the symbol now reads `v`; every other symbol reads as before. */
  function SetPrecedence(r: Registry, c: char, v: int): (r': Registry)
    ensures GetBinopPrecedence(r', c) == v
    ensures forall d :: d != c ==> GetBinopPrecedence(r', d) == GetBinopPrecedence(r, d)
    ensures forall d :: d != c ==> (d in r'.overrides <==> d in r.overrides)
  {
    Registry(r.overrides[c := v])
  }

  /** `removePrecedence`: the symbol reverts to its built-in reading; other overrides stay. */
  function RemovePrecedence(r: Registry, c: char): (r': Registry)
    ensures GetBinopPrecedence(r', c) == Builtin(c)
    ensures c !in r'.overrides
    ensures forall d :: d != c ==> GetBinopPrecedence(r', d) == GetBinopPrecedence(r, d)
    ensures forall d :: d != c && d in r.overrides ==> d in r'.overrides && r'.overrides[d] == r.overrides[d]
  {
    Registry(r.overrides - {c})
  }

  /** The built-in table in order: `=` < `<` < `+` = `-` < `*`; anything else is not an operator. */
  lemma BuiltinOrder(c: char)
    ensures Builtin('=') == 2 && Builtin('<') == 10 && Builtin('+') == 20
    ensures Builtin('-') == 20 && Builtin('*') == 40
    ensures c !in {'=', '<', '+', '-', '*'} ==> GetBinopPrecedence(Empty(), c) == -1
  {
  }

  /** Writing twice: the last write wins. */
  lemma {:induction false} LastWriteWins(r: Registry, c: char, v: int, w: int)
    ensures SetPrecedence(SetPrecedence(r, c, v), c, w) == SetPrecedence(r, c, w)
  {
    assert SetPrecedence(SetPrecedence(r, c, v), c, w).overrides == r.overrides[c := w];
  }

  /** Installing then removing an operator that had no override leaves the registry as it was. */
  lemma {:induction false} InstallThenRollback(r: Registry, c: char, v: int)
    requires c !in r.overrides
    ensures RemovePrecedence(SetPrecedence(r, c, v), c) == r
  {
    assert r.overrides[c := v] - {c} == r.overrides;
  }
}

=== FILE: codegen.dfy ===
/**
 Expression code generation (the `Codegen` methods of the ast/ast_*_expr.h
 nodes) as a state transformer. The LLVM builder is replaced by an abstract
 emitter: storage slots and SSA registers are fresh numbers, emitted
 instructions are appended to the current function's code, and the module's
 functions are a table from name to arity and optional body. Each generator
 returns the value it produced, a failure after a diagnostic, or a crash
 (the failed `assert` of a missing user-defined binary operator).
 */
module Codegen {
  import opened Wrappers
  import opened Ast
  import NamedValues
  import Binop

  type Slot = NamedValues.Slot
  type Scope = NamedValues.Scope

  /** An SSA value: a floating-point constant, an instruction result, or a function argument. */
  datatype Value = Const(r: real) | Reg(id: nat) | Arg(index: nat)

  datatype ArithOp = FAdd | FSub | FMul

  datatype Instr =
    | Store(val: Value, slot: Slot)
    | Load(dst: nat, slot: Slot)
    | Arith(dst: nat, op: ArithOp, a: Value, b: Value)
    | CmpLT(dst: nat, a: Value, b: Value)
    | BoolToReal(dst: nat, src: nat)
    | CmpNE(dst: nat, a: Value, b: Value)
    | CallFn(dst: nat, callee: string, args: seq<Value>)
    | Br(target: nat)
    | CondBr(cond: nat, ifTrue: nat, ifFalse: nat)
    | Label(block: nat)
    | Phi(dst: nat, incoming: seq<(Value, nat)>)
    | Ret(val: Value)

  /** A function of the module: its parameter count, and its body once it has one. */
  datatype FnEntry = FnEntry(arity: nat, body: Option<seq<Instr>>)

  /**
   Everything code generation reads and writes: the symbol table's view, the
   operator registry, the module's functions, the next fresh number, the
   code of the function being generated, the block being filled, and the
   diagnostics printed so far.
   */
  datatype CgState = CgState(
    scope: Scope,
    reg: Binop.Registry,
    fns: map<string, FnEntry>,
    next: nat,
    code: seq<Instr>,
    block: nat,
    diags: seq<string>)

  datatype Gen<T> = Emitted(v: T, st: CgState) | Failed(st: CgState) | Crashed(st: CgState)

  /** Passes a failure or crash on unchanged. */
  function Stop<A, B>(r: Gen<A>): (r': Gen<B>)
    requires !r.Emitted?
    ensures r'.st == r.st && r'.Failed? == r.Failed? && !r'.Emitted?
  {
    if r.Failed? then Failed(r.st) else Crashed(r.st)
  }

  /** `error::print` followed by a null return. */
  function Fail<T>(st: CgState, msg: string): (r: Gen<T>)
    ensures r.Failed? && r.st == st.(diags := st.diags + [msg])
  {
    Failed(st.(diags := st.diags + [msg]))
  }

  function Emit(st: CgState, ins: seq<Instr>): CgState {
    st.(code := st.code + ins)
  }

  /**
   What expression code generation may change: it appends code and
   diagnostics and draws fresh numbers; it never touches the function table
   or the operator registry.
   */
  predicate Grows(st: CgState, st': CgState) {
    st'.fns == st.fns && st'.reg == st.reg && st.next <= st'.next
    && st.code <= st'.code && st.diags <= st'.diags
  }

  /** A function that has a body keeps it: bodies are never replaced or erased. */
  predicate KeepsDefinitions(st: CgState, st': CgState) {
    forall n :: n in st.fns && st.fns[n].body.Some? ==> n in st'.fns && st'.fns[n] == st.fns[n]
  }

  lemma GrowsTrans(a: CgState, b: CgState, c: CgState)
    requires Grows(a, b) && Grows(b, c)
    ensures Grows(a, c)
  {
    assert c.code[..|a.code|] == b.code[..|a.code|];
    assert c.diags[..|a.diags|] == b.diags[..|a.diags|];
  }

  lemma KeepsTrans(a: CgState, b: CgState, c: CgState)
    requires KeepsDefinitions(a, b) && KeepsDefinitions(b, c)
    ensures KeepsDefinitions(a, c)
  {
  }

  /** Every `var` list in the tree binds pairwise distinct names. */
  predicate DistinctVars(e: Expr)
    decreases e
  {
    match e
    case Number(_, _) => true
    case Variable(_, _) => true
    case Unary(_, _, x) => DistinctVars(x)
    case Binary(_, _, l, r) => DistinctVars(l) && DistinctVars(r)
    case Call(_, _, args) => forall i :: 0 <= i < |args| ==> DistinctVars(args[i])
    case If(_, c, t, f) => DistinctVars(c) && DistinctVars(t) && DistinctVars(f)
    case For(_, _, a, b, st, body) =>
      DistinctVars(a) && DistinctVars(b) && DistinctVars(body) && (st.Some? ==> DistinctVars(st.value))
    case Var(_, bs, body) =>
      DistinctVars(body)
      && (forall i :: 0 <= i < |bs| ==> bs[i].init.Some? ==> DistinctVars(bs[i].init.value))
      && (forall i, j :: 0 <= i < j < |bs| ==> bs[i].name != bs[j].name)
  }

  /**
   Every binary operator in the tree that lowers to a call (anything but
   `=`, `<`, `+`, `-` and `*`) names a function `"binary"` + op that the
   table holds, so its assertion cannot fire.
   */
  predicate UserOpsDefined(e: Expr, fns: map<string, FnEntry>)
    decreases e
  {
    match e
    case Number(_, _) => true
    case Variable(_, _) => true
    case Unary(_, _, x) => UserOpsDefined(x, fns)
    case Binary(_, op, l, r) =>
      (op != '=' && op != '<' && ArithFor(op).None? ==> BinaryName(op) in fns)
      && UserOpsDefined(l, fns) && UserOpsDefined(r, fns)
    case Call(_, _, args) => forall i :: 0 <= i < |args| ==> UserOpsDefined(args[i], fns)
    case If(_, c, t, f) => UserOpsDefined(c, fns) && UserOpsDefined(t, fns) && UserOpsDefined(f, fns)
    case For(_, _, a, b, st, body) =>
      UserOpsDefined(a, fns) && UserOpsDefined(b, fns) && UserOpsDefined(body, fns)
      && (st.Some? ==> UserOpsDefined(st.value, fns))
    case Var(_, bs, body) =>
      UserOpsDefined(body, fns)
      && forall i :: 0 <= i < |bs| ==> bs[i].init.Some? ==> UserOpsDefined(bs[i].init.value, fns)
  }

  /** The contract every expression generator keeps. */
  predicate GenOk<T>(r: Gen<T>, st: CgState) {
    Grows(st, r.st)
  }

  // ------------------------------------------------------------ expressions

  function GenExpr(e: Expr, st: CgState): (r: Gen<Value>)
    decreases e, 1
    ensures GenOk(r, st)
    ensures UserOpsDefined(e, st.fns) ==> !r.Crashed?
    ensures r.Emitted? && DistinctVars(e) ==> r.st.scope == st.scope
  {
    match e
    case Number(_, v) => Emitted(Const(v), st)
    case Variable(_, name) => GenVariable(name, st)
    case Unary(_, _, _) => GenUnary(e, st)
    case Binary(_, _, _, _) => GenBinary(e, st)
    case Call(_, _, _) => GenCall(e, st)
    case If(_, _, _, _) => GenIf(e, st)
    case For(_, _, _, _, _, _) => GenFor(e, st)
    case Var(_, _, _) => GenVar(e, st)
  }

  /** A variable reference loads from the slot its name is bound to. */
  function GenVariable(name: string, st: CgState): (r: Gen<Value>)
    ensures GenOk(r, st) && r.st.scope == st.scope
    ensures NamedValues.Lookup(st.scope, name).None? ==> r == Fail(st, "Unknown variable name")
    ensures NamedValues.Lookup(st.scope, name).Some? ==>
              r.Emitted? && r.v == Reg(st.next) && r.st.next == st.next + 1
              && r.st.code == st.code + [Load(st.next, st.scope[name])]
  {
    match NamedValues.Lookup(st.scope, name)
    case None => Fail(st, "Unknown variable name")
    case Some(slot) =>
      var d := st.next; var st1 := st.(next := d + 1);
      Emitted(Reg(d), Emit(st1, [Load(d, slot)]))
  }

  /** The operand first; then a call of the function `"unary"` + opcode, which must exist. */
  function GenUnary(e: Expr, st: CgState): (r: Gen<Value>)
    requires e.Unary?
    decreases e, 0
    ensures GenOk(r, st)
    ensures UserOpsDefined(e, st.fns) ==> !r.Crashed?
    ensures r.Emitted? && DistinctVars(e) ==> r.st.scope == st.scope
  {
    var r1 := GenExpr(e.operand, st);
    if !r1.Emitted? then Stop(r1)
    else
      var name := UnaryName(e.opcode);
      if name !in r1.st.fns then
        GrowsTrans(st, r1.st, r1.st.(diags := r1.st.diags + ["Unknown unary operator"]));
        Fail(r1.st, "Unknown unary operator")
      else
        var d := r1.st.next; var st2 := r1.st.(next := d + 1);
        var st3 := Emit(st2, [CallFn(d, name, [r1.v])]);
        GrowsTrans(st, r1.st, st3);
        Emitted(Reg(d), st3)
  }

  /** The instruction a built-in arithmetic operator lowers to. */
  function ArithFor(op: Tokens.Byte): Option<ArithOp> {
    if op == '+' then Some(FAdd)
    else if op == '-' then Some(FSub)
    else if op == '*' then Some(FMul)
    else None
  }

  /**
   `=` stores into the slot of the variable on its left, after generating the
   right side; every other operator generates both operands before checking
   either, then lowers `+ - *` to arithmetic, `<` to a compare widened to
   1.0/0.0, and anything else to a call of `"binary"` + op, whose existence
   the source asserts.
   */
  function GenBinary(e: Expr, st: CgState): (r: Gen<Value>)
    requires e.Binary?
    decreases e, 0
    ensures GenOk(r, st)
    ensures UserOpsDefined(e, st.fns) ==> !r.Crashed?
    ensures r.Emitted? && DistinctVars(e) ==> r.st.scope == st.scope
  {
    if e.op == '=' then
      if !e.lhs.Variable? then Fail(st, "destination of '=' must be a variable")
      else
        var rv := GenExpr(e.rhs, st);
        if !rv.Emitted? then Stop(rv)
        else
          match NamedValues.Lookup(rv.st.scope, e.lhs.name)
          case None =>
            GrowsTrans(st, rv.st, rv.st.(diags := rv.st.diags + ["Unknown variable name"]));
            Fail(rv.st, "Unknown variable name")
          case Some(slot) =>
            GrowsTrans(st, rv.st, Emit(rv.st, [Store(rv.v, slot)]));
            Emitted(rv.v, Emit(rv.st, [Store(rv.v, slot)]))
    else
      var lv := GenExpr(e.lhs, st);
      if lv.Crashed? then Crashed(lv.st)
      else
        var rv := GenExpr(e.rhs, lv.st);
        GrowsTrans(st, lv.st, rv.st);
        if rv.Crashed? then Crashed(rv.st)
        else if !lv.Emitted? || !rv.Emitted? then Failed(rv.st)
        else GenBinaryOp(e.op, lv.v, rv.v, st, rv.st)
  }

  /** The operator part of a non-assignment binary node, once both operands are values. */
  function GenBinaryOp(op: Tokens.Byte, a: Value, b: Value, st0: CgState, st: CgState): (r: Gen<Value>)
    requires Grows(st0, st)
    ensures GenOk(r, st0) && r.st.scope == st.scope
    ensures ArithFor(op).Some? ==>
              r == Emitted(Reg(st.next), st.(next := st.next + 1, code := st.code + [Arith(st.next, ArithFor(op).value, a, b)]))
    ensures op == '<' ==>
              r == Emitted(Reg(st.next + 1), st.(next := st.next + 2,
                                                 code := st.code + [CmpLT(st.next, a, b), BoolToReal(st.next + 1, st.next)]))
    ensures ArithFor(op).None? && op != '<' ==>
              (BinaryName(op) in st.fns <==> r.Emitted?) && (r.Emitted? || r.Crashed?)
    ensures ArithFor(op).None? && op != '<' && r.Emitted? ==>
              r == Emitted(Reg(st.next), st.(next := st.next + 1, code := st.code + [CallFn(st.next, BinaryName(op), [a, b])]))
    ensures r.Crashed? ==> r.st == st.(diags := st.diags + ["binary operator not found!"])
  {
    match ArithFor(op)
    case Some(k) =>
      var d := st.next; var st1 := st.(next := d + 1);
      var st2 := Emit(st1, [Arith(d, k, a, b)]);
      GrowsTrans(st0, st, st2);
      Emitted(Reg(d), st2)
    case None =>
      if op == '<' then
        var c := st.next; var st1 := st.(next := c + 1);
        var d := st1.next; var st2 := st1.(next := d + 1);
        var st3 := Emit(st2, [CmpLT(c, a, b), BoolToReal(d, c)]);
        GrowsTrans(st0, st, st3);
        Emitted(Reg(d), st3)
      else
        var name := BinaryName(op);
        if name !in st.fns then
          var st1 := st.(diags := st.diags + ["binary operator not found!"]);
          GrowsTrans(st0, st, st1);
          Crashed(st1)
        else
          var d := st.next; var st1 := st.(next := d + 1);
          var st2 := Emit(st1, [CallFn(d, name, [a, b])]);
          GrowsTrans(st0, st, st2);
          Emitted(Reg(d), st2)
  }

  /**
   A call: the callee must exist and take as many parameters as there are
   arguments, both checked before any argument is generated; arguments are
   generated left to right.
   */
  function GenCall(e: Expr, st: CgState): (r: Gen<Value>)
    requires e.Call?
    decreases e, 0
    ensures GenOk(r, st)
    ensures UserOpsDefined(e, st.fns) ==> !r.Crashed?
    ensures r.Emitted? && DistinctVars(e) ==> r.st.scope == st.scope
  {
    if e.callee !in st.fns then Fail(st, "Unknown function referenced")
    else if st.fns[e.callee].arity != |e.args| then Fail(st, "Incorrect # arguments passed")
    else
      var ra := GenArgs(e, 0, st, []);
      if !ra.Emitted? then Stop(ra)
      else
        var d := ra.st.next; var st1 := ra.st.(next := d + 1);
        var st2 := Emit(st1, [CallFn(d, e.callee, ra.v)]);
        GrowsTrans(st, ra.st, st2);
        Emitted(Reg(d), st2)
  }

  /** The argument loop: arguments `i..` of call `e`, each value appended to `acc`. */
  function GenArgs(e: Expr, i: nat, st: CgState, acc: seq<Value>): (r: Gen<seq<Value>>)
    requires e.Call? && i <= |e.args|
    decreases e, 0, |e.args| - i
    ensures GenOk(r, st)
    ensures UserOpsDefined(e, st.fns) ==> !r.Crashed?
    ensures r.Emitted? ==> |r.v| == |acc| + |e.args| - i && r.v[..|acc|] == acc
    ensures r.Emitted? && DistinctVars(e) ==> r.st.scope == st.scope
  {
    if i == |e.args| then Emitted(acc, st)
    else
      var r1 := GenExpr(e.args[i], st);
      if !r1.Emitted? then Stop(r1)
      else
        var r2 := GenArgs(e, i + 1, r1.st, acc + [r1.v]);
        GrowsTrans(st, r1.st, r2.st);
        if r2.Emitted? then
          assert (acc + [r1.v]) <= r2.v;
          r2
        else r2
  }

  /**
   `cond != 0.0` selects between a `then` and an `else` block, both ending in
   a branch to a merge block whose phi takes each branch's value from the
   block that branch ended in.
   */
  function GenIf(e: Expr, st: CgState): (r: Gen<Value>)
    requires e.If?
    decreases e, 0
    ensures GenOk(r, st)
    ensures UserOpsDefined(e, st.fns) ==> !r.Crashed?
    ensures r.Emitted? && DistinctVars(e) ==> r.st.scope == st.scope
  {
    var rc := GenExpr(e.cond, st);
    if !rc.Emitted? then Stop(rc)
    else
      var n := rc.st.next;
      var s5 := IfEntry(rc.v, rc.st);
      GrowsTrans(st, rc.st, s5);
      var rt := GenExpr(e.thenBr, s5);
      GrowsTrans(st, s5, rt.st);
      if !rt.Emitted? then Stop(rt)
      else
        var s6 := IfElse(n, rt.st);
        GrowsTrans(st, rt.st, s6);
        var rf := GenExpr(e.elseBr, s6);
        GrowsTrans(st, s6, rf.st);
        if !rf.Emitted? then Stop(rf)
        else
          var p := rf.st.next;
          var s8 := rf.st.(next := p + 1, block := n + 3,
                           code := rf.st.code + [Br(n + 3), Label(n + 3), Phi(p, [(rt.v, rt.st.block), (rf.v, rf.st.block)])]);
          GrowsTrans(st, rf.st, s8);
          Emitted(Reg(p), s8)
  }

  /**
   The state in which the then branch is generated: the condition compared
   with 0.0 into register `n`, a conditional branch to the then block `n + 1`
   or the else block `n + 2`, and the then block entered; `n + 3` is reserved
   for the merge block.
   */
  function IfEntry(cv: Value, st: CgState): (s: CgState)
    ensures Grows(st, s) && s.next == st.next + 4 && s.block == st.next + 1
  {
    var n := st.next;
    st.(next := n + 4, code := st.code + [CmpNE(n, cv, Const(0.0)), CondBr(n, n + 1, n + 2), Label(n + 1)], block := n + 1)
  }

  /** The state in which the else branch is generated: the then block closed by a branch to the merge block. */
  function IfElse(n: nat, st: CgState): (s: CgState)
    ensures Grows(st, s) && s.block == n + 2 && s.next == st.next
  {
    st.(code := st.code + [Br(n + 3), Label(n + 2)], block := n + 2)
  }

  /**
   A counted loop in do-while shape: a slot for the loop variable, the start
   value stored into it with the variable not yet in scope, then the loop
   block holding the body, the step (1.0 when absent), the end condition, the
   reload-add-store of the variable and the branch back while the end
   condition is not 0.0. The shadowed binding is put back only on success,
   and the loop's value is always 0.0.
   */
  function GenFor(e: Expr, st: CgState): (r: Gen<Value>)
    requires e.For?
    decreases e, 0
    ensures GenOk(r, st)
    ensures UserOpsDefined(e, st.fns) ==> !r.Crashed?
    ensures r.Emitted? ==> r.v == Const(0.0)
    ensures r.Emitted? && DistinctVars(e) ==> r.st.scope == st.scope
  {
    var slot := st.next; var s1 := st.(next := slot + 1);
    var rs := GenExpr(e.start, s1);
    GrowsTrans(st, s1, rs.st);
    if !rs.Emitted? then Stop(rs)
    else
      var loopBB := rs.st.next; var s2 := rs.st.(next := loopBB + 1);
      var saved := NamedValues.Lookup(s2.scope, e.varName);
      var s3 := Emit(s2, [Store(rs.v, slot), Br(loopBB), Label(loopBB)])
                .(block := loopBB, scope := NamedValues.Bind(s2.scope, e.varName, Some(slot)));
      GrowsTrans(st, rs.st, s3);
      GenForRest(e, st, slot, loopBB, saved, s3)
  }

  /** The body, step and end of a `for` loop, with the loop variable bound to `slot`. */
  function GenForRest(e: Expr, st0: CgState, slot: Slot, loopBB: nat, saved: Option<Slot>, st: CgState): (r: Gen<Value>)
    requires e.For? && Grows(st0, st)
    decreases e, 0, 0
    ensures GenOk(r, st0)
    ensures UserOpsDefined(e, st.fns) ==> !r.Crashed?
    ensures r.Emitted? ==> r.v == Const(0.0)
    ensures r.Emitted? && DistinctVars(e) ==> r.st.scope == NamedValues.Bind(st.scope, e.varName, saved)
  {
    var rb := GenExpr(e.body, st);
    GrowsTrans(st0, st, rb.st);
    if !rb.Emitted? then Stop(rb)
    else
      var rstep: Gen<Value> := if e.step.Some? then GenExpr(e.step.value, rb.st) else Emitted(Const(1.0), rb.st);
      GrowsTrans(st0, rb.st, rstep.st);
      if !rstep.Emitted? then Stop(rstep)
      else
        var rend := GenExpr(e.end, rstep.st);
        GrowsTrans(st0, rstep.st, rend.st);
        if !rend.Emitted? then Stop(rend)
        else
          var cur := rend.st.next; var s1 := rend.st.(next := cur + 1);
          var nxt := s1.next; var s2 := s1.(next := nxt + 1);
          var c := s2.next; var s3 := s2.(next := c + 1);
          var afterBB := s3.next; var s4 := s3.(next := afterBB + 1);
          var s5 := Emit(s4, [Load(cur, slot), Arith(nxt, FAdd, Reg(cur), rstep.v), Store(Reg(nxt), slot),
                              CmpNE(c, rend.v, Const(0.0)), CondBr(c, loopBB, afterBB), Label(afterBB)])
                    .(block := afterBB, scope := NamedValues.Bind(rend.st.scope, e.varName, saved));
          GrowsTrans(st0, rend.st, s5);
          Emitted(Const(0.0), s5)
  }

  /** Writes the saved bindings back, first name first: `set(VarNames[i], OldBindings[i])` in order. */
  function RestoreAll(s: Scope, names: seq<string>, olds: seq<Option<Slot>>): (s': Scope)
    requires |names| == |olds|
    decreases |names|
  {
    if |names| == 0 then s
    else RestoreAll(NamedValues.Bind(s, names[0], olds[0]), names[1..], olds[1..])
  }

  function Names(bs: seq<Binding>): (ns: seq<string>)
    ensures |ns| == |bs| && forall i :: 0 <= i < |bs| ==> ns[i] == bs[i].name
  {
    seq(|bs|, i requires 0 <= i < |bs| => bs[i].name)
  }

  /**
   `var`: each initializer (0.0 when absent) is generated before its own name
   is bound, stored into a fresh slot, and the name bound to that slot, left
   to right; then the body; then the saved bindings are written back in
   forward order. A failure returns without restoring anything.
   */
  function GenVar(e: Expr, st: CgState): (r: Gen<Value>)
    requires e.Var?
    decreases e, 0
    ensures GenOk(r, st)
    ensures UserOpsDefined(e, st.fns) ==> !r.Crashed?
    ensures r.Emitted? && DistinctVars(e) ==> r.st.scope == st.scope
  {
    var rb := GenBindings(e, 0, st, []);
    if !rb.Emitted? then Stop(rb)
    else
      var body := GenExpr(e.body, rb.st);
      GrowsTrans(st, rb.st, body.st);
      if !body.Emitted? then Stop(body)
      else
        var restored := RestoreAll(body.st.scope, Names(e.bindings), rb.v);
        Emitted(body.v, body.st.(scope := restored))
  }

  /**
   Binding `i` of `var` node `e`: its initializer (0.0 when absent) is
   generated before the name is bound, stored into a fresh slot, and the name
   bound to that slot. The result is the binding it shadows, which undoes it.
   */
  function GenBinding(e: Expr, i: nat, st: CgState): (r: Gen<Option<Slot>>)
    requires e.Var? && i < |e.bindings|
    decreases e, 0, |e.bindings| - i, 0
    ensures GenOk(r, st)
    ensures UserOpsDefined(e, st.fns) ==> !r.Crashed?
    ensures r.Emitted? && DistinctVars(e) ==> NamedValues.Bind(r.st.scope, e.bindings[i].name, r.v) == st.scope
  {
    var b := e.bindings[i];
    var ri: Gen<Value> := if b.init.Some? then GenExpr(b.init.value, st) else Emitted(Const(0.0), st);
    if !ri.Emitted? then Stop(ri)
    else
      var slot := ri.st.next;
      var saved := NamedValues.Lookup(ri.st.scope, b.name);
      var s2 := ri.st.(next := slot + 1, code := ri.st.code + [Store(ri.v, slot)],
                       scope := NamedValues.Bind(ri.st.scope, b.name, Some(slot)));
      GrowsTrans(st, ri.st, s2);
      assert DistinctVars(e) ==> NamedValues.Bind(s2.scope, b.name, saved) == st.scope by {
        if DistinctVars(e) {
          assert b.init.Some? ==> DistinctVars(b.init.value);
          NamedValues.BindRestores(ri.st.scope, b.name, slot);
        }
      }
      Emitted(saved, s2)
  }

  /** Installs bindings `i..` of `var` node `e`, collecting the bindings they shadow. */
  function GenBindings(e: Expr, i: nat, st: CgState, olds: seq<Option<Slot>>): (r: Gen<seq<Option<Slot>>>)
    requires e.Var? && i <= |e.bindings| && |olds| == i
    decreases e, 0, |e.bindings| - i
    ensures GenOk(r, st)
    ensures UserOpsDefined(e, st.fns) ==> !r.Crashed?
    ensures r.Emitted? ==> |r.v| == |e.bindings| && r.v[..i] == olds
    ensures r.Emitted? && DistinctVars(e) ==>
              RestoreAll(r.st.scope, Names(e.bindings)[i..], r.v[i..]) == st.scope
  {
    if i == |e.bindings| then Emitted(olds, st)
    else
      var rb := GenBinding(e, i, st);
      if !rb.Emitted? then Stop(rb)
      else
        var rest := GenBindings(e, i + 1, rb.st, olds + [rb.v]);
        GrowsTrans(st, rb.st, rest.st);
        if !rest.Emitted? then rest
        else
          assert rest.v[..i] == rest.v[..i + 1][..i];
          if DistinctVars(e) then
            assert rest.v[i] == rest.v[..i + 1][i] == rb.v;
            BindingsRestore(e, i, st.scope, rb.st.scope, rest.st.scope, rest.v);
            rest
          else rest
  }

  /** The step of `GenBindings` that undoes the binding of name `i` after the later ones. */
  lemma BindingsRestore(e: Expr, i: nat, target: Scope, bound: Scope, fin: Scope, all: seq<Option<Slot>>)
    requires e.Var? && i < |e.bindings| && DistinctVars(e) && |all| == |e.bindings|
    requires NamedValues.Bind(bound, e.bindings[i].name, all[i]) == target
    requires RestoreAll(fin, Names(e.bindings)[i + 1..], all[i + 1..]) == bound
    ensures RestoreAll(fin, Names(e.bindings)[i..], all[i..]) == target
  {
    var ns := Names(e.bindings);
    var n := e.bindings[i].name;
    assert ns[i..] == [n] + ns[i + 1..];
    assert all[i..] == [all[i]] + all[i + 1..];
    forall k | i + 1 <= k < |ns|
      ensures ns[k] != n
    {
      assert ns[k] == e.bindings[k].name;
    }
    assert n !in ns[i + 1..];
    RestoreCommutes(fin, n, all[i], ns[i + 1..], all[i + 1..]);
  }

  /** Writing back one name commutes with writing back others that differ from it. */
  lemma {:induction false} RestoreCommutes(s: Scope, n: string, o: Option<Slot>, names: seq<string>, olds: seq<Option<Slot>>)
    requires |names| == |olds| && n !in names
    decreases |names|
    ensures RestoreAll(NamedValues.Bind(s, n, o), names, olds) == NamedValues.Bind(RestoreAll(s, names, olds), n, o)
  {
    if |names| > 0 {
      BindCommutes(s, n, o, names[0], olds[0]);
      RestoreCommutes(NamedValues.Bind(s, names[0], olds[0]), n, o, names[1..], olds[1..]);
    }
  }

  lemma BindCommutes(s: Scope, n: string, o: Option<Slot>, m: string, p: Option<Slot>)
    requires n != m
    ensures NamedValues.Bind(NamedValues.Bind(s, n, o), m, p) == NamedValues.Bind(NamedValues.Bind(s, m, p), n, o)
  {
    var a := NamedValues.Bind(NamedValues.Bind(s, n, o), m, p);
    var b := NamedValues.Bind(NamedValues.Bind(s, m, p), n, o);
    forall k
      ensures k in a <==> k in b
      ensures k in a ==> a[k] == b[k]
    {
      assert NamedValues.Lookup(a, k) == NamedValues.Lookup(b, k);
    }
  }
}

=== FILE: codegen_props.dfy ===
/**
 Properties of expression and function code generation: the order in which
 errors are detected, the defaults, and what the symbol table and operator
 registry look like after success and after failure.
 */
module CodegenProps {
  import opened Wrappers
  import Lexer
  import opened Ast
  import NamedValues
  import Binop
  import opened Codegen
  import opened FunctionGen

  // ------------------------------------------------------------ leaves

  /** A literal never fails, emits nothing and leaves the whole state alone. */
  lemma NumberIsConstant(loc: Lexer.Loc, v: real, st: CgState)
    ensures GenExpr(Expr.Number(loc, v), st) == Emitted(Const(v), st)
  {
  }

  // ------------------------------------------------------------ unary

  /** The operand comes first: its failure is the unary node's failure, before the callee is looked up. */
  lemma UnaryOperandFirst(loc: Lexer.Loc, op: Tokens.Byte, x: Expr, st: CgState)
    requires !GenExpr(x, st).Emitted?
    ensures GenExpr(Expr.Unary(loc, op, x), st).st == GenExpr(x, st).st
    ensures GenExpr(Expr.Unary(loc, op, x), st).Failed? == GenExpr(x, st).Failed?
  {
  }

  /** The callee is `"unary"` + opcode; without it the node fails after its operand was generated. */
  lemma UnaryNeedsFunction(loc: Lexer.Loc, op: Tokens.Byte, x: Expr, st: CgState)
    requires GenExpr(x, st).Emitted?
    ensures var o := GenExpr(x, st);
            UnaryName(op) !in st.fns ==> GenExpr(Expr.Unary(loc, op, x), st) == Fail(o.st, "Unknown unary operator")
    ensures var o := GenExpr(x, st);
            UnaryName(op) in st.fns ==>
              GenExpr(Expr.Unary(loc, op, x), st)
              == Emitted(Reg(o.st.next), o.st.(next := o.st.next + 1,
                                              code := o.st.code + [CallFn(o.st.next, UnaryName(op), [o.v])]))
  {
    var e := Expr.Unary(loc, op, x);
    assert GenExpr(e, st) == GenUnary(e, st);
    assert GenExpr(x, st).st.fns == st.fns;
  }

  // ------------------------------------------------------------ binary

  /** The destination of `=` must be a variable node; nothing is generated otherwise. */
  lemma AssignNeedsVariable(loc: Lexer.Loc, l: Expr, r: Expr, st: CgState)
    requires !l.Variable?
    ensures GenExpr(Expr.Binary(loc, '=', l, r), st) == Fail(st, "destination of '=' must be a variable")
  {
  }

  /** For `=` the right side is generated first, so its failure wins over an unknown destination. */
  lemma AssignRightSideFirst(loc: Lexer.Loc, vloc: Lexer.Loc, name: string, r: Expr, st: CgState)
    requires !GenExpr(r, st).Emitted?
    ensures GenExpr(Expr.Binary(loc, '=', Variable(vloc, name), r), st).st == GenExpr(r, st).st
  {
  }

  /** `=` stores the right side's value into the destination's slot and yields that value. */
  lemma AssignStores(loc: Lexer.Loc, vloc: Lexer.Loc, name: string, r: Expr, st: CgState)
    requires GenExpr(r, st).Emitted?
    ensures var o := GenExpr(r, st);
            NamedValues.Lookup(o.st.scope, name).None? ==>
              GenExpr(Expr.Binary(loc, '=', Variable(vloc, name), r), st) == Fail(o.st, "Unknown variable name")
    ensures var o := GenExpr(r, st);
            NamedValues.Lookup(o.st.scope, name).Some? ==>
              GenExpr(Expr.Binary(loc, '=', Variable(vloc, name), r), st)
              == Emitted(o.v, o.st.(code := o.st.code + [Store(o.v, o.st.scope[name])]))
  {
  }

  /**
   Other operators generate both operands before checking either: a failed
   left side still has its right side generated (with its own diagnostics).
   */
  lemma BothOperandsGenerated(loc: Lexer.Loc, op: Tokens.Byte, l: Expr, r: Expr, st: CgState)
    requires op != '=' && GenExpr(l, st).Failed?
    ensures var rs := GenExpr(r, GenExpr(l, st).st);
            GenExpr(Expr.Binary(loc, op, l, r), st) == if rs.Crashed? then Crashed(rs.st) else Failed(rs.st)
  {
  }

  /** With both operands generated, the operator is lowered as `GenBinaryOp` describes. */
  lemma BinaryLowering(loc: Lexer.Loc, op: Tokens.Byte, l: Expr, r: Expr, st: CgState)
    requires op != '=' && GenExpr(l, st).Emitted? && GenExpr(r, GenExpr(l, st).st).Emitted?
    ensures var a := GenExpr(l, st);
            var b := GenExpr(r, a.st);
            GenExpr(Expr.Binary(loc, op, l, r), st) == GenBinaryOp(op, a.v, b.v, st, b.st)
  {
  }

  /** A user operator that is not in the module crashes instead of reporting. */
  lemma MissingUserOperatorCrashes(op: Tokens.Byte, a: Value, b: Value, st: CgState)
    requires op !in {'=', '+', '-', '*', '<'} && BinaryName(op) !in st.fns
    ensures GenBinaryOp(op, a, b, st, st).Crashed?
  {
  }

  // ------------------------------------------------------------ calls

  /** Both call checks come before any argument is generated. */
  lemma CallChecksFirst(loc: Lexer.Loc, callee: string, args: seq<Expr>, st: CgState)
    ensures callee !in st.fns ==> GenExpr(Expr.Call(loc, callee, args), st) == Fail(st, "Unknown function referenced")
    ensures callee in st.fns && st.fns[callee].arity != |args| ==>
              GenExpr(Expr.Call(loc, callee, args), st) == Fail(st, "Incorrect # arguments passed")
  {
  }

  /** Arguments are generated left to right and the first failure aborts the rest. */
  lemma ArgumentFailureAborts(e: Expr, i: nat, st: CgState, acc: seq<Value>)
    requires e.Call? && i < |e.args| && !GenExpr(e.args[i], st).Emitted?
    ensures GenArgs(e, i, st, acc).st == GenExpr(e.args[i], st).st
  {
  }

  /** The argument values come back in source order, one per argument. */
  lemma {:induction false} ArgumentValues(e: Expr, i: nat, st: CgState, acc: seq<Value>)
    requires e.Call? && i < |e.args| && GenArgs(e, i, st, acc).Emitted?
    ensures GenExpr(e.args[i], st).Emitted?
    ensures GenArgs(e, i, st, acc).v[|acc|] == GenExpr(e.args[i], st).v
    ensures GenArgs(e, i, st, acc) == GenArgs(e, i + 1, GenExpr(e.args[i], st).st, acc + [GenExpr(e.args[i], st).v])
  {
    var r1 := GenExpr(e.args[i], st);
    var r2 := GenArgs(e, i + 1, r1.st, acc + [r1.v]);
    assert r2.v[..|acc| + 1] == acc + [r1.v];
    assert r2.v[|acc|] == r2.v[..|acc| + 1][|acc|];
  }

  // ------------------------------------------------------------ if

  /** A failed condition fails the conditional before any block is made. */
  lemma IfConditionFirst(loc: Lexer.Loc, c: Expr, t: Expr, f: Expr, st: CgState)
    requires !GenExpr(c, st).Emitted?
    ensures GenExpr(Expr.If(loc, c, t, f), st).st == GenExpr(c, st).st
  {
  }

  /** The condition is tested against 0.0 and selects the then block or the else block. */
  lemma IfTestsNonZero(loc: Lexer.Loc, c: Expr, t: Expr, f: Expr, st: CgState)
    requires GenExpr(c, st).Emitted?
    ensures var o := GenExpr(c, st);
            IfEntry(o.v, o.st).code <= GenExpr(Expr.If(loc, c, t, f), st).st.code
  {
    var o := GenExpr(c, st);
    var n := o.st.next;
    var s5 := IfEntry(o.v, o.st);
    var r := GenExpr(Expr.If(loc, c, t, f), st);
    var tr := GenExpr(t, s5);
    if !tr.Emitted? {
      ThenFailureSkipsElse(loc, c, t, f, st);
    } else {
      var s6 := IfElse(n, tr.st);
      GrowsTrans(s5, tr.st, s6);
      var fr := GenExpr(f, s6);
      GrowsTrans(s5, s6, fr.st);
      if !fr.Emitted? {
        ElseFailureAborts(loc, c, t, f, st);
      } else {
        IfMerges(loc, c, t, f, st);
        assert r.st.code[..|fr.st.code|] == fr.st.code;
        assert r.st.code[..|s5.code|] == fr.st.code[..|s5.code|];
      }
    }
  }

  /** A failed then branch ends the conditional: the else branch is never generated. */
  lemma ThenFailureSkipsElse(loc: Lexer.Loc, c: Expr, t: Expr, f: Expr, st: CgState)
    requires GenExpr(c, st).Emitted?
    ensures var o := GenExpr(c, st);
            !GenExpr(t, IfEntry(o.v, o.st)).Emitted? ==> GenExpr(Expr.If(loc, c, t, f), st).st == GenExpr(t, IfEntry(o.v, o.st)).st
  {
  }

  /** A failed else branch ends the conditional, after the then branch was generated. */
  lemma ElseFailureAborts(loc: Lexer.Loc, c: Expr, t: Expr, f: Expr, st: CgState)
    requires GenExpr(c, st).Emitted?
    requires GenExpr(t, IfEntry(GenExpr(c, st).v, GenExpr(c, st).st)).Emitted?
    ensures var o := GenExpr(c, st);
            var tr := GenExpr(t, IfEntry(o.v, o.st));
            !GenExpr(f, IfElse(o.st.next, tr.st)).Emitted? ==>
              GenExpr(Expr.If(loc, c, t, f), st).st == GenExpr(f, IfElse(o.st.next, tr.st)).st
  {
  }

  /**
   On success both branches branch to the merge block, and the merge's phi has
   exactly two entries: each branch's value paired with the block that branch
   ended in.
   */
  lemma IfMerges(loc: Lexer.Loc, c: Expr, t: Expr, f: Expr, st: CgState)
    requires GenExpr(Expr.If(loc, c, t, f), st).Emitted?
    ensures GenExpr(c, st).Emitted?
    ensures var o := GenExpr(c, st);
            GenExpr(t, IfEntry(o.v, o.st)).Emitted?
    ensures var o := GenExpr(c, st);
            var tr := GenExpr(t, IfEntry(o.v, o.st));
            GenExpr(f, IfElse(o.st.next, tr.st)).Emitted?
    ensures var o := GenExpr(c, st);
            var n := o.st.next;
            var tr := GenExpr(t, IfEntry(o.v, o.st));
            var fr := GenExpr(f, IfElse(n, tr.st));
            var r := GenExpr(Expr.If(loc, c, t, f), st);
            r.v == Reg(fr.st.next) && r.st.block == n + 3
            && r.st.code == fr.st.code + [Br(n + 3), Label(n + 3), Phi(fr.st.next, [(tr.v, tr.st.block), (fr.v, fr.st.block)])]
            && tr.st.code + [Br(n + 3)] <= r.st.code
  {
    var e := Expr.If(loc, c, t, f);
    GenExprIf(e, st);
    IfResult(e, st);
    var o := GenExpr(c, st);
    var tr := GenExpr(t, IfEntry(o.v, o.st));
    var s6 := IfElse(o.st.next, tr.st);
    assert Grows(s6, GenExpr(f, s6).st);
    assert (tr.st.code + [Br(o.st.next + 3)]) <= s6.code;
  }

  lemma GenExprIf(e: Expr, st: CgState)
    requires e.If?
    ensures GenExpr(e, st) == GenIf(e, st)
  {
  }

  /** The successful conditional's result in terms of its three parts. */
  lemma IfResult(e: Expr, st: CgState)
    requires e.If? && GenIf(e, st).Emitted?
    ensures var o := GenExpr(e.cond, st);
            var tr := GenExpr(e.thenBr, IfEntry(o.v, o.st));
            var fr := GenExpr(e.elseBr, IfElse(o.st.next, tr.st));
            var n := o.st.next;
            o.Emitted? && tr.Emitted? && fr.Emitted?
            && GenIf(e, st) == Emitted(Reg(fr.st.next), fr.st.(next := fr.st.next + 1, block := n + 3,
                 code := fr.st.code + [Br(n + 3), Label(n + 3), Phi(fr.st.next, [(tr.v, tr.st.block), (fr.v, fr.st.block)])]))
  {
  }

  // ------------------------------------------------------------ for

  /** The start value is generated in the enclosing scope, after the loop slot was drawn. */
  lemma ForStartInEnclosingScope(e: Expr, st: CgState)
    requires e.For? && !GenExpr(e.start, st.(next := st.next + 1)).Emitted?
    ensures GenExpr(e, st).st == GenExpr(e.start, st.(next := st.next + 1)).st
  {
  }

  /**
   With the start value generated, the slot is initialised and the loop block
   entered unconditionally; the loop name is bound to the slot while the body
   is generated.
   */
  lemma ForEntersLoop(e: Expr, st: CgState)
    requires e.For? && GenExpr(e.start, st.(next := st.next + 1)).Emitted?
    ensures var o := GenExpr(e.start, st.(next := st.next + 1));
            var s3 := o.st.(next := o.st.next + 1,
                            code := o.st.code + [Store(o.v, st.next), Br(o.st.next), Label(o.st.next)],
                            block := o.st.next,
                            scope := NamedValues.Bind(o.st.scope, e.varName, Some(st.next)));
            NamedValues.Lookup(s3.scope, e.varName) == Some(st.next)
            && GenExpr(e, st) == GenForRest(e, st, st.next, o.st.next, NamedValues.Lookup(o.st.scope, e.varName), s3)
  {
    assert GenExpr(e, st) == GenFor(e, st);
  }

  /** Without a step the increment is 1.0; the variable is reloaded, not taken from the start value. */
  lemma ForDefaultStep(e: Expr, st0: CgState, slot: Slot, loopBB: nat, saved: Option<Slot>, st: CgState)
    requires e.For? && e.step.None? && Grows(st0, st)
    requires GenForRest(e, st0, slot, loopBB, saved, st).Emitted?
    ensures var b := GenExpr(e.body, st);
            var en := GenExpr(e.end, b.st);
            var n := en.st.next;
            b.Emitted? && en.Emitted?
            && GenForRest(e, st0, slot, loopBB, saved, st).st.code
               == en.st.code + [Load(n, slot), Arith(n + 1, FAdd, Reg(n), Const(1.0)), Store(Reg(n + 1), slot),
                                CmpNE(n + 2, en.v, Const(0.0)), CondBr(n + 2, loopBB, n + 3), Label(n + 3)]
  {
  }

  /** A failed body ends the loop at once, without restoring the loop variable's old binding. */
  lemma ForBodyFailureAborts(e: Expr, st0: CgState, slot: Slot, loopBB: nat, saved: Option<Slot>, st: CgState)
    requires e.For? && Grows(st0, st) && !GenExpr(e.body, st).Emitted?
    ensures GenForRest(e, st0, slot, loopBB, saved, st).st == GenExpr(e.body, st).st
    ensures GenForRest(e, st0, slot, loopBB, saved, st).Failed? == GenExpr(e.body, st).Failed?
  {
  }

  /** On success the shadowed binding comes back, or the name is unbound if it had none. */
  lemma ForRestoresOnSuccess(e: Expr, st0: CgState, slot: Slot, loopBB: nat, saved: Option<Slot>, st: CgState)
    requires e.For? && Grows(st0, st) && GenForRest(e, st0, slot, loopBB, saved, st).Emitted?
    requires DistinctVars(e)
    ensures NamedValues.Lookup(GenForRest(e, st0, slot, loopBB, saved, st).st.scope, e.varName) == saved
  {
  }

  /**
   A failing body returns without restoring: after `for i = 1, 2 in zz`
   with `zz` unknown, `i` is still bound to the loop's slot.
   */
  lemma ForFailureLeavesBinding(loc: Lexer.Loc, st: CgState)
    requires NamedValues.Lookup(st.scope, "zz").None?
    ensures var e := Expr.For(loc, "i", Expr.Number(loc, 1.0), Expr.Number(loc, 2.0), None, Variable(loc, "zz"));
            var r := GenExpr(e, st);
            r.Failed? && NamedValues.Lookup(r.st.scope, "i") == Some(st.next)
            && r.st.diags == st.diags + ["Unknown variable name"]
  {
    var e := Expr.For(loc, "i", Expr.Number(loc, 1.0), Expr.Number(loc, 2.0), None, Variable(loc, "zz"));
    var s1 := st.(next := st.next + 1);
    var s3 := s1.(next := s1.next + 1,
                  code := s1.code + [Store(Const(1.0), st.next), Br(s1.next), Label(s1.next)],
                  block := s1.next,
                  scope := NamedValues.Bind(s1.scope, "i", Some(st.next)));
    assert GenExpr(e.start, s1) == Emitted(Const(1.0), s1);
    ForEntersLoop(e, st);
    assert NamedValues.Lookup(s3.scope, "zz").None?;
    assert GenExpr(e.body, s3) == Fail(s3, "Unknown variable name");
    assert s3.code == st.code + [Store(Const(1.0), st.next), Br(s1.next), Label(s1.next)];
    ForBodyFailureAborts(e, st, st.next, s1.next, NamedValues.Lookup(s1.scope, "i"), s3);
  }

  // ------------------------------------------------------------ var

  /** The value an initializer yields: its expression, or 0.0 when absent. */
  function InitOf(b: Binding, st: CgState): (r: Gen<Value>)
    ensures b.init.None? ==> r == Emitted(Const(0.0), st)
  {
    if b.init.Some? then GenExpr(b.init.value, st) else Emitted(Const(0.0), st)
  }

  /**
   One binding: its initializer in the current scope, then a fresh slot
   holding that value, then the name bound to the slot, with the binding it
   shadowed saved.
   */
  lemma BindingStep(e: Expr, i: nat, st: CgState, olds: seq<Option<Slot>>)
    requires e.Var? && i < |e.bindings| && |olds| == i
    requires InitOf(e.bindings[i], st).Emitted?
    ensures var ri := InitOf(e.bindings[i], st);
            var n := e.bindings[i].name;
            var slot := ri.st.next;
            var s2 := ri.st.(next := slot + 1, code := ri.st.code + [Store(ri.v, slot)],
                             scope := NamedValues.Bind(ri.st.scope, n, Some(slot)));
            GenBindings(e, i, st, olds) == GenBindings(e, i + 1, s2, olds + [NamedValues.Lookup(ri.st.scope, n)])
  {
  }

  /** After the bindings and the body, the saved bindings are written back in forward order. */
  lemma VarStep(e: Expr, st: CgState)
    requires e.Var? && GenBindings(e, 0, st, []).Emitted?
    requires GenExpr(e.body, GenBindings(e, 0, st, []).st).Emitted?
    ensures var rb := GenBindings(e, 0, st, []);
            var body := GenExpr(e.body, rb.st);
            GenExpr(e, st) == Emitted(body.v, body.st.(scope := RestoreAll(body.st.scope, Names(e.bindings), rb.v)))
  {
  }

  /** `var a = a in a`: the initializer loads the outer `a`, the body the new one. */
  lemma VarInitializerSeesOuter(loc: Lexer.Loc, st: CgState, outer: Slot)
    requires NamedValues.Lookup(st.scope, "a") == Some(outer)
    ensures var e := Expr.Var(loc, [Binding("a", Some(Variable(loc, "a")))], Variable(loc, "a"));
            var r := GenExpr(e, st);
            r.Emitted? && r.st.scope == st.scope
            && r.st.code == st.code + [Load(st.next, outer), Store(Reg(st.next), st.next + 1), Load(st.next + 2, st.next + 1)]
  {
    var e := Expr.Var(loc, [Binding("a", Some(Variable(loc, "a")))], Variable(loc, "a"));
    var s1 := st.(next := st.next + 1, code := st.code + [Load(st.next, outer)]);
    assert InitOf(e.bindings[0], st) == Emitted(Reg(st.next), s1);
    BindingStep(e, 0, st, []);
    var s2 := s1.(next := st.next + 2, code := s1.code + [Store(Reg(st.next), st.next + 1)],
                  scope := NamedValues.Bind(st.scope, "a", Some(st.next + 1)));
    assert GenBindings(e, 0, st, []) == Emitted([Some(outer)], s2);
    assert NamedValues.Lookup(s2.scope, "a") == Some(st.next + 1);
    var s3 := s2.(next := st.next + 3, code := s2.code + [Load(st.next + 2, st.next + 1)]);
    assert GenExpr(e.body, s2) == Emitted(Reg(st.next + 2), s3);
    VarStep(e, st);
    assert Names(e.bindings) == ["a"];
    NamedValues.BindRestores(st.scope, "a", st.next + 1);
  }

  /** A binding without initializer stores 0.0. */
  lemma VarDefaultInitializer(loc: Lexer.Loc, name: string, body: Expr, st: CgState)
    ensures var e := Expr.Var(loc, [Binding(name, None)], body);
            var r := GenBindings(e, 0, st, []);
            r.Emitted? && r.st.code == st.code + [Store(Const(0.0), st.next)]
            && NamedValues.Lookup(r.st.scope, name) == Some(st.next)
  {
    var e := Expr.Var(loc, [Binding(name, None)], body);
    BindingStep(e, 0, st, []);
  }

  /**
   Restoring in forward order loses the outer binding of a repeated name:
   after `var a = 1, a = 2 in 0` with `a` unbound before, `a` is left bound
   to the first of the two slots.
   */
  lemma RepeatedVarLeaksBinding(loc: Lexer.Loc, st: CgState)
    requires NamedValues.Lookup(st.scope, "a").None?
    ensures var e := Expr.Var(loc, [Binding("a", Some(Expr.Number(loc, 1.0))), Binding("a", Some(Expr.Number(loc, 2.0)))],
                              Expr.Number(loc, 0.0));
            var r := GenExpr(e, st);
            r == Emitted(Const(0.0), r.st) && NamedValues.Lookup(r.st.scope, "a") == Some(st.next)
  {
    var e := Expr.Var(loc, [Binding("a", Some(Expr.Number(loc, 1.0))), Binding("a", Some(Expr.Number(loc, 2.0)))],
                      Expr.Number(loc, 0.0));
    var sc1 := NamedValues.Bind(st.scope, "a", Some(st.next));
    var sc2 := NamedValues.Bind(sc1, "a", Some(st.next + 1));
    var s1 := st.(next := st.next + 1, code := st.code + [Store(Const(1.0), st.next)], scope := sc1);
    var s2 := s1.(next := st.next + 2, code := s1.code + [Store(Const(2.0), st.next + 1)], scope := sc2);
    assert InitOf(e.bindings[0], st) == Emitted(Const(1.0), st);
    BindingStep(e, 0, st, []);
    var none: seq<Option<Slot>> := [];
    assert none + [None] == [None];
    assert GenBindings(e, 0, st, []) == GenBindings(e, 1, s1, [None]);
    assert InitOf(e.bindings[1], s1) == Emitted(Const(2.0), s1);
    BindingStep(e, 1, s1, [None]);
    assert NamedValues.Lookup(sc1, "a") == Some(st.next);
    assert [None] + [Some(st.next)] == [None, Some(st.next)];
    assert GenBindings(e, 1, s1, [None]) == GenBindings(e, 2, s2, [None, Some(st.next)]);
    assert GenBindings(e, 2, s2, [None, Some(st.next)]) == Emitted([None, Some(st.next)], s2);
    assert GenBindings(e, 0, st, []) == Emitted([None, Some(st.next)], s2);
    assert GenExpr(e.body, s2) == Emitted(Const(0.0), s2);
    VarStep(e, st);
    assert Names(e.bindings) == ["a", "a"];
    var sc3 := NamedValues.Bind(sc2, "a", None);
    assert RestoreAll(sc2, ["a", "a"], [None, Some(st.next)]) == RestoreAll(sc3, ["a"], [Some(st.next)]);
    assert NamedValues.Lookup(RestoreAll(sc3, ["a"], [Some(st.next)]), "a") == Some(st.next);
  }

  // ------------------------------------------------------------ functions

  /**
   `def id(x) x` in a module without `id`: the parameter is stored into its
   slot in the entry block and the body loads it back.
   */
  lemma IdentityFunctionExample(loc: Lexer.Loc, st: CgState)
    requires "id" !in st.fns
    ensures var f := FunctionDef(Prototype("id", ["x"], false, 0, 1), Variable(loc, "x"));
            var n := st.next;
            var r := GenFunction(f, st);
            r.Emitted?
            && r.st.fns == st.fns["id" := FnEntry(1, Some([Label(n), Store(Arg(0), n + 1), Load(n + 2, n + 1), Ret(Reg(n + 2))]))]
            && r.st.reg == st.reg
  {
    var n := st.next;
    var s2 := st.(scope := map[], fns := st.fns["id" := FnEntry(1, None)], next := n + 1, code := [Label(n)], block := n);
    var s3 := ArgAllocas(["x"], s2);
    assert ["x"][..0] == [];
    assert ArgStores(1, n + 1) == [Store(Arg(0), n + 1)];
    assert DeclarePrototype(Prototype("id", ["x"], false, 0, 1), st.(scope := map[])).st == s2.(next := n, code := st.code, block := st.block);
    assert s3.code == [Label(n), Store(Arg(0), n + 1)];
    assert s3.fns == s2.fns && s3.reg == st.reg && s3.next == n + 2;
    assert s3.code + [Load(n + 2, n + 1)] + [Ret(Reg(n + 2))] == [Label(n), Store(Arg(0), n + 1), Load(n + 2, n + 1), Ret(Reg(n + 2))];
    assert NamedValues.Lookup(s3.scope, "x") == Some(n + 1) by {
      LastParameterWins(["x"], 0, s2);
    }
    assert GenExpr(Variable(loc, "x"), s3) == Emitted(Reg(n + 2), s3.(next := n + 3, code := s3.code + [Load(n + 2, n + 1)]));
  }

  /**
   A binary operator whose body fails is rolled back completely: its
   precedence is gone and the module no longer has the function.
   */
  lemma FailedOperatorRollsBack(f: FunctionDef, st: CgState)
    requires IsBinaryOp(f.proto) && |f.proto.name| > 0 && f.proto.name !in st.fns
    requires OperatorName(f.proto) !in st.reg.overrides
    requires GenFunction(f, st).Failed?
    ensures GenFunction(f, st).st.reg == st.reg && GenFunction(f, st).st.fns == st.fns
  {
  }

  /** A successful binary operator keeps its precedence for the rest of the session. */
  lemma DefinedOperatorKeepsPrecedence(f: FunctionDef, st: CgState)
    requires IsBinaryOp(f.proto) && |f.proto.name| > 0
    requires GenFunction(f, st).Emitted?
    ensures Binop.GetBinopPrecedence(GenFunction(f, st).st.reg, OperatorName(f.proto)) == f.proto.precedence
  {
  }
}

=== FILE: decimal.dfy ===
/**
 Decimal digit strings: the integer-to-text conversion used when a node's
 location is printed, and the text-to-number conversion applied to number
 lexemes (the lexer only ever produces runs of digits and dots).
 */
module Decimal {

  predicate IsDigit(c: char) {
    '0' <= c <= '9'
  }

  function DigitValue(c: char): nat
    requires IsDigit(c)
  {
    (c as int) - ('0' as int)
  }

  function DigitChar(d: nat): (c: char)
    requires d < 10
    ensures IsDigit(c) && DigitValue(c) == d
  {
    (('0' as int) + d) as char
  }

  predicate AllDigits(s: string) {
    forall i :: 0 <= i < |s| ==> IsDigit(s[i])
  }

  /** The number a digit string denotes, most significant digit first. */
  function DigitsValue(s: string): nat
    requires AllDigits(s)
  {
    if |s| == 0 then 0 else DigitsValue(s[..|s| - 1]) * 10 + DigitValue(s[|s| - 1])
  }

  /** Shortest decimal text of `n` (the integer printing of a location). */
  function Show(n: nat): (s: string)
    ensures |s| > 0 && AllDigits(s)
    ensures |s| > 1 ==> s[0] != '0'
  {
    if n < 10 then [DigitChar(n)] else Show(n / 10) + [DigitChar(n % 10)]
  }

  /** Reading the printed text back gives the number that was printed. */
  lemma {:induction false} ShowRoundTrip(n: nat)
    ensures DigitsValue(Show(n)) == n
  {
    if n >= 10 {
      var s := Show(n);
      assert s[..|s| - 1] == Show(n / 10);
      ShowRoundTrip(n / 10);
    }
  }

  function Pow10(k: nat): (p: nat)
    ensures p >= 1
  {
    if k == 0 then 1 else 10 * Pow10(k - 1)
  }

  /** The longest prefix of `s` made of decimal digits. */
  function LeadingDigits(s: string): (d: string)
    ensures d <= s && AllDigits(d)
    ensures |d| < |s| ==> !IsDigit(s[|d|])
  {
    if |s| > 0 && IsDigit(s[0]) then [s[0]] + LeadingDigits(s[1..]) else []
  }

  /** The value of the decimal `ip.fp`. */
  function DecimalValue(ip: string, fp: string): (r: real)
    requires AllDigits(ip) && AllDigits(fp)
    ensures r >= 0.0
  {
    (DigitsValue(ip) as real) + (DigitsValue(fp) as real) / (Pow10(|fp|) as real)
  }

  /**
   The value `strtod` gives a lexeme: the longest prefix of the shape
   digits [ '.' digits ] is converted; text after it (a second '.', say)
   is ignored, and a lexeme with no digits in that prefix converts to 0.
   The value is exact: rounding to the nearest double is not modelled.
   */
  function StrToD(s: string): (r: real)
    ensures r >= 0.0
    ensures LeadingDigits(s) == s ==> r == DigitsValue(s) as real
  {
    var ip := LeadingDigits(s);
    var rest := s[|ip|..];
    if |rest| > 0 && rest[0] == '.' then
      DecimalValue(ip, LeadingDigits(rest[1..]))
    else
      DigitsValue(ip) as real
  }

  /** The digits in front of a non-digit are exactly the leading digits. */
  lemma {:induction false} LeadingDigitsOfConcat(d: string, t: string)
    requires AllDigits(d)
    requires |t| > 0 && !IsDigit(t[0])
    ensures LeadingDigits(d + t) == d
  {
    if |d| > 0 {
      assert (d + t)[1..] == d[1..] + t;
      LeadingDigitsOfConcat(d[1..], t);
    }
  }

  /**
   A lexeme `ip.fp` followed by anything that does not continue the
   fraction converts to the integer part plus the fraction scaled by the
   fraction's length.
   */
  lemma StrToDOfDecimal(ip: string, fp: string, tail: string)
    requires AllDigits(ip) && AllDigits(fp)
    requires |tail| == 0 || !IsDigit(tail[0])
    ensures StrToD(ip + "." + fp + tail) == DecimalValue(ip, fp)
  {
    DecimalShape(ip, fp, tail);
  }

  /** How `ip.fp` followed by a non-digit splits into its integer and fraction digits. */
  lemma DecimalShape(ip: string, fp: string, tail: string)
    requires AllDigits(ip) && AllDigits(fp)
    requires |tail| == 0 || !IsDigit(tail[0])
    ensures var s := ip + "." + fp + tail;
            LeadingDigits(s) == ip && |s| > |ip| && s[|ip|..][0] == '.' && LeadingDigits(s[|ip|..][1..]) == fp
  {
    var frac := fp + tail;
    var rest := ['.'] + frac;
    var s := ip + rest;
    assert ip + "." + fp + tail == s;
    LeadingDigitsOfConcat(ip, rest);
    assert s[|ip|..] == rest;
    assert rest[1..] == frac;
    if |tail| == 0 {
      assert frac == fp;
      LeadingDigitsOfDigits(fp);
    } else {
      LeadingDigitsOfConcat(fp, tail);
    }
  }

  /** A plain digit run converts to the integer it spells. */
  lemma StrToDOfDigits(s: string)
    requires AllDigits(s)
    ensures StrToD(s) == DigitsValue(s) as real
  {
    LeadingDigitsOfDigits(s);
  }

  lemma {:induction false} LeadingDigitsOfDigits(s: string)
    requires AllDigits(s)
    ensures LeadingDigits(s) == s
  {
    if |s| > 0 {
      LeadingDigitsOfDigits(s[1..]);
    }
  }

  /** "1.2.3" converts as "1.2": everything from the second dot on is ignored. */
  lemma StrToDStopsAtSecondDot()
    ensures StrToD("1.2.3") == 1.2
  {
    assert LeadingDigits("1.2.3") == "1";
    assert "1.2.3"[1..] == ".2.3";
    assert ".2.3"[1..] == "2.3";
    assert LeadingDigits("2.3") == "2";
    assert DigitsValue("1") == 1;
    assert DigitsValue("2") == 2;
  }

  /** A lexeme that is only dots converts to zero. */
  lemma StrToDOfDots(n: nat)
    ensures StrToD(seq(n, _ => '.')) == 0.0
  {
    var s := seq(n, _ => '.');
    if n > 0 {
      assert LeadingDigits(s) == [];
      assert s[1..] == seq(n - 1, _ => '.');
      assert |s[1..]| == 0 || s[1..][0] == '.';
      assert LeadingDigits(s[1..]) == [];
    }
  }
}

=== FILE: dispatch.dfy ===
/**
 The driver loop of dispatch.h: look at the current token, hand a
 definition, an extern or anything else (a top-level expression) to its
 handler, and stop at the end of input. A parse failure skips one token; a
 code generation failure is reported and the loop goes on; a crash ends it.
 */
module Dispatch {
  import opened Tokens
  import opened Lexer
  import opened Ast
  import opened Parser
  import Binop
  import opened Codegen
  import opened FunctionGen

  /** The state after one top-level item: where the input continues, and whether the program died. */
  datatype Step = Step(rest: Stream, st: CgState, crashed: bool)

  /** How the loop ends: at the end of input, or by a crash. */
  datatype Outcome = Finished(st: CgState) | Aborted(st: CgState)

  /** A fresh session: no names in scope, the built-in precedences, an empty module. */
  function Initial(): CgState {
    CgState(map[], Binop.Empty(), map[], 0, [], 0, [])
  }

  function Report(st: CgState, msg: string): CgState {
    st.(diags := st.diags + [msg])
  }

  /** A report only appends a diagnostic. */
  lemma Reported(st: CgState, msg: string)
    ensures KeepsDefinitions(st, Report(st, msg))
    ensures |st.diags| <= |Report(st, msg).diags| && Report(st, msg).diags[..|st.diags|] == st.diags
  {
    assert Report(st, msg).fns == st.fns;
  }

  /** Handles a parsed definition: a failed code generation is reported, a crash ends the program. */
  function Define(f: FunctionDef, rest: Stream, st: CgState, msg: string): (h: Step)
    requires WellFormed(f.proto)
    ensures |st.diags| <= |h.st.diags| && h.st.diags[..|st.diags|] == st.diags
    ensures KeepsDefinitions(st, h.st)
    ensures h.rest == rest
    ensures h.crashed <==> GenFunction(f, st).Crashed?
    ensures GenFunction(f, st).Failed? ==> h.st == Report(GenFunction(f, st).st, msg)
    ensures GenFunction(f, st).Emitted? ==> h.st == GenFunction(f, st).st
  {
    match GenFunction(f, st)
    case Emitted(_, s) => Step(rest, s, false)
    case Failed(s) => Step(rest, Report(s, msg), false)
    case Crashed(s) => Step(rest, s, true)
  }

  /** `HandleFunction`. */
  function HandleFunction(s: Stream, st: CgState): (h: Step)
    requires Current(s).tok == Function
    ensures |h.rest.toks| < |s.toks|
    ensures |st.diags| <= |h.st.diags| && h.st.diags[..|st.diags|] == st.diags
    ensures KeepsDefinitions(st, h.st)
    ensures ParseDefinition(s, st.reg).Error? ==>
              h == Step(Next(ParseDefinition(s, st.reg).rest), Report(st, ParseDefinition(s, st.reg).msg), false)
    ensures ParseDefinition(s, st.reg).Parsed? ==>
              h == Define(ParseDefinition(s, st.reg).value, ParseDefinition(s, st.reg).rest, st, "Error reading function definition:")
  {
    match ParseDefinition(s, st.reg)
    case Error(m, rest) => Step(Next(rest), Report(st, m), false)
    case Parsed(f, rest) => Define(f, rest, st, "Error reading function definition:")
  }

  /** `HandleExtern`: an extern only declares. */
  function HandleExtern(s: Stream, st: CgState): (h: Step)
    requires Current(s).tok == Extern
    ensures |h.rest.toks| < |s.toks| && !h.crashed
    ensures |st.diags| <= |h.st.diags| && h.st.diags[..|st.diags|] == st.diags
    ensures KeepsDefinitions(st, h.st)
    ensures ParseExtern(s).Error? ==> h == Step(Next(ParseExtern(s).rest), Report(st, ParseExtern(s).msg), false)
    ensures ParseExtern(s).Parsed? ==>
              h.rest == ParseExtern(s).rest
              && (DeclarePrototype(ParseExtern(s).value, st).Emitted? ==> h.st == DeclarePrototype(ParseExtern(s).value, st).st)
              && (DeclarePrototype(ParseExtern(s).value, st).Failed? ==>
                    h.st == Report(DeclarePrototype(ParseExtern(s).value, st).st, "Error reading extern"))
  {
    match ParseExtern(s)
    case Error(m, rest) =>
      Reported(st, m);
      Step(Next(rest), Report(st, m), false)
    case Parsed(p, rest) =>
      match DeclarePrototype(p, st)
      case Emitted(_, s1) => Step(rest, s1, false)
      case Failed(s1) =>
        assert s1.diags[..|st.diags|] == st.diags;
        Reported(s1, "Error reading extern");
        KeepsTrans(st, s1, Report(s1, "Error reading extern"));
        Step(rest, Report(s1, "Error reading extern"), false)
  }

  /** `HandleTopLevelExpression`: the expression becomes the body of a function named `main`. */
  function HandleTopLevel(s: Stream, st: CgState): (h: Step)
    requires Current(s).tok != Eof
    ensures |h.rest.toks| < |s.toks|
    ensures |st.diags| <= |h.st.diags| && h.st.diags[..|st.diags|] == st.diags
    ensures KeepsDefinitions(st, h.st)
    ensures ParseTopLevelExpr(s, st.reg).Error? ==>
              h == Step(Next(ParseTopLevelExpr(s, st.reg).rest), Report(st, ParseTopLevelExpr(s, st.reg).msg), false)
    ensures ParseTopLevelExpr(s, st.reg).Parsed? ==>
              h == Define(ParseTopLevelExpr(s, st.reg).value, ParseTopLevelExpr(s, st.reg).rest, st,
                          "Error generating code for top level expr\n")
  {
    match ParseTopLevelExpr(s, st.reg)
    case Error(m, rest) => Step(Next(rest), Report(st, m), false)
    case Parsed(f, rest) => Define(f, rest, st, "Error generating code for top level expr\n")
  }

  /** One turn of the loop, chosen by the current token (which is not the end). */
  function Handle(s: Stream, st: CgState): (h: Step)
    requires Current(s).tok != Eof
    ensures |h.rest.toks| < |s.toks|
    ensures |st.diags| <= |h.st.diags| && h.st.diags[..|st.diags|] == st.diags
    ensures KeepsDefinitions(st, h.st)
  {
    if Current(s).tok == Function then HandleFunction(s, st)
    else if Current(s).tok == Extern then HandleExtern(s, st)
    else HandleTopLevel(s, st)
  }

  /** `MainLoop`: handle items until the end of input or a crash. */
  function MainLoop(s: Stream, st: CgState): (r: Outcome)
    decreases |s.toks|
    ensures |st.diags| <= |r.st.diags| && r.st.diags[..|st.diags|] == st.diags
    ensures KeepsDefinitions(st, r.st)
    ensures Current(s).tok == Eof ==> r == Finished(st)
  {
    if Current(s).tok == Eof then Finished(st)
    else
      var h := Handle(s, st);
      if h.crashed then Aborted(h.st)
      else
        var r := MainLoop(h.rest, h.st);
        assert r.st.diags[..|st.diags|] == r.st.diags[..|h.st.diags|][..|st.diags|];
        r
  }
}

=== FILE: dispatch_props.dfy ===
/**
 Properties of the driver loop: a second top-level expression collides with
 the `main` the first one defined.
 */
module DispatchProps {
  import opened Wrappers
  import opened Tokens
  import Lexer
  import opened Ast
  import opened Parser
  import opened ParserProps
  import Binop
  import opened Codegen
  import opened FunctionGen
  import opened Dispatch

  /** The two lines the loop prints when a top-level expression reuses the name `main`. */
  const MainCollision: seq<string> := ["redefinition of function", "Error generating code for top level expr\n"]

  predicate StartsTopLevel(t: Token) {
    t != Eof && t != Token.Function && t != Extern
  }

  /** A top-level expression whose code generation succeeds leaves `main` defined. */
  lemma TopLevelDefinesMain(s: Lexer.Stream, st: CgState)
    requires StartsTopLevel(Current(s).tok)
    requires ParseTopLevelExpr(s, st.reg).Parsed?
    requires GenFunction(ParseTopLevelExpr(s, st.reg).value, st).Emitted?
    ensures !Handle(s, st).crashed
    ensures "main" in Handle(s, st).st.fns && Handle(s, st).st.fns["main"].body.Some?
  {
  }

  /**
   Once `main` has a body, the next top-level expression is refused as a
   redefinition: the module is unchanged and only the symbol table is cleared.
   */
  lemma SecondMainIsRedefinition(s: Lexer.Stream, st: CgState)
    requires StartsTopLevel(Current(s).tok)
    requires ParseTopLevelExpr(s, st.reg).Parsed?
    requires "main" in st.fns && st.fns["main"].body.Some?
    ensures Handle(s, st) == Step(ParseTopLevelExpr(s, st.reg).rest,
                                  st.(scope := map[], diags := st.diags + MainCollision), false)
  {
  }

  /** A lone number is a whole top-level expression. */
  lemma NumberTopLevel(s: Lexer.Stream, s': Lexer.Stream, lexeme: string, v: real, reg: Binop.Registry)
    requires Reads(s, Token.Number(lexeme), s') && Current(s').tok.Number? && NumberValue(Token.Number(lexeme)) == v
    ensures ParseTopLevelExpr(s, reg)
            == Parsed(FunctionDef(Prototype("main", [], false, 0, L(s).line), Expr.Number(L(s), v)), s')
  {
    assert ParseUnary(s, reg) == Parsed(Expr.Number(L(s), v), s');
    ExpressionEndsAtNonOperator(s, reg);
  }

  /** The same, at the end of input. */
  lemma NumberTopLevelAtEnd(s: Lexer.Stream, s': Lexer.Stream, lexeme: string, v: real, reg: Binop.Registry)
    requires Reads(s, Token.Number(lexeme), s') && Current(s').tok == Eof && NumberValue(Token.Number(lexeme)) == v
    ensures ParseTopLevelExpr(s, reg)
            == Parsed(FunctionDef(Prototype("main", [], false, 0, L(s).line), Expr.Number(L(s), v)), s')
  {
    assert ParseUnary(s, reg) == Parsed(Expr.Number(L(s), v), s');
    ExpressionEndsAtNonOperator(s, reg);
  }

  /** The session after `main` was defined to return 1.0. */
  function AfterFirst(): CgState {
    Initial().(fns := map["main" := FnEntry(0, Some([Label(0), Ret(Const(1.0))]))], next := 1, code := [Label(0)])
  }

  lemma FirstMain(line: nat, loc: Lexer.Loc)
    ensures GenFunction(FunctionDef(Prototype("main", [], false, 0, line), Expr.Number(loc, 1.0)), Initial())
            == Emitted("main", AfterFirst())
  {
    var p := Prototype("main", [], false, 0, line);
    var st0 := Initial().(scope := map[]);
    assert DeclarePrototype(p, st0) == Emitted("main", st0.(fns := map["main" := FnEntry(0, None)]));
    var s2 := st0.(fns := map["main" := FnEntry(0, None)], next := 1, code := [Label(0)], block := 0);
    assert ArgAllocas([], s2) == s2;
    assert GenExpr(Expr.Number(loc, 1.0), s2) == Emitted(Const(1.0), s2);
    assert [Label(0)] + [Ret(Const(1.0))] == [Label(0), Ret(Const(1.0))];
  }

  /**
   The input `1 2` from a fresh session: the first number becomes `main`,
   returning 1.0; the second is refused and the loop ends at the end of input.
   */
  lemma TwoTopLevelExpressionsExample(s0: Lexer.Stream, s1: Lexer.Stream, s2: Lexer.Stream)
    requires Reads(s0, Token.Number("1"), s1) && Reads(s1, Token.Number("2"), s2) && Current(s2).tok == Eof
    ensures MainLoop(s0, Initial()).Finished?
    ensures MainLoop(s0, Initial()).st.diags == MainCollision
    ensures MainLoop(s0, Initial()).st.fns == map["main" := FnEntry(0, Some([Label(0), Ret(Const(1.0))]))]
  {
    assert "1"[..0] == "" && "2"[..0] == "";
    var reg := Binop.Empty();
    NumberTopLevel(s0, s1, "1", 1.0, reg);
    FirstMain(L(s0).line, L(s0));
    assert Handle(s0, Initial()) == Step(s1, AfterFirst(), false);
    NumberTopLevelAtEnd(s1, s2, "2", 2.0, reg);
    SecondMainIsRedefinition(s1, AfterFirst());
    var st2 := AfterFirst().(scope := map[], diags := MainCollision);
    assert Handle(s1, AfterFirst()) == Step(s2, st2, false);
    assert MainLoop(s2, st2) == Finished(st2);
  }

  // ------------------------------------------------------------ the registry invariant

  /**
   Every operator symbol with a precedence override belongs to a binary
   operator function that has a body: a definition installs the override
   together with that body, and removes the override when the body fails.
   */
  predicate OverridesDefined(st: CgState) {
    forall c :: c in st.reg.overrides ==>
      c as int < 256 && BinaryName(c as Byte) in st.fns && st.fns[BinaryName(c as Byte)].body.Some?
  }

  /** A well-formed binary operator prototype is named `binary` followed by its operator symbol. */
  lemma BinaryOperatorName(p: Prototype)
    requires WellFormed(p) && IsBinaryOp(p)
    ensures |p.name| > 0 && p.name == BinaryName(OperatorName(p))
  {
    forall c: Byte | c as int < 128 && p.name == BinaryName(c)
      ensures p.name == BinaryName(OperatorName(p))
    {
      assert p.name[|p.name| - 1] == c;
    }
  }

  /**
   Under the invariant, a binary operator whose declaration succeeds has no
   earlier override: its `binary` name has no body yet.
   */
  lemma DeclaredOperatorHasNoOverride(f: FunctionDef, st: CgState)
    requires OverridesDefined(st) && WellFormed(f.proto) && IsBinaryOp(f.proto)
    requires DeclarePrototype(f.proto, st.(scope := map[])).Emitted?
    ensures OperatorName(f.proto) !in st.reg.overrides
  {
    BinaryOperatorName(f.proto);
  }

  /**
   Under the invariant, a failed definition leaves the registry exactly as
   it was: the rollback never removes an override some other definition made.
   */
  lemma FailedDefinitionRestoresRegistry(f: FunctionDef, st: CgState)
    requires OverridesDefined(st) && WellFormed(f.proto) && GenFunction(f, st).Failed?
    ensures GenFunction(f, st).st.reg == st.reg
  {
    var d := DeclarePrototype(f.proto, st.(scope := map[]));
    if d.Emitted? {
      if IsBinaryOp(f.proto) {
        DeclaredOperatorHasNoOverride(f, st);
      }
      DefinitionFailureErases(f, st);
    }
  }

  /** A definition that does not crash keeps the invariant. */
  lemma DefineKeepsOverridesDefined(f: FunctionDef, rest: Lexer.Stream, st: CgState, msg: string)
    requires OverridesDefined(st) && WellFormed(f.proto)
    ensures !Define(f, rest, st, msg).crashed ==> OverridesDefined(Define(f, rest, st, msg).st)
  {
    var p := f.proto;
    var d := DeclarePrototype(p, st.(scope := map[]));
    var g := GenFunction(f, st);
    if d.Emitted? && g.Emitted? {
      if IsBinaryOp(p) {
        BinaryOperatorName(p);
      }
      forall c | c in g.st.reg.overrides
        ensures c as int < 256 && BinaryName(c as Byte) in g.st.fns && g.st.fns[BinaryName(c as Byte)].body.Some?
      {
        if !(IsBinaryOp(p) && c == OperatorName(p)) {
          assert c in st.reg.overrides;
          assert BinaryName(c as Byte) != p.name;
        }
      }
    } else if d.Emitted? && g.Failed? {
      FailedDefinitionRestoresRegistry(f, st);
      forall c | c in g.st.reg.overrides
        ensures c as int < 256 && BinaryName(c as Byte) in g.st.fns && g.st.fns[BinaryName(c as Byte)].body.Some?
      {
        assert BinaryName(c as Byte) != p.name;
      }
    }
  }

  /** A definition read after `def` that does not crash keeps the invariant. */
  lemma FunctionKeepsOverridesDefined(s: Lexer.Stream, st: CgState)
    requires OverridesDefined(st) && Current(s).tok == Token.Function
    ensures !HandleFunction(s, st).crashed ==> OverridesDefined(HandleFunction(s, st).st)
  {
    var r := ParseDefinition(s, st.reg);
    if r.Parsed? {
      DefineKeepsOverridesDefined(r.value, r.rest, st, "Error reading function definition:");
    } else {
      assert HandleFunction(s, st).st == Report(st, r.msg);
    }
  }

  /** An `extern` declaration never touches a bodied name, so it keeps the invariant. */
  lemma ExternKeepsOverridesDefined(s: Lexer.Stream, st: CgState)
    requires OverridesDefined(st) && Current(s).tok == Extern
    ensures OverridesDefined(HandleExtern(s, st).st)
  {
    var r := ParseExtern(s);
    if r.Parsed? && DeclarePrototype(r.value, st).Emitted? {
      forall c | c in st.reg.overrides
        ensures BinaryName(c as Byte) != r.value.name
      {
      }
    }
  }

  /** A top-level expression that does not crash keeps the invariant. */
  lemma TopLevelKeepsOverridesDefined(s: Lexer.Stream, st: CgState)
    requires OverridesDefined(st) && Current(s).tok != Eof
    ensures !HandleTopLevel(s, st).crashed ==> OverridesDefined(HandleTopLevel(s, st).st)
  {
    var r := ParseTopLevelExpr(s, st.reg);
    if r.Parsed? {
      DefineKeepsOverridesDefined(r.value, r.rest, st, "Error generating code for top level expr\n");
    } else {
      assert HandleTopLevel(s, st).st == Report(st, r.msg);
    }
  }

  /** One turn of the loop that does not crash keeps the invariant. */
  lemma HandleKeepsOverridesDefined(s: Lexer.Stream, st: CgState)
    requires OverridesDefined(st) && Current(s).tok != Eof
    ensures !Handle(s, st).crashed ==> OverridesDefined(Handle(s, st).st)
  {
    if Current(s).tok == Token.Function {
      FunctionKeepsOverridesDefined(s, st);
    } else if Current(s).tok == Extern {
      ExternKeepsOverridesDefined(s, st);
    } else {
      TopLevelKeepsOverridesDefined(s, st);
    }
  }

  /**
   The whole session keeps the invariant, so it holds at every definition
   the loop reaches from a fresh session, where there are no overrides.
   */
  lemma {:induction false} SessionKeepsOverridesDefined(s: Lexer.Stream, st: CgState)
    requires OverridesDefined(st)
    ensures MainLoop(s, st).Finished? ==> OverridesDefined(MainLoop(s, st).st)
    decreases |s.toks|
  {
    if Current(s).tok != Eof {
      var h := Handle(s, st);
      HandleKeepsOverridesDefined(s, st);
      if !h.crashed {
        SessionKeepsOverridesDefined(h.rest, h.st);
      }
    }
  }

  /** A fresh session keeps the invariant trivially: it has no overrides. */
  lemma InitialOverridesDefined()
    ensures OverridesDefined(Initial())
  {
  }

  // ------------------------------------------------------------ no crash

  /** Every symbol with an override names a `binary` function the table holds. */
  predicate OverridesCallable(reg: Binop.Registry, fns: map<string, FnEntry>) {
    forall c :: c in reg.overrides ==> c as int < 256 && BinaryName(c as Byte) in fns
  }

  /**
   An expression whose operators were all declared when it was parsed only
   uses user operators whose functions exist: a declared symbol outside the
   built-in table has an override.
   */
  lemma {:induction false} DeclaredOpsDefined(reg: Binop.Registry, e: Expr, fns: map<string, FnEntry>)
    requires OpsDeclared(reg, e) && OverridesCallable(reg, fns)
    ensures UserOpsDefined(e, fns)
    decreases e
  {
    match e
    case Number(_, _) =>
    case Variable(_, _) =>
    case Unary(_, _, x) => DeclaredOpsDefined(reg, x, fns);
    case Binary(_, op, l, r) =>
      DeclaredOpsDefined(reg, l, fns);
      DeclaredOpsDefined(reg, r, fns);
    case Call(_, _, args) =>
      forall i | 0 <= i < |args| ensures UserOpsDefined(args[i], fns) {
        DeclaredOpsDefined(reg, args[i], fns);
      }
    case If(_, c, t, f) =>
      DeclaredOpsDefined(reg, c, fns);
      DeclaredOpsDefined(reg, t, fns);
      DeclaredOpsDefined(reg, f, fns);
    case For(_, _, a, b, st, body) =>
      DeclaredOpsDefined(reg, a, fns);
      DeclaredOpsDefined(reg, b, fns);
      DeclaredOpsDefined(reg, body, fns);
      if st.Some? {
        DeclaredOpsDefined(reg, st.value, fns);
      }
    case Var(_, bs, body) =>
      DeclaredOpsDefined(reg, body, fns);
      forall i | 0 <= i < |bs| && bs[i].init.Some? ensures UserOpsDefined(bs[i].init.value, fns) {
        DeclaredOpsDefined(reg, bs[i].init.value, fns);
      }
  }

  /** Under the invariant, a definition whose body was parsed with the session's registry never crashes. */
  lemma DefineNeverCrashes(f: FunctionDef, rest: Lexer.Stream, st: CgState, msg: string)
    requires OverridesDefined(st) && WellFormed(f.proto) && OpsDeclared(st.reg, f.body)
    ensures !Define(f, rest, st, msg).crashed
  {
    var d := DeclarePrototype(f.proto, st.(scope := map[]));
    if d.Emitted? {
      assert OverridesCallable(st.reg, d.st.fns);
      DeclaredOpsDefined(st.reg, f.body, d.st.fns);
    }
  }

  /** Under the invariant, no item of the loop crashes. */
  lemma HandleNeverCrashes(s: Lexer.Stream, st: CgState)
    requires OverridesDefined(st) && Current(s).tok != Eof
    ensures !Handle(s, st).crashed
  {
    if Current(s).tok == Token.Function {
      var r := ParseDefinition(s, st.reg);
      if r.Parsed? {
        DefineNeverCrashes(r.value, r.rest, st, "Error reading function definition:");
      }
    } else if Current(s).tok != Extern {
      var r := ParseTopLevelExpr(s, st.reg);
      if r.Parsed? {
        DefineNeverCrashes(r.value, r.rest, st, "Error generating code for top level expr\n");
      }
    }
  }

  /** From a state that keeps the invariant, the loop always runs to the end of input. */
  lemma {:induction false} SessionNeverAborts(s: Lexer.Stream, st: CgState)
    requires OverridesDefined(st)
    ensures MainLoop(s, st).Finished?
    decreases |s.toks|
  {
    if Current(s).tok != Eof {
      HandleNeverCrashes(s, st);
      HandleKeepsOverridesDefined(s, st);
      SessionNeverAborts(Handle(s, st).rest, Handle(s, st).st);
    }
  }

  /**
   The source's assertion that a user operator's function exists never fires:
   a session started fresh handles every token stream to its end.
   */
  lemma FreshSessionFinishes(s: Lexer.Stream)
    ensures MainLoop(s, Initial()).Finished?
  {
    InitialOverridesDefined();
    SessionNeverAborts(s, Initial());
  }
}

=== FILE: function_gen.dfy ===
/**
 Code generation for prototypes and function definitions
 (ast/ast_function_prototype.h and ast/ast_function.h): declaring a name in
 the module, binding parameters to stack slots, generating the body, and
 undoing the declaration and the operator's precedence when the body fails.
 */
module FunctionGen {
  import opened Wrappers
  import opened Ast
  import NamedValues
  import Binop
  import opened Codegen

  /**
   Declares `p`: a new name gets a body-less entry with `p`'s arity; an
   existing name is reused only if it has no body and the same arity.
   */
  function DeclarePrototype(p: Prototype, st: CgState): (r: Gen<string>)
    ensures !r.Crashed? && KeepsDefinitions(st, r.st)
    ensures r.Emitted? <==> p.name !in st.fns || (st.fns[p.name].body.None? && st.fns[p.name].arity == |p.args|)
    ensures r.Emitted? ==> r.v == p.name && r.st == st.(fns := st.fns[p.name := FnEntry(|p.args|, None)])
    ensures p.name in st.fns && st.fns[p.name].body.Some? ==> r == Fail(st, "redefinition of function")
    ensures p.name in st.fns && st.fns[p.name].body.None? && st.fns[p.name].arity != |p.args| ==>
              r == Fail(st, "redefinition of function with different # args")
  {
    if p.name in st.fns then
      var f := st.fns[p.name];
      if f.body.Some? then Fail(st, "redefinition of function")
      else if f.arity != |p.args| then Fail(st, "redefinition of function with different # args")
      else Emitted(p.name, st)
    else Emitted(p.name, st.(fns := st.fns[p.name := FnEntry(|p.args|, None)]))
  }

  /** The entry-block stores of parameters `0..n` into consecutive slots from `base`. */
  function ArgStores(n: nat, base: nat): seq<Instr> {
    seq(n, k requires 0 <= k < n => Store(Arg(k), base + k))
  }

  /** The position of the last parameter called `n`, if any. */
  function LastIndex(args: seq<string>, n: string): (r: Option<nat>)
    decreases |args|
    ensures r.None? <==> n !in args
    ensures r.Some? ==> r.value < |args| && args[r.value] == n && n !in args[r.value + 1..]
  {
    if |args| == 0 then None
    else if args[|args| - 1] == n then Some(|args| - 1)
    else
      var r := LastIndex(args[..|args| - 1], n);
      assert n !in args[..|args| - 1] ==> n !in args;
      if r.Some? then
        assert args[r.value + 1..] == args[..|args| - 1][r.value + 1..] + [args[|args| - 1]];
        r
      else r
  }

  /** The slot `CreateArgumentAllocas` leaves name `n` bound to, given the scope before it. */
  function ParamLookup(args: seq<string>, n: string, s: Scope, base: nat): Option<Slot> {
    match LastIndex(args, n)
    case Some(k) => Some(base + k)
    case None => NamedValues.Lookup(s, n)
  }

  /**
   `CreateArgumentAllocas`: parameter `k` gets slot `next + k`, the incoming
   argument is stored there, and the name is bound to it, in order, so that
   of two equal parameter names the later one wins.
   */
  function ArgAllocas(args: seq<string>, st: CgState): (r: CgState)
    decreases |args|
    ensures r == st.(next := r.next, code := r.code, scope := r.scope)
    ensures r.next == st.next + |args|
    ensures r.code == st.code + ArgStores(|args|, st.next)
    ensures forall n :: NamedValues.Lookup(r.scope, n) == ParamLookup(args, n, st.scope, st.next)
  {
    if |args| == 0 then st
    else
      var init := args[..|args| - 1];
      var last := args[|args| - 1];
      var s1 := ArgAllocas(init, st);
      var slot := s1.next;
      var r := s1.(next := slot + 1, code := s1.code + [Store(Arg(|init|), slot)],
                   scope := NamedValues.Bind(s1.scope, last, Some(slot)));
      ArgStoresSnoc(|init|, st.next);
      forall n
        ensures NamedValues.Lookup(r.scope, n) == ParamLookup(args, n, st.scope, st.next)
      {
        if n != last {
          assert LastIndex(args, n) == LastIndex(init, n);
        }
      }
      r
  }

  lemma ArgStoresSnoc(n: nat, base: nat)
    ensures ArgStores(n + 1, base) == ArgStores(n, base) + [Store(Arg(n), base + n)]
  {
  }

  /** A position whose name does not occur again later is the last position of that name. */
  lemma {:induction false} LastIndexOfLastOccurrence(args: seq<string>, k: nat)
    requires k < |args| && args[k] !in args[k + 1..]
    ensures LastIndex(args, args[k]) == Some(k)
    decreases |args|
  {
    if k < |args| - 1 {
      var init := args[..|args| - 1];
      assert args[|args| - 1] == args[k + 1..][|args| - 2 - k];
      assert init[k + 1..] == args[k + 1..][..|args| - 2 - k];
      assert init[k] == args[k];
      LastIndexOfLastOccurrence(init, k);
    }
  }

  /** A parameter name that does not occur again later is bound to its own slot. */
  lemma LastParameterWins(args: seq<string>, k: nat, st: CgState)
    requires k < |args| && args[k] !in args[k + 1..]
    ensures NamedValues.Lookup(ArgAllocas(args, st).scope, args[k]) == Some(st.next + k)
  {
    LastIndexOfLastOccurrence(args, k);
  }

  /** A name that is not a parameter keeps the binding it had. */
  lemma NonParameterUnchanged(args: seq<string>, n: string, st: CgState)
    requires n !in args
    ensures NamedValues.Lookup(ArgAllocas(args, st).scope, n) == NamedValues.Lookup(st.scope, n)
  {
  }

  /**
   The state a function body is generated in, after its prototype was
   declared in `d`: a binary operator's precedence installed, a fresh entry
   block holding the stores of the parameters into their slots.
   */
  function EntryState(p: Prototype, d: CgState): (s: CgState)
    requires IsBinaryOp(p) ==> |p.name| > 0
    ensures s.fns == d.fns && s.diags == d.diags && s.next == d.next + 1 + |p.args|
    ensures s.code == [Label(d.next)] + ArgStores(|p.args|, d.next + 1)
    ensures IsBinaryOp(p) ==> s.reg == Binop.SetPrecedence(d.reg, OperatorName(p), p.precedence)
    ensures !IsBinaryOp(p) ==> s.reg == d.reg
  {
    var reg1 := if IsBinaryOp(p) then Binop.SetPrecedence(d.reg, OperatorName(p), p.precedence) else d.reg;
    var entry := d.next; var s1 := d.(next := entry + 1);
    ArgAllocas(p.args, s1.(reg := reg1, code := [Label(entry)], block := entry))
  }

  /**
   A definition: the symbol table is cleared, the prototype declared (a
   failure there changes nothing else); a binary operator's precedence is
   installed; an entry block gets the parameter slots; the body is generated
   and returned. If the body fails, the function is erased from the module,
   even an earlier extern of the same name, and a binary operator's
   precedence is removed.
   */
  function GenFunction(f: FunctionDef, st: CgState): (r: Gen<string>)
    requires IsBinaryOp(f.proto) ==> |f.proto.name| > 0
    ensures KeepsDefinitions(st, r.st)
    ensures |st.diags| <= |r.st.diags| && r.st.diags[..|st.diags|] == st.diags
    ensures DeclarePrototype(f.proto, st.(scope := map[])).Failed? ==>
              r == Failed(DeclarePrototype(f.proto, st.(scope := map[])).st)
    ensures DeclarePrototype(f.proto, st.(scope := map[])).Emitted? ==>
              r == CompileBody(f, DeclarePrototype(f.proto, st.(scope := map[])).st)
  {
    var p := f.proto;
    var d := DeclarePrototype(p, st.(scope := map[]));
    if !d.Emitted? then Failed(d.st)
    else
      var r := CompileBody(f, d.st);
      assert d.st.fns == st.fns[p.name := FnEntry(|p.args|, None)];
      assert d.st.reg == st.reg && d.st.diags == st.diags;
      assert KeepsDefinitions(st, r.st) by {
        forall n | n in st.fns && st.fns[n].body.Some?
          ensures n in r.st.fns && r.st.fns[n] == st.fns[n]
        {
          assert n != p.name && n in d.st.fns && d.st.fns[n] == st.fns[n];
        }
      }
      r
  }

  /**
   The part of a definition after its prototype was declared in `d`: the
   body is generated in the entry state and either becomes the function's
   body, followed by a return of its value, or the function is erased and a
   binary operator's precedence removed again.
   */
  function CompileBody(f: FunctionDef, d: CgState): (r: Gen<string>)
    requires IsBinaryOp(f.proto) ==> |f.proto.name| > 0
    ensures |d.diags| <= |r.st.diags| && r.st.diags[..|d.diags|] == d.diags
    ensures r.Crashed? ==> r.st.fns == d.fns
    ensures UserOpsDefined(f.body, d.fns) ==> !r.Crashed?
    ensures r.Emitted? ==>
              r.v == f.proto.name && f.proto.name in r.st.fns
              && r.st.fns == d.fns[f.proto.name := r.st.fns[f.proto.name]]
              && r.st.fns[f.proto.name].arity == |f.proto.args|
              && r.st.fns[f.proto.name].body.Some?
              && var code := r.st.fns[f.proto.name].body.value;
                 |code| >= 2 + |f.proto.args| && code[0].Label? && code[|code| - 1].Ret?
    ensures r.Failed? ==> r.st.fns == d.fns - {f.proto.name}
    ensures r.Emitted? && IsBinaryOp(f.proto) ==>
              Binop.GetBinopPrecedence(r.st.reg, OperatorName(f.proto)) == f.proto.precedence
              && r.st.reg == Binop.SetPrecedence(d.reg, OperatorName(f.proto), f.proto.precedence)
    ensures !IsBinaryOp(f.proto) ==> r.st.reg == d.reg
    ensures r.Failed? && IsBinaryOp(f.proto) && OperatorName(f.proto) !in d.reg.overrides ==> r.st.reg == d.reg
  {
    var p := f.proto;
    var s2 := EntryState(p, d);
    var rb := GenExpr(f.body, s2);
    match rb
    case Crashed(s) => Crashed(s)
    case Emitted(v, s) =>
      assert s2.code <= s.code;
      var code := s.code + [Ret(v)];
      assert code[0] == s2.code[0];
      Emitted(p.name, s.(fns := s.fns[p.name := FnEntry(|p.args|, Some(code))]))
    case Failed(s) =>
      var reg2 := if IsBinaryOp(p) then Binop.RemovePrecedence(s.reg, OperatorName(p)) else s.reg;
      assert IsBinaryOp(p) && OperatorName(p) !in d.reg.overrides ==> reg2 == d.reg by {
        if IsBinaryOp(p) && OperatorName(p) !in d.reg.overrides {
          Binop.InstallThenRollback(d.reg, OperatorName(p), p.precedence);
        }
      }
      Failed(s.(fns := s.fns - {p.name}, reg := reg2))
  }

  /**
   A successful definition leaves the function with its arity and a body that
   starts with the entry label and ends with a return; no other function
   changes. A binary operator's precedence stays installed; any other
   definition leaves the registry alone.
   */
  lemma DefinitionSucceeds(f: FunctionDef, st: CgState)
    requires IsBinaryOp(f.proto) ==> |f.proto.name| > 0
    requires GenFunction(f, st).Emitted?
    ensures var r := GenFunction(f, st);
            DeclarePrototype(f.proto, st.(scope := map[])).Emitted?
            && r.v == f.proto.name && f.proto.name in r.st.fns
            && r.st.fns == st.fns[f.proto.name := r.st.fns[f.proto.name]]
            && r.st.fns[f.proto.name].arity == |f.proto.args|
            && r.st.fns[f.proto.name].body.Some?
            && var code := r.st.fns[f.proto.name].body.value;
               |code| >= 2 + |f.proto.args| && code[0].Label? && code[|code| - 1].Ret?
    ensures IsBinaryOp(f.proto) ==>
              Binop.GetBinopPrecedence(GenFunction(f, st).st.reg, OperatorName(f.proto)) == f.proto.precedence
    ensures !IsBinaryOp(f.proto) ==> GenFunction(f, st).st.reg == st.reg
  {
    var d := DeclarePrototype(f.proto, st.(scope := map[]));
    assert d.Emitted?;
    assert d.st.fns == st.fns[f.proto.name := FnEntry(|f.proto.args|, None)] && d.st.reg == st.reg;
  }

  /**
   A definition whose body fails, after its prototype was declared, erases
   the function from the module and, for a binary operator that had no
   earlier override, leaves the registry as it was.
   */
  lemma DefinitionFailureErases(f: FunctionDef, st: CgState)
    requires IsBinaryOp(f.proto) ==> |f.proto.name| > 0
    requires DeclarePrototype(f.proto, st.(scope := map[])).Emitted? && GenFunction(f, st).Failed?
    ensures f.proto.name !in GenFunction(f, st).st.fns && GenFunction(f, st).st.fns == st.fns - {f.proto.name}
    ensures IsBinaryOp(f.proto) && OperatorName(f.proto) !in st.reg.overrides ==> GenFunction(f, st).st.reg == st.reg
    ensures !IsBinaryOp(f.proto) ==> GenFunction(f, st).st.reg == st.reg
  {
    var d := DeclarePrototype(f.proto, st.(scope := map[]));
    assert d.st.fns == st.fns[f.proto.name := FnEntry(|f.proto.args|, None)] && d.st.reg == st.reg;
  }
}

=== FILE: legacy_lexer.dfy ===
/**
 The older lexer copy at the top of ast.h (`advance`/`gettok`), written here
 over an index into the whole program text rather than over the unread
 suffix. Its agreement with the lexer of parser.h is proved below, token by
 token: same token, same recorded location, same state afterwards.
 */
module LegacyLexer {
  import opened Tokens
  import Lexer

  /** The program text, the index of the next unread character, the lookahead and `LexLoc`. */
  datatype Cursor = Cursor(src: seq<Byte>, pos: nat, last: Lexer.Last, loc: Lexer.Loc)

  predicate Valid(c: Cursor) {
    c.pos <= |c.src|
  }

  function Left(c: Cursor): nat
    requires Valid(c)
  {
    |c.src| - c.pos + (if c.last.Ch? then 1 else 0)
  }

  /** `advance`: a line end moves to column 0 of the next line, anything else one column right. */
  function Advance(c: Cursor): (r: Cursor)
    requires Valid(c)
    ensures Valid(r)
    ensures c.last.Ch? ==> Left(r) < Left(c)
  {
    var ch := if c.pos < |c.src| then Lexer.Ch(c.src[c.pos]) else Lexer.End;
    var loc := if ch == Lexer.Ch('\n') || ch == Lexer.Ch('\r')
               then Lexer.Loc(c.loc.line + 1, 0)
               else Lexer.Loc(c.loc.line, c.loc.col + 1);
    Cursor(c.src, if c.pos < |c.src| then c.pos + 1 else c.pos, ch, loc)
  }

  function SkipBlanks(c: Cursor): (r: Cursor)
    requires Valid(c)
    decreases Left(c)
    ensures Valid(r) && Left(r) <= Left(c)
  {
    if c.last.Ch? && Lexer.IsSpace(c.last.c) then SkipBlanks(Advance(c)) else c
  }

  function Scan(c: Cursor, k: Lexer.RunKind): (r: (seq<Byte>, Cursor))
    requires Valid(c)
    decreases Left(c)
    ensures Valid(r.1) && Left(r.1) <= Left(c)
  {
    if c.last.Ch? && Lexer.InRun(k, c.last.c) then
      var (run, c') := Scan(Advance(c), k);
      ([c.last.c] + run, c')
    else
      ([], c)
  }

  /** `gettok` of ast.h, with `"def"` mapped to the definition token (code -2). */
  function GetTok(c: Cursor): (r: (Token, Lexer.Loc, Cursor))
    requires Valid(c)
    decreases Left(c)
    ensures Valid(r.2)
  {
    var c1 := SkipBlanks(c);
    match c1.last
    case End => (Eof, c1.loc, c1)
    case Ch(ch) =>
      if Lexer.IsAlpha(ch) then
        var (run, c2) := Scan(Advance(c1), Lexer.Word);
        (KeywordOrIdentifier([ch] + run), c1.loc, c2)
      else if Lexer.IsNumChar(ch) then
        var (run, c2) := Scan(Advance(c1), Lexer.NumChars);
        (Number([ch] + run), c1.loc, c2)
      else if ch == '#' then
        var (_, c2) := Scan(Advance(c1), Lexer.LineBody);
        if c2.last.End? then (Eof, c1.loc, c2) else GetTok(c2)
      else
        (Char(ch), c1.loc, Advance(c1))
  }

  /** The lexer state of parser.h that a cursor stands for. */
  function View(c: Cursor): Lexer.LexState
    requires Valid(c)
  {
    Lexer.LexState(c.src[c.pos..], c.last, c.loc)
  }

  /** The two `advance` functions read the same character and move the location identically. */
  lemma AdvanceAgrees(c: Cursor)
    requires Valid(c)
    ensures View(Advance(c)) == Lexer.Advance(View(c))
  {
    if c.pos < |c.src| {
      assert c.src[c.pos..][1..] == c.src[c.pos + 1..];
    }
  }

  lemma {:induction false} SkipAgrees(c: Cursor)
    requires Valid(c)
    decreases Left(c)
    ensures View(SkipBlanks(c)) == Lexer.SkipSpace(View(c))
  {
    if c.last.Ch? && Lexer.IsSpace(c.last.c) {
      AdvanceAgrees(c);
      SkipAgrees(Advance(c));
    }
  }

  lemma {:induction false} ScanAgrees(c: Cursor, k: Lexer.RunKind)
    requires Valid(c)
    decreases Left(c)
    ensures var (run, c') := Scan(c, k);
            (run, View(c')) == Lexer.ScanRun(View(c), k)
  {
    if c.last.Ch? && Lexer.InRun(k, c.last.c) {
      AdvanceAgrees(c);
      ScanAgrees(Advance(c), k);
    }
  }

  /**
   The legacy `gettok` and the newer `get_token` give the same token at the
   same location and leave the lexer in the same state.
   */
  lemma {:induction false} GetTokAgrees(c: Cursor)
    requires Valid(c)
    decreases Left(c)
    ensures var (tok, at, c') := GetTok(c);
            Lexer.Lexed(tok, at, View(c')) == Lexer.GetToken(View(c))
  {
    SkipAgrees(c);
    var c1 := SkipBlanks(c);
    if c1.last.Ch? {
      var ch := c1.last.c;
      AdvanceAgrees(c1);
      if Lexer.IsAlpha(ch) {
        ScanAgrees(Advance(c1), Lexer.Word);
      } else if Lexer.IsNumChar(ch) {
        ScanAgrees(Advance(c1), Lexer.NumChars);
      } else if ch == '#' {
        ScanAgrees(Advance(c1), Lexer.LineBody);
        var (_, c2) := Scan(Advance(c1), Lexer.LineBody);
        if !c2.last.End? {
          GetTokAgrees(c2);
        }
      }
    }
  }
}

=== FILE: lexer.dfy ===
/**
 The lexer of parser.h: a pull-based scanner over the program text that keeps
 one character of lookahead (`LastChar`) and the location of the next
 character (`LexLoc`). The program text is a finite sequence whose end is an
 explicit `End` lookahead.
 */
module Lexer {
  import opened Tokens
  import Decimal

  /** A source position: lines count from 1, columns from 0. */
  datatype Loc = Loc(line: nat, col: nat)

  /** The lexer's one-character lookahead: a character, or end of input. */
  datatype Last = Ch(c: Byte) | End

  /** `rest` is the text not yet read, `last` the lookahead, `loc` the lexer location. */
  datatype LexState = LexState(rest: seq<Byte>, last: Last, loc: Loc)

  /** A token and the location recorded for it (`CurLoc`). */
  datatype Lexed = Lexed(tok: Token, at: Loc, next: LexState)

  /** The initial state: lookahead is a blank and the location is line 1, column 0. */
  function Start(src: seq<Byte>): LexState {
    LexState(src, Ch(' '), Loc(1, 0))
  }

  predicate LocLe(a: Loc, b: Loc) {
    a.line < b.line || (a.line == b.line && a.col <= b.col)
  }

  predicate IsSpace(c: char) {
    c == ' ' || c == '\t' || c == '\n' || c == '\r' || c == '\U{000B}' || c == '\U{000C}'
  }

  predicate IsAlpha(c: char) {
    ('a' <= c <= 'z') || ('A' <= c <= 'Z')
  }

  predicate IsAlnum(c: char) {
    IsAlpha(c) || Decimal.IsDigit(c)
  }

  predicate IsNumChar(c: char) {
    Decimal.IsDigit(c) || c == '.'
  }

  predicate IsLineEnd(c: char) {
    c == '\n' || c == '\r'
  }

  /** The character classes the lexer reads runs of. */
  datatype RunKind = Blanks | Word | NumChars | LineBody

  predicate InRun(k: RunKind, c: char) {
    match k
    case Blanks => IsSpace(c)
    case Word => IsAlnum(c)
    case NumChars => IsNumChar(c)
    case LineBody => !IsLineEnd(c)
  }

  /** The characters not yet consumed, lookahead first. */
  function Unread(s: LexState): seq<Byte> {
    if s.last.Ch? then [s.last.c] + s.rest else []
  }

  function Measure(s: LexState): nat {
    |Unread(s)|
  }

  /** The longest prefix of `s` whose characters all satisfy `p`. */
  function TakeWhile(k: RunKind, s: seq<Byte>): (t: seq<Byte>)
    ensures |t| <= |s|
  {
    if |s| > 0 && InRun(k, s[0]) then [s[0]] + TakeWhile(k, s[1..]) else []
  }

  /** How reading one character (or the end) moves the lexer location. */
  function NextLoc(loc: Loc, c: Last): (r: Loc)
    ensures c.Ch? && IsLineEnd(c.c) ==> r.line == loc.line + 1 && r.col == 0
    ensures !(c.Ch? && IsLineEnd(c.c)) ==> r.line == loc.line && r.col == loc.col + 1
    ensures LocLe(loc, r) && r != loc
  {
    if c.Ch? && IsLineEnd(c.c) then Loc(loc.line + 1, 0) else Loc(loc.line, loc.col + 1)
  }

  /** `advance`: read the next character into the lookahead and move the location past it. */
  function Advance(s: LexState): (r: LexState)
    ensures s.last.Ch? ==> Unread(s) == [s.last.c] + Unread(r)
    ensures r.loc.line >= s.loc.line && LocLe(s.loc, r.loc)
  {
    var c := if |s.rest| > 0 then Ch(s.rest[0]) else End;
    LexState(if |s.rest| > 0 then s.rest[1..] else [], c, NextLoc(s.loc, c))
  }

  /** The loop skipping blanks before a token. */
  function SkipSpace(s: LexState): (r: LexState)
    decreases Measure(s)
    ensures Unread(s) == TakeWhile(Blanks, Unread(s)) + Unread(r)
    ensures r.last.Ch? ==> !IsSpace(r.last.c)
    ensures LocLe(s.loc, r.loc)
  {
    if s.last.Ch? && IsSpace(s.last.c) then
      var r := SkipSpace(Advance(s));
      assert Unread(s)[1..] == Unread(Advance(s));
      r
    else
      s
  }

  /** Reads characters while the lookahead is of kind `k`, collecting them. */
  function ScanRun(s: LexState, k: RunKind): (r: (seq<Byte>, LexState))
    decreases Measure(s)
    ensures r.0 == TakeWhile(k, Unread(s))
    ensures Unread(s) == r.0 + Unread(r.1)
    ensures LocLe(s.loc, r.1.loc)
  {
    if s.last.Ch? && InRun(k, s.last.c) then
      var a := Advance(s);
      var (run, s') := ScanRun(a, k);
      assert Unread(s)[1..] == Unread(a);
      ([s.last.c] + run, s')
    else
      ([], s)
  }

  /**
   `get_token`. Blanks are skipped and the token's location is the lexer
   location after them; a `#` comment runs to the end of its line and lexing
   resumes after it, unless the comment reaches the end of input; the end of
   input is never consumed.
   */
  function GetToken(s: LexState): (r: Lexed)
    decreases Measure(s)
    ensures Measure(r.next) <= Measure(s)
    ensures r.tok != Eof ==> Measure(r.next) < Measure(s)
    ensures r.tok == Eof ==> r.next.last == End
    ensures LocLe(s.loc, r.at) && LocLe(r.at, r.next.loc)
  {
    var s1 := SkipSpace(s);
    match s1.last
    case End => Lexed(Eof, s1.loc, s1)
    case Ch(c) =>
      if IsAlpha(c) then
        var (run, s2) := ScanRun(Advance(s1), Word);
        Lexed(KeywordOrIdentifier([c] + run), s1.loc, s2)
      else if IsNumChar(c) then
        var (run, s2) := ScanRun(Advance(s1), NumChars);
        Lexed(Number([c] + run), s1.loc, s2)
      else if c == '#' then
        var (_, s2) := ScanRun(Advance(s1), LineBody);
        if s2.last.End? then Lexed(Eof, s1.loc, s2) else GetToken(s2)
      else
        Lexed(Char(c), s1.loc, Advance(s1))
  }

  /** The buffered token the parser looks at, with its location. */
  datatype LocTok = LocTok(tok: Token, loc: Loc)

  /**
   The whole token sequence of a program: the tokens before the first end of
   input, and the location reported for that end. The lexer does not depend on
   the parser or the code generator, so lexing ahead gives the tokens the
   parser would pull one at a time.
   */
  datatype Stream = Stream(toks: seq<LocTok>, eof: Loc)

  function Tokenize(s: LexState): (ts: Stream)
    decreases Measure(s)
    ensures forall i :: 0 <= i < |ts.toks| ==> ts.toks[i].tok != Eof
    ensures forall i :: 0 <= i < |ts.toks| ==> LocLe(s.loc, ts.toks[i].loc)
    ensures forall i :: 0 <= i < |ts.toks| ==> LocLe(ts.toks[i].loc, ts.eof)
    ensures forall i :: 0 < i < |ts.toks| ==> LocLe(ts.toks[i - 1].loc, ts.toks[i].loc)
    ensures LocLe(s.loc, ts.eof)
  {
    var r := GetToken(s);
    if r.tok == Eof then Stream([], r.at)
    else
      var tail := Tokenize(r.next);
      var toks := [LocTok(r.tok, r.at)] + tail.toks;
      forall i | 0 <= i < |toks|
        ensures toks[i].tok != Eof && LocLe(s.loc, toks[i].loc) && LocLe(toks[i].loc, tail.eof)
      {
        if i > 0 {
          assert toks[i] == tail.toks[i - 1];
        }
      }
      forall i | 0 < i < |toks|
        ensures LocLe(toks[i - 1].loc, toks[i].loc)
      {
        assert toks[i] == tail.toks[i - 1];
        if i > 1 {
          assert toks[i - 1] == tail.toks[i - 2];
        }
      }
      Stream(toks, tail.eof)
  }

  // ---------------------------------------------------------------- properties

  /** An identifier token is a letter followed by the longest run of letters and digits. */
  lemma LexIdentifier(s: LexState)
    requires var u := Unread(SkipSpace(s)); |u| > 0 && IsAlpha(u[0])
    ensures var u := Unread(SkipSpace(s));
            var word := TakeWhile(Word, u);
            var r := GetToken(s);
            && r.tok == KeywordOrIdentifier(word)
            && r.at == SkipSpace(s).loc
            && Unread(r.next) == u[|word|..]
  {
    var s1 := SkipSpace(s);
    assert s1.last.Ch? && Unread(s1)[0] == s1.last.c;
    WordToken(s);
    RunAfterFirst(Word, s1);
  }

  /** The branch of `get_token` that a letter selects. */
  lemma WordToken(s: LexState)
    requires SkipSpace(s).last.Ch? && IsAlpha(SkipSpace(s).last.c)
    ensures var s1 := SkipSpace(s);
            var (run, s2) := ScanRun(Advance(s1), Word);
            GetToken(s) == Lexed(KeywordOrIdentifier([s1.last.c] + run), s1.loc, s2)
  {
  }

  /** A number token is the longest run of digits and dots, starting at a digit or a dot. */
  lemma LexNumber(s: LexState)
    requires var u := Unread(SkipSpace(s)); |u| > 0 && IsNumChar(u[0])
    ensures var u := Unread(SkipSpace(s));
            var num := TakeWhile(NumChars, u);
            var r := GetToken(s);
            && r.tok == Number(num)
            && r.at == SkipSpace(s).loc
            && Unread(r.next) == u[|num|..]
  {
    var s1 := SkipSpace(s);
    assert s1.last.Ch? && Unread(s1)[0] == s1.last.c;
    NumberToken(s);
    RunAfterFirst(NumChars, s1);
  }

  /** A run that starts at the lookahead: the lookahead followed by the run scanned after it. */
  lemma RunAfterFirst(k: RunKind, s1: LexState)
    requires s1.last.Ch? && InRun(k, s1.last.c)
    ensures var u := Unread(s1);
            var (run, s2) := ScanRun(Advance(s1), k);
            TakeWhile(k, u) == [u[0]] + run && Unread(s2) == u[1 + |run|..]
  {
    var u := Unread(s1);
    var a := Advance(s1);
    var t := Unread(a);
    assert u == [s1.last.c] + t;
    assert u[1..] == t;
    var (run, s2) := ScanRun(a, k);
    assert TakeWhile(k, u) == [u[0]] + TakeWhile(k, t);
    assert t == run + Unread(s2);
    assert Unread(s2) == t[|run|..];
    assert t[|run|..] == u[1 + |run|..];
  }

  /** The branch of `get_token` that a digit or a dot selects. */
  lemma NumberToken(s: LexState)
    requires SkipSpace(s).last.Ch? && IsNumChar(SkipSpace(s).last.c)
    ensures var s1 := SkipSpace(s);
            var (run, s2) := ScanRun(Advance(s1), NumChars);
            GetToken(s) == Lexed(Number([s1.last.c] + run), s1.loc, s2)
  {
    assert !IsAlpha(SkipSpace(s).last.c);
  }

  /** A character that starts no identifier, number or comment is consumed and returned as itself. */
  lemma LexOtherChar(s: LexState)
    requires var u := Unread(SkipSpace(s));
             |u| > 0 && !IsAlpha(u[0]) && !IsNumChar(u[0]) && u[0] != '#'
    ensures var u := Unread(SkipSpace(s));
            var r := GetToken(s);
            && r.tok == Char(u[0]) && 0 <= Code(r.tok) < 256
            && r.at == SkipSpace(s).loc
            && Unread(r.next) == u[1..]
  {
    var s1 := SkipSpace(s);
    assert s1.last.Ch? && Unread(s1)[0] == s1.last.c;
  }

  /**
   A comment is skipped up to its line end and lexing resumes from there;
   a comment that reaches the end of input gives the end token, located at
   the `#`.
   */
  lemma LexComment(s: LexState)
    requires var u := Unread(SkipSpace(s)); |u| > 0 && u[0] == '#'
    ensures var u := Unread(SkipSpace(s));
            var body := TakeWhile(LineBody, u[1..]);
            var r := GetToken(s);
            if 1 + |body| == |u| then
              r.tok == Eof && r.at == SkipSpace(s).loc
            else
              exists s2: LexState :: Unread(s2) == u[1 + |body|..] && r == GetToken(s2)
  {
    var s1 := SkipSpace(s);
    var u := Unread(s1);
    assert s1.last.Ch? && u[0] == s1.last.c;
    assert !IsAlpha(u[0]) && !IsNumChar(u[0]);
    var a := Advance(s1);
    assert Unread(a) == u[1..];
    var (_, s2) := ScanRun(a, LineBody);
    assert Unread(s2) == u[1..][|TakeWhile(LineBody, u[1..])|..];
    assert u[1..][|TakeWhile(LineBody, u[1..])|..] == u[1 + |TakeWhile(LineBody, u[1..])|..];
  }

  /** With nothing left but blanks the lexer gives the end token. */
  lemma LexEnd(s: LexState)
    requires Unread(SkipSpace(s)) == []
    ensures GetToken(s).tok == Eof
  {
  }

  /**
   The end of input is never consumed: once the end token has been returned,
   every later call returns it again, at the same location, without moving.
   */
  lemma EofIsSticky(s: LexState)
    requires GetToken(s).tok == Eof
    ensures var n := GetToken(s).next; GetToken(n) == Lexed(Eof, n.loc, n)
  {
  }
}

=== FILE: named_values.dfy ===
/**
 The symbol table of named_values.h: a map from names to storage slots that
 may hold null entries. `get` default-inserts a null entry for a missing name;
 a null entry reads exactly like a missing one, so the code generator works
 with the observable view `View`, in which a name is bound only to a real slot.
 */
module NamedValues {
  import opened Wrappers

  /** An opaque storage slot (an `alloca`) identified by a number. */
  type Slot = nat

  /** The table as the source holds it: a null pointer is `None`. */
  type Table = map<string, Option<Slot>>

  /** The bindings the table makes visible. */
  type Scope = map<string, Slot>

  function View(t: Table): (s: Scope)
    ensures forall n :: n in s <==> n in t && t[n].Some?
    ensures forall n :: n in s ==> Some(s[n]) == t[n]
  {
    map n | n in t && t[n].Some? :: t[n].value
  }

  /** `set`: the name now reads `v`. */
  function Set(t: Table, name: string, v: Option<Slot>): (t': Table)
    ensures Get(t', name).0 == v
    ensures forall n :: n != name ==> Lookup(View(t'), n) == Lookup(View(t), n)
  {
    t[name := v]
  }

  /** `get`: the bound slot, or null; a missing name gets a null entry inserted. */
  function Get(t: Table, name: string): (r: (Option<Slot>, Table))
    ensures r.0 == Lookup(View(t), name)
    ensures View(r.1) == View(t)
  {
    if name in t then (t[name], t) else (None, t[name := None])
  }

  /** `unset`: the name is erased. */
  function Unset(t: Table, name: string): (t': Table)
    ensures Get(t', name).0 == None
    ensures forall n :: n != name ==> Lookup(View(t'), n) == Lookup(View(t), n)
  {
    t - {name}
  }

  /** `clear`: no name is bound. */
  function Clear(t: Table): (t': Table)
    ensures forall n :: Get(t', n).0 == None
  {
    map[]
  }

  /** The binding a view gives a name, null when unbound. */
  function Lookup(s: Scope, name: string): (r: Option<Slot>)
    ensures r.Some? <==> name in s
    ensures r.Some? ==> r.value == s[name]
  {
    if name in s then Some(s[name]) else None
  }

  /**
   Writing a possibly-null binding into a view. This is what `set` does to the
   view, and what the code generator uses for binding and for restoring.
   */
  function Bind(s: Scope, name: string, v: Option<Slot>): (s': Scope)
    ensures Lookup(s', name) == v
    ensures forall n :: n != name ==> Lookup(s', n) == Lookup(s, n)
  {
    match v
    case Some(slot) => s[name := slot]
    case None => s - {name}
  }

  /** `set`, `unset` and `clear` on the table are `Bind` and the empty map on its view. */
  lemma {:induction false} ViewCommutes(t: Table, name: string, v: Option<Slot>)
    ensures View(Set(t, name, v)) == Bind(View(t), name, v)
    ensures View(Unset(t, name)) == Bind(View(t), name, None)
    ensures View(Clear(t)) == map[]
  {
    var a := View(Set(t, name, v));
    var b := Bind(View(t), name, v);
    forall n
      ensures n in a <==> n in b
      ensures n in a ==> a[n] == b[n]
    {
      assert Lookup(a, n) == Lookup(b, n);
    }
    var c := View(Unset(t, name));
    var d := Bind(View(t), name, None);
    forall n
      ensures n in c <==> n in d
    {
      assert Lookup(c, n) == Lookup(d, n);
    }
  }

  /** Saving a binding and writing it back restores the view exactly. */
  lemma {:induction false} BindRestores(s: Scope, name: string, slot: Slot)
    ensures Bind(Bind(s, name, Some(slot)), name, Lookup(s, name)) == s
  {
    var s' := Bind(Bind(s, name, Some(slot)), name, Lookup(s, name));
    forall n
      ensures n in s' <==> n in s
      ensures n in s ==> s'[n] == s[n]
    {
      assert Lookup(s', n) == Lookup(s, n);
    }
  }
}

=== FILE: parser.dfy ===
/**
 The recursive-descent, precedence-climbing parser of ast/ast_parse.h and the
 prototype parser of ast/ast_function_prototype.h, as pure functions over the
 token stream. Each parse function returns the stream where it stopped, on
 success and on failure alike: the top-level driver resumes from there.
 */
module Parser {
  import opened Wrappers
  import opened Tokens
  import opened Lexer
  import opened Ast
  import Binop

  /** The current token (`CurTok`) and its location; past the last token it is the end token. */
  function Current(s: Stream): LocTok {
    if |s.toks| == 0 then LocTok(Eof, s.eof) else s.toks[0]
  }

  /** `get_next_token`: move to the next token; the end token is never consumed. */
  function Next(s: Stream): (r: Stream)
    ensures Current(s).tok != Eof ==> |r.toks| == |s.toks| - 1
    ensures |r.toks| <= |s.toks|
  {
    if |s.toks| == 0 then s else Stream(s.toks[1..], s.eof)
  }

  /** The outcome of a parse function: the node, or a diagnostic; either way, where it stopped. */
  datatype Parsed<T> = Parsed(value: T, rest: Stream) | Error(msg: string, rest: Stream)

  /** Success consumes at least one token; no parse function ever moves backwards. */
  predicate Progress<T>(r: Parsed<T>, s: Stream) {
    |r.rest.toks| <= |s.toks| && (r.Parsed? ==> |r.rest.toks| < |s.toks|)
  }

  /**
   `get_token_precedence`: the registry's precedence for an ASCII token, and
   -1 ("not a binary operator") for every other token and for a registry
   value that is not positive.
   */
  function TokenPrecedence(reg: Binop.Registry, t: Token): (p: int)
    ensures p == -1 || p > 0
    ensures p > 0 <==> IsAscii(t) && Binop.GetBinopPrecedence(reg, t.c) > 0
    ensures p > 0 ==> p == Binop.GetBinopPrecedence(reg, t.c)
  {
    if !IsAscii(t) then -1
    else
      var p := Binop.GetBinopPrecedence(reg, t.c);
      if p <= 0 then -1 else p
  }

  /** Every binary operator in the tree had a positive precedence in `reg`. */
  predicate OpsDeclared(reg: Binop.Registry, e: Expr)
    decreases e
  {
    match e
    case Number(_, _) => true
    case Variable(_, _) => true
    case Unary(_, _, x) => OpsDeclared(reg, x)
    case Binary(_, op, l, r) =>
      Binop.GetBinopPrecedence(reg, op) > 0 && OpsDeclared(reg, l) && OpsDeclared(reg, r)
    case Call(_, _, args) => forall i :: 0 <= i < |args| ==> OpsDeclared(reg, args[i])
    case If(_, c, t, f) => OpsDeclared(reg, c) && OpsDeclared(reg, t) && OpsDeclared(reg, f)
    case For(_, _, a, b, st, body) =>
      OpsDeclared(reg, a) && OpsDeclared(reg, b) && OpsDeclared(reg, body)
      && (st.Some? ==> OpsDeclared(reg, st.value))
    case Var(_, bs, body) =>
      OpsDeclared(reg, body)
      && forall i :: 0 <= i < |bs| ==> (bs[i].init.Some? ==> OpsDeclared(reg, bs[i].init.value))
  }

  predicate ParsedOk(reg: Binop.Registry, r: Parsed<Expr>, s: Stream) {
    Progress(r, s) && (r.Parsed? ==> OpsDeclared(reg, r.value))
  }

  // ------------------------------------------------------------ expressions

  /** expression ::= unary binoprhs */
  function ParseExpression(s: Stream, reg: Binop.Registry): (r: Parsed<Expr>)
    decreases |s.toks|, 3
    ensures ParsedOk(reg, r, s)
    ensures r.Parsed? ==> TokenPrecedence(reg, Current(r.rest).tok) < 0
  {
    match ParseUnary(s, reg)
    case Error(m, rest) => Error(m, rest)
    case Parsed(lhs, rest) => ParseBinOpRHS(0, lhs, rest, reg)
  }

  /** The tokens `ParseUnary` reads as a prefix operator. */
  predicate IsPrefixOp(t: Token) {
    IsAscii(t) && t != Char('(') && t != Char(',')
  }

  /**
   unary ::= primary | op unary. Every ASCII token other than `(` and `,` is
   taken as a prefix operator; the node is built after its operand, at the
   location of the token then current.
   */
  function ParseUnary(s: Stream, reg: Binop.Registry): (r: Parsed<Expr>)
    decreases |s.toks|, 2
    ensures ParsedOk(reg, r, s)
    ensures IsPrefixOp(Current(s).tok) && r.Parsed? ==>
              r.value.Unary? && r.value.opcode == Current(s).tok.c
    ensures !IsPrefixOp(Current(s).tok) ==> r == ParsePrimary(s, reg)
  {
    var t := Current(s).tok;
    if !IsPrefixOp(t) then
      ParsePrimary(s, reg)
    else
      match ParseUnary(Next(s), reg)
      case Error(m, rest) => Error(m, rest)
      case Parsed(operand, rest) => Parsed(Expr.Unary(Current(rest).loc, t.c, operand), rest)
  }

  /**
   binoprhs ::= (op unary)*, precedence climbing. An operator binding less
   tightly than `exprPrec` ends the loop; an operand is absorbed into a
   deeper right-hand side only when the operator after it binds strictly
   tighter, so equal precedences associate to the left. The callers pass 0
   and a precedence plus one, never a negative minimum.
   */
  function ParseBinOpRHS(exprPrec: nat, lhs: Expr, s: Stream, reg: Binop.Registry): (r: Parsed<Expr>)
    requires OpsDeclared(reg, lhs)
    decreases |s.toks|, 4
    ensures |r.rest.toks| <= |s.toks|
    ensures r.Parsed? ==> OpsDeclared(reg, r.value)
    ensures r.Parsed? ==> TokenPrecedence(reg, Current(r.rest).tok) < exprPrec
    ensures r.Parsed? ==> (r.value == lhs && r.rest == s) || (r.value.Binary? && |r.rest.toks| < |s.toks|)
  {
    var tokPrec := TokenPrecedence(reg, Current(s).tok);
    if tokPrec < exprPrec then Parsed(lhs, s)
    else
      var op := Current(s);
      match ParseUnary(Next(s), reg)
      case Error(m, rest) => Error(m, rest)
      case Parsed(rhs, rest) =>
        var nextPrec := TokenPrecedence(reg, Current(rest).tok);
        var rhs' :=
          if tokPrec < nextPrec then ParseBinOpRHS(tokPrec + 1, rhs, rest, reg)
          else Parsed(rhs, rest);
        match rhs'
        case Error(m, rest') => Error(m, rest')
        case Parsed(rhs2, rest') => ParseBinOpRHS(exprPrec, Expr.Binary(op.loc, op.tok.c, lhs, rhs2), rest', reg)
  }

  /** The tokens a primary expression can start with. */
  predicate StartsPrimary(t: Token) {
    t.Identifier? || t.Number? || t == Char('(') || t == Token.If || t == Token.For || t == Token.Var
  }

  /**
   primary ::= identifierexpr | numberexpr | parenexpr | ifexpr | forexpr | varexpr
   */
  function ParsePrimary(s: Stream, reg: Binop.Registry): (r: Parsed<Expr>)
    decreases |s.toks|, 1
    ensures ParsedOk(reg, r, s)
    ensures r.Parsed? ==> StartsPrimary(Current(s).tok)
    ensures r.Parsed? && Current(s).tok.Identifier? ==> r.value.Variable? || r.value.Call?
    ensures r.Parsed? && Current(s).tok.Number? ==> r.value.Number?
    ensures r.Parsed? && Current(s).tok == Token.If ==> r.value.If?
    ensures r.Parsed? && Current(s).tok == Token.For ==> r.value.For?
    ensures r.Parsed? && Current(s).tok == Token.Var ==> r.value.Var?
    ensures !StartsPrimary(Current(s).tok) ==> r == Error("unknown token when expecting an expression", s)
  {
    match Current(s).tok
    case Identifier(_) => ParseIdentifierExpr(s, reg)
    case Number(_) => ParseNumberExpr(s)
    case Char('(') => ParseParenExpr(s, reg)
    case If => ParseIfExpr(s, reg)
    case For => ParseForExpr(s, reg)
    case Var => ParseVarExpr(s, reg)
    case _ => Error("unknown token when expecting an expression", s)
  }

  /** identifierexpr ::= identifier | identifier '(' [expression (',' expression)*] ')' */
  function ParseIdentifierExpr(s: Stream, reg: Binop.Registry): (r: Parsed<Expr>)
    requires Current(s).tok.Identifier?
    decreases |s.toks|, 0
    ensures ParsedOk(reg, r, s)
    ensures Current(Next(s)).tok != Char('(') ==> r == Parsed(Variable(Current(s).loc, Current(s).tok.name), Next(s))
    ensures r.Parsed? && Current(Next(s)).tok == Char('(') ==>
              r.value.Call? && r.value.callee == Current(s).tok.name && r.value.loc == Current(s).loc
  {
    var name := Current(s).tok.name;
    var loc := Current(s).loc;
    var s1 := Next(s);
    if Current(s1).tok != Char('(') then Parsed(Variable(loc, name), s1)
    else
      var s2 := Next(s1);
      if Current(s2).tok == Char(')') then Parsed(Call(loc, name, []), Next(s2))
      else
        match ParseArgs(s2, reg, [])
        case Error(m, rest) => Error(m, rest)
        case Parsed(args, rest) => Parsed(Call(loc, name, args), Next(rest))
  }

  /**
   The argument loop: an expression, then `)` ends the list and `,` continues
   it; anything else is an error. The closing `)` is left current.
   */
  function ParseArgs(s: Stream, reg: Binop.Registry, acc: seq<Expr>): (r: Parsed<seq<Expr>>)
    requires forall i :: 0 <= i < |acc| ==> OpsDeclared(reg, acc[i])
    decreases |s.toks|, 4
    ensures |r.rest.toks| <= |s.toks|
    ensures r.Parsed? ==> Current(r.rest).tok == Char(')') && |r.value| > |acc|
    ensures r.Parsed? ==> forall i :: 0 <= i < |r.value| ==> OpsDeclared(reg, r.value[i])
  {
    match ParseExpression(s, reg)
    case Error(m, rest) => Error(m, rest)
    case Parsed(arg, rest) =>
      if Current(rest).tok == Char(')') then Parsed(acc + [arg], rest)
      else if Current(rest).tok != Char(',') then Error("Expected ')' or ',' in argument list", rest)
      else ParseArgs(Next(rest), reg, acc + [arg])
  }

  /** numberexpr ::= number; the node is located at the number token. */
  function ParseNumberExpr(s: Stream): (r: Parsed<Expr>)
    requires Current(s).tok.Number?
    ensures r.Parsed? && |r.rest.toks| < |s.toks|
    ensures r.value == Expr.Number(Current(s).loc, NumberValue(Current(s).tok))
  {
    Parsed(Expr.Number(Current(s).loc, NumberValue(Current(s).tok)), Next(s))
  }

  /** parenexpr ::= '(' expression ')'; the parentheses leave no node of their own. */
  function ParseParenExpr(s: Stream, reg: Binop.Registry): (r: Parsed<Expr>)
    requires Current(s).tok == Char('(')
    decreases |s.toks|, 0
    ensures ParsedOk(reg, r, s)
  {
    match ParseExpression(Next(s), reg)
    case Error(m, rest) => Error(m, rest)
    case Parsed(v, rest) =>
      if Current(rest).tok != Char(')') then Error("expected ')'", rest)
      else Parsed(v, Next(rest))
  }

  /** ifexpr ::= 'if' expression 'then' expression 'else' expression */
  function ParseIfExpr(s: Stream, reg: Binop.Registry): (r: Parsed<Expr>)
    requires Current(s).tok == Token.If
    decreases |s.toks|, 0
    ensures ParsedOk(reg, r, s)
    ensures r.Parsed? ==> r.value.If? && r.value.loc == Current(s).loc
  {
    var ifLoc := Current(s).loc;
    match ParseExpression(Next(s), reg)
    case Error(m, rest) => Error(m, rest)
    case Parsed(c, rest) =>
      if Current(rest).tok != Then then Error("expected then", rest)
      else
        match ParseExpression(Next(rest), reg)
        case Error(m, rest2) => Error(m, rest2)
        case Parsed(t, rest2) =>
          if Current(rest2).tok != Else then Error("expected else", rest2)
          else
            match ParseExpression(Next(rest2), reg)
            case Error(m, rest3) => Error(m, rest3)
            case Parsed(f, rest3) => Parsed(Expr.If(ifLoc, c, t, f), rest3)
  }

  /** forexpr ::= 'for' identifier '=' expr ',' expr [',' expr] 'in' expression */
  function ParseForExpr(s: Stream, reg: Binop.Registry): (r: Parsed<Expr>)
    requires Current(s).tok == Token.For
    decreases |s.toks|, 0
    ensures ParsedOk(reg, r, s)
    ensures r.Parsed? ==> r.value.For? && Current(Next(s)).tok == Identifier(r.value.varName)
    ensures !Current(Next(s)).tok.Identifier? ==> r == Error("expected identifier after for", Next(s))
  {
    var s1 := Next(s);
    if !Current(s1).tok.Identifier? then Error("expected identifier after for", s1)
    else
      var name := Current(s1).tok.name;
      var s2 := Next(s1);
      if Current(s2).tok != Char('=') then Error("expected '=' after for", s2)
      else
        match ParseExpression(Next(s2), reg)
        case Error(m, rest) => Error(m, rest)
        case Parsed(start, rest) =>
          if Current(rest).tok != Char(',') then Error("expected ',' after for start value", rest)
          else
            match ParseExpression(Next(rest), reg)
            case Error(m, rest2) => Error(m, rest2)
            case Parsed(end, rest2) =>
              match ParseForStep(rest2, reg)
              case Error(m, rest3) => Error(m, rest3)
              case Parsed(step, rest3) =>
                if Current(rest3).tok != In then Error("expected 'in' after for", rest3)
                else
                  match ParseExpression(Next(rest3), reg)
                  case Error(m, rest4) => Error(m, rest4)
                  case Parsed(body, rest4) =>
                    Parsed(Expr.For(Current(rest4).loc, name, start, end, step, body), rest4)
  }

  /** The optional `, step` of a `for`: absent unless the current token is `,`. */
  function ParseForStep(s: Stream, reg: Binop.Registry): (r: Parsed<Option<Expr>>)
    decreases |s.toks|, 4
    ensures |r.rest.toks| <= |s.toks|
    ensures r.Parsed? && r.value.Some? ==> OpsDeclared(reg, r.value.value)
    ensures Current(s).tok != Char(',') ==> r == Parsed(None, s)
  {
    if Current(s).tok != Char(',') then Parsed(None, s)
    else
      match ParseExpression(Next(s), reg)
      case Error(m, rest) => Error(m, rest)
      case Parsed(step, rest) => Parsed(Some(step), rest)
  }

  /** varexpr ::= 'var' identifier ['=' expression] (',' identifier ['=' expression])* 'in' expression */
  function ParseVarExpr(s: Stream, reg: Binop.Registry): (r: Parsed<Expr>)
    requires Current(s).tok == Token.Var
    decreases |s.toks|, 0
    ensures ParsedOk(reg, r, s)
    ensures r.Parsed? ==> r.value.Var? && |r.value.bindings| > 0
                          && Current(Next(s)).tok == Identifier(r.value.bindings[0].name)
    ensures !Current(Next(s)).tok.Identifier? ==> r == Error("expected identifier after var", Next(s))
  {
    var s1 := Next(s);
    if !Current(s1).tok.Identifier? then Error("expected identifier after var", s1)
    else
      match ParseVarList(s1, reg, [])
      case Error(m, rest) => Error(m, rest)
      case Parsed(bindings, rest) =>
        if Current(rest).tok != In then Error("expected 'in' keyword after 'var'", rest)
        else
          match ParseExpression(Next(rest), reg)
          case Error(m, rest2) => Error(m, rest2)
          case Parsed(body, rest2) => Parsed(Expr.Var(Current(rest2).loc, bindings, body), rest2)
  }

  predicate BindingsDeclared(reg: Binop.Registry, bs: seq<Binding>) {
    forall i :: 0 <= i < |bs| ==> (bs[i].init.Some? ==> OpsDeclared(reg, bs[i].init.value))
  }

  /** The `var` list loop; it starts at an identifier and stops at the first token that is not `,`. */
  function ParseVarList(s: Stream, reg: Binop.Registry, acc: seq<Binding>): (r: Parsed<seq<Binding>>)
    requires Current(s).tok.Identifier?
    requires BindingsDeclared(reg, acc)
    decreases |s.toks|, 4
    ensures |r.rest.toks| < |s.toks|
    ensures r.Parsed? ==> |r.value| > |acc| && BindingsDeclared(reg, r.value)
    ensures r.Parsed? ==> r.value[..|acc|] == acc && r.value[|acc|].name == Current(s).tok.name
    ensures r.Parsed? ==> Current(r.rest).tok != Char(',')
  {
    var name := Current(s).tok.name;
    match ParseVarInit(Next(s), reg)
    case Error(m, rest) => Error(m, rest)
    case Parsed(i, rest) =>
      var acc' := acc + [Binding(name, i)];
      if Current(rest).tok != Char(',') then Parsed(acc', rest)
      else
        var rest2 := Next(rest);
        if !Current(rest2).tok.Identifier? then Error("expected identifier list after var", rest2)
        else ParseVarList(rest2, reg, acc')
  }

  /** The optional `= expression` after a `var` name: absent unless the current token is `=`. */
  function ParseVarInit(s: Stream, reg: Binop.Registry): (r: Parsed<Option<Expr>>)
    decreases |s.toks|, 4
    ensures |r.rest.toks| <= |s.toks|
    ensures r.Parsed? && r.value.Some? ==> OpsDeclared(reg, r.value.value)
    ensures Current(s).tok != Char('=') ==> r == Parsed(None, s)
  {
    if Current(s).tok != Char('=') then Parsed(None, s)
    else
      match ParseExpression(Next(s), reg)
      case Error(m, rest) => Error(m, rest)
      case Parsed(e, rest) => Parsed(Some(e), rest)
  }

  // ------------------------------------------------------------ prototypes and top level

  /** What kind of prototype is being read: the source's `Kind` 0, 1 or 2. */
  function ProtoKind(t: Token): nat {
    if t == Token.Unary then 1 else if t == Token.Binary then 2 else 0
  }

  /** The name of the declared function, and a binary operator's precedence (30 unless given). */
  datatype Head = Head(name: string, precedence: nat)

  /**
   The first part of a prototype: a function name, or `unary` and a symbol,
   or `binary`, a symbol and an optional precedence. An explicit precedence
   must lie in 1..100 and is then truncated.
   */
  function ParseHead(s: Stream): (r: Parsed<Head>)
    ensures Progress(r, s)
    ensures !(Current(s).tok.Identifier? || Current(s).tok == Token.Unary || Current(s).tok == Token.Binary) ==>
              r == Error("Expected function name in prototype", s)
    ensures r.Parsed? && Current(s).tok.Identifier? ==> r.value == Head(Current(s).tok.name, 30)
    ensures r.Parsed? && Current(s).tok == Token.Unary ==>
              IsAscii(Current(Next(s)).tok) && r.value == Head(UnaryName(Current(Next(s)).tok.c), 30)
    ensures r.Parsed? && Current(s).tok == Token.Binary ==>
              IsAscii(Current(Next(s)).tok) && r.value.name == BinaryName(Current(Next(s)).tok.c)
              && 1 <= r.value.precedence <= 100
    ensures Current(s).tok == Token.Binary && IsAscii(Current(Next(s)).tok) ==>
              var n := Current(Next(Next(s))).tok;
              (!n.Number? ==> r.Parsed? && r.value.precedence == 30)
              && (n.Number? && 1.0 <= NumberValue(n) <= 100.0 ==> r.Parsed? && r.value.precedence == NumberValue(n).Floor)
              && (n.Number? && !(1.0 <= NumberValue(n) <= 100.0) ==> r.Error?)
  {
    match Current(s).tok
    case Identifier(n) => Parsed(Head(n, 30), Next(s))
    case Unary =>
      var s1 := Next(s);
      if !IsAscii(Current(s1).tok) then Error("Expected unary operator", s1)
      else Parsed(Head(UnaryName(Current(s1).tok.c), 30), Next(s1))
    case Binary =>
      var s1 := Next(s);
      if !IsAscii(Current(s1).tok) then Error("Expected binary operator", s1)
      else
        var s2 := Next(s1);
        var name := BinaryName(Current(s1).tok.c);
        if !Current(s2).tok.Number? then Parsed(Head(name, 30), s2)
        else
          var v := NumberValue(Current(s2).tok);
          if v < 1.0 || v > 100.0 then Error("Invalid precedecnce: must be 1..100", s2)
          else Parsed(Head(name, v.Floor as nat), Next(s2))
    case _ => Error("Expected function name in prototype", s)
  }

  /**
   prototype ::= id '(' id* ')' | 'unary' op '(' id ')' | 'binary' op [number] '(' id id ')'.
   Parameters are consecutive identifiers with no separator; an operator
   must have exactly as many as its kind says. The constructor always
   receives the head's precedence.
   */
  function ParsePrototype(s: Stream): (r: Parsed<Prototype>)
    ensures Progress(r, s)
    ensures !(Current(s).tok.Identifier? || Current(s).tok == Token.Unary || Current(s).tok == Token.Binary) ==>
              r == Error("Expected function name in prototype", s)
    ensures r.Parsed? ==> r.value.line == Current(s).loc.line && WellFormed(r.value)
    ensures r.Parsed? ==> ParseHead(s).Parsed? && r.value.name == ParseHead(s).value.name
                          && r.value.precedence == ParseHead(s).value.precedence
    ensures r.Parsed? ==> (r.value.isOperator <==> !Current(s).tok.Identifier?)
    ensures r.Parsed? && Current(s).tok == Token.Unary ==> IsUnaryOp(r.value)
    ensures r.Parsed? && Current(s).tok == Token.Binary ==> IsBinaryOp(r.value)
  {
    var t := Current(s).tok;
    match ParseHead(s)
    case Error(m, rest) => Error(m, rest)
    case Parsed(head, rest) =>
      if Current(rest).tok != Char('(') then Error("Expected '(' in prototype", rest)
      else
        var (params, rest2) := ParseParams(Next(rest), []);
        if Current(rest2).tok != Char(')') then Error("Expected ')' in prototype", rest2)
        else
          var kind := ProtoKind(t);
          if kind != 0 && |params| != kind then Error("Invalid number of operands for operator", Next(rest2))
          else Parsed(Prototype(head.name, params, kind != 0, head.precedence, Current(s).loc.line), Next(rest2))
  }

  /**
   What every prototype the parser builds satisfies: an operator is named
   after an ASCII symbol and has the arity of its kind; a plain prototype
   may have any number of parameters.
   */
  predicate WellFormed(p: Prototype) {
    p.isOperator ==>
      (|p.args| == 1 && exists c: Byte :: c as int < 128 && p.name == UnaryName(c))
      || (|p.args| == 2 && exists c: Byte :: c as int < 128 && p.name == BinaryName(c))
  }

  /** The parameter loop: identifiers for as long as they come. */
  function ParseParams(s: Stream, acc: seq<string>): (r: (seq<string>, Stream))
    decreases |s.toks|
    ensures |r.1.toks| <= |s.toks|
    ensures !Current(r.1).tok.Identifier?
    ensures |r.0| - |acc| == |s.toks| - |r.1.toks|
    ensures r.0[..|acc|] == acc
    ensures forall i :: |acc| <= i < |r.0| ==> s.toks[i - |acc|].tok == Identifier(r.0[i])
    ensures r.1 == Stream(s.toks[|r.0| - |acc|..], s.eof)
  {
    if Current(s).tok.Identifier? then ParseParams(Next(s), acc + [Current(s).tok.name])
    else (acc, s)
  }

  /** definition ::= 'def' prototype expression */
  function ParseDefinition(s: Stream, reg: Binop.Registry): (r: Parsed<FunctionDef>)
    requires Current(s).tok == Function
    ensures Progress(r, s)
    ensures r.Parsed? ==> OpsDeclared(reg, r.value.body) && WellFormed(r.value.proto)
  {
    match ParsePrototype(Next(s))
    case Error(m, rest) => Error(m, rest)
    case Parsed(proto, rest) =>
      match ParseExpression(rest, reg)
      case Error(m, rest2) => Error(m, rest2)
      case Parsed(e, rest2) => Parsed(FunctionDef(proto, e), rest2)
  }

  /** toplevelexpr ::= expression, wrapped in a parameterless function named `main`. */
  function ParseTopLevelExpr(s: Stream, reg: Binop.Registry): (r: Parsed<FunctionDef>)
    ensures Progress(r, s)
    ensures r.Parsed? ==> OpsDeclared(reg, r.value.body)
    ensures r.Parsed? ==> r.value.proto == Prototype("main", [], false, 0, Current(s).loc.line)
  {
    match ParseExpression(s, reg)
    case Error(m, rest) => Error(m, rest)
    case Parsed(e, rest) => Parsed(FunctionDef(Prototype("main", [], false, 0, Current(s).loc.line), e), rest)
  }

  /** external ::= 'extern' prototype */
  function ParseExtern(s: Stream): (r: Parsed<Prototype>)
    requires Current(s).tok == Extern
    ensures Progress(r, s)
    ensures r.Parsed? ==> WellFormed(r.value)
  {
    ParsePrototype(Next(s))
  }
}

=== FILE: parser_props.dfy ===
/**
 Properties of the parser: how precedence climbing shapes the tree, and the
 trees and prototypes some small token streams produce.
 */
module ParserProps {
  import opened Wrappers
  import opened Tokens
  import Lexer
  import opened Ast
  import opened Parser
  import Binop

  // ------------------------------------------------------------ precedence climbing

  /** An operator binding less tightly than the minimum (or no operator at all) ends the loop. */
  lemma BinOpRHSStopsBelowMinimum(exprPrec: nat, lhs: Expr, s: Lexer.Stream, reg: Binop.Registry)
    requires OpsDeclared(reg, lhs)
    requires TokenPrecedence(reg, Current(s).tok) < exprPrec
    ensures ParseBinOpRHS(exprPrec, lhs, s, reg) == Parsed(lhs, s)
  {
  }

  /**
   An expression starts at minimum precedence 0, so a token that is not a
   binary operator ends it right after its first operand.
   */
  lemma ExpressionEndsAtNonOperator(s: Lexer.Stream, reg: Binop.Registry)
    requires ParseUnary(s, reg).Parsed?
    requires TokenPrecedence(reg, Current(ParseUnary(s, reg).rest).tok) == -1
    ensures ParseExpression(s, reg) == ParseUnary(s, reg)
  {
  }

  /**
   When the operator after an operand binds no tighter than the one before
   it, the two operands are combined at once and the loop continues with the
   combined node as its left operand: equal precedences associate left.
   */
  lemma FoldsLeftUnlessTighter(exprPrec: nat, lhs: Expr, s: Lexer.Stream, reg: Binop.Registry,
                               rhs: Expr, rest: Lexer.Stream)
    requires OpsDeclared(reg, lhs)
    requires TokenPrecedence(reg, Current(s).tok) >= exprPrec
    requires ParseUnary(Next(s), reg) == Parsed(rhs, rest)
    requires TokenPrecedence(reg, Current(rest).tok) <= TokenPrecedence(reg, Current(s).tok)
    ensures Current(s).tok.Char? && OpsDeclared(reg, Expr.Binary(Current(s).loc, Current(s).tok.c, lhs, rhs))
    ensures ParseBinOpRHS(exprPrec, lhs, s, reg)
         == ParseBinOpRHS(exprPrec, Expr.Binary(Current(s).loc, Current(s).tok.c, lhs, rhs), rest, reg)
  {
  }

  /**
   When the operator after an operand binds strictly tighter, that operand
   becomes the left operand of a nested right-hand side, parsed with minimum
   precedence one above the current operator.
   */
  lemma NestsRightWhenTighter(exprPrec: nat, lhs: Expr, s: Lexer.Stream, reg: Binop.Registry,
                              rhs: Expr, rest: Lexer.Stream)
    requires OpsDeclared(reg, lhs)
    requires TokenPrecedence(reg, Current(s).tok) >= exprPrec
    requires ParseUnary(Next(s), reg) == Parsed(rhs, rest)
    requires TokenPrecedence(reg, Current(rest).tok) > TokenPrecedence(reg, Current(s).tok)
    ensures var p := TokenPrecedence(reg, Current(s).tok);
            p > 0 &&
            ParseBinOpRHS(exprPrec, lhs, s, reg)
            == match ParseBinOpRHS(p + 1, rhs, rest, reg)
               case Error(m, r) => Error(m, r)
               case Parsed(rhs2, r) =>
                 ParseBinOpRHS(exprPrec, Expr.Binary(Current(s).loc, Current(s).tok.c, lhs, rhs2), r, reg)
  {
  }

  /** A binary operator as the loop meets it: the operator token's location and symbol. */
  datatype OpTok = OpTok(loc: Lexer.Loc, c: Byte)

  /** `((lhs o1 u1) o2 u2) ... on un`: the operands combined strictly from left to right. */
  function LeftFold(lhs: Expr, ops: seq<OpTok>, operands: seq<Expr>): Expr
    requires |ops| == |operands|
    decreases |ops|
  {
    if |ops| == 0 then lhs
    else LeftFold(Expr.Binary(ops[0].loc, ops[0].c, lhs, operands[0]), ops[1..], operands[1..])
  }

  /** The last operator of a left fold is its root, over the fold of everything before it. */
  lemma {:induction false} LeftFoldLast(lhs: Expr, ops: seq<OpTok>, operands: seq<Expr>, o: OpTok, u: Expr)
    requires |ops| == |operands|
    ensures LeftFold(lhs, ops + [o], operands + [u]) == Expr.Binary(o.loc, o.c, LeftFold(lhs, ops, operands), u)
    decreases |ops|
  {
    if |ops| > 0 {
      assert (ops + [o])[1..] == ops[1..] + [o];
      assert (operands + [u])[1..] == operands[1..] + [u];
      LeftFoldLast(Expr.Binary(ops[0].loc, ops[0].c, lhs, operands[0]), ops[1..], operands[1..], o, u);
    }
  }

  /**
   From `s` on, the stream reads the operators `ops`, each followed by a
   unary operand from `operands`, and then continues at `t`. Every operator
   binds at least as tightly as `exprPrec`, and the token after each operand
   binds no tighter than the operator in front of that operand. Equal
   precedences throughout are the common case.
   */
  predicate FoldChain(reg: Binop.Registry, exprPrec: nat, s: Lexer.Stream, ops: seq<OpTok>,
                      operands: seq<Expr>, t: Lexer.Stream)
    decreases |ops|
  {
    |ops| == |operands|
    && if |ops| == 0 then s == t
       else
         var p := TokenPrecedence(reg, Current(s).tok);
         var u := ParseUnary(Next(s), reg);
         Current(s).loc == ops[0].loc && Current(s).tok == Char(ops[0].c) && p >= exprPrec
         && u == Parsed(operands[0], u.rest) && TokenPrecedence(reg, Current(u.rest).tok) <= p
         && FoldChain(reg, exprPrec, u.rest, ops[1..], operands[1..], t)
  }

  /**
   Precedence climbing over a chain whose operators never bind tighter than
   the one before them folds the operands to the left, and the loop goes on
   from where the chain ends; when the token there binds less tightly than
   the minimum, the fold is the result. In particular operators of equal
   precedence associate to the left.
   */
  lemma {:induction false} ChainFoldsLeft(exprPrec: nat, lhs: Expr, s: Lexer.Stream, reg: Binop.Registry,
                                          ops: seq<OpTok>, operands: seq<Expr>, t: Lexer.Stream)
    requires OpsDeclared(reg, lhs) && FoldChain(reg, exprPrec, s, ops, operands, t)
    ensures OpsDeclared(reg, LeftFold(lhs, ops, operands))
    ensures ParseBinOpRHS(exprPrec, lhs, s, reg) == ParseBinOpRHS(exprPrec, LeftFold(lhs, ops, operands), t, reg)
    ensures TokenPrecedence(reg, Current(t).tok) < exprPrec ==>
              ParseBinOpRHS(exprPrec, lhs, s, reg) == Parsed(LeftFold(lhs, ops, operands), t)
    decreases |ops|
  {
    if |ops| > 0 {
      var u := ParseUnary(Next(s), reg);
      FoldsLeftUnlessTighter(exprPrec, lhs, s, reg, operands[0], u.rest);
      ChainFoldsLeft(exprPrec, Expr.Binary(ops[0].loc, ops[0].c, lhs, operands[0]), u.rest, reg,
                     ops[1..], operands[1..], t);
    }
  }

  /**
   A whole expression: a first unary operand, then such a chain, ended by a
   token that is no binary operator, is the left fold of its operands.
   */
  lemma ExpressionFoldsLeft(s: Lexer.Stream, reg: Binop.Registry, first: Expr, s1: Lexer.Stream,
                            ops: seq<OpTok>, operands: seq<Expr>, t: Lexer.Stream)
    requires ParseUnary(s, reg) == Parsed(first, s1)
    requires FoldChain(reg, 0, s1, ops, operands, t) && TokenPrecedence(reg, Current(t).tok) < 0
    ensures ParseExpression(s, reg) == Parsed(LeftFold(first, ops, operands), t)
  {
    ChainFoldsLeft(0, first, s1, reg, ops, operands, t);
  }

  /**
   When the operator after an operand binds strictly tighter than the one
   before it, that operand starts a nested right-hand side at one above the
   first operator's precedence. The nested parse takes in at least the
   tighter operator, so it is a binary node, and it stops at a token binding
   no tighter than the first operator; that node becomes the first
   operator's right operand.
   */
  lemma TighterOperandNests(exprPrec: nat, lhs: Expr, s: Lexer.Stream, reg: Binop.Registry,
                            u: Expr, rest: Lexer.Stream)
    requires OpsDeclared(reg, lhs)
    requires TokenPrecedence(reg, Current(s).tok) >= exprPrec
    requires ParseUnary(Next(s), reg) == Parsed(u, rest)
    requires TokenPrecedence(reg, Current(rest).tok) > TokenPrecedence(reg, Current(s).tok)
    requires ParseBinOpRHS(TokenPrecedence(reg, Current(s).tok) + 1, u, rest, reg).Parsed?
    ensures var p := TokenPrecedence(reg, Current(s).tok);
            var n := ParseBinOpRHS(p + 1, u, rest, reg);
            n.value.Binary? && |n.rest.toks| < |rest.toks| && TokenPrecedence(reg, Current(n.rest).tok) <= p
            && Current(s).tok.Char? && OpsDeclared(reg, Expr.Binary(Current(s).loc, Current(s).tok.c, lhs, n.value))
            && ParseBinOpRHS(exprPrec, lhs, s, reg)
               == ParseBinOpRHS(exprPrec, Expr.Binary(Current(s).loc, Current(s).tok.c, lhs, n.value), n.rest, reg)
  {
    NestsRightWhenTighter(exprPrec, lhs, s, reg, u, rest);
  }

  // ------------------------------------------------------------ prefix operators

  /** Prefix operators applied outermost first, every node at location `loc`: `-!x` is `-(!x)`. */
  function Prefixed(ops: seq<Byte>, loc: Lexer.Loc, e: Expr): Expr
    decreases |ops|
  {
    if |ops| == 0 then e else Expr.Unary(loc, ops[0], Prefixed(ops[1..], loc, e))
  }

  /** From `s` on, the stream reads the prefix operators `ops` and then continues at `t`. */
  predicate PrefixRun(s: Lexer.Stream, ops: seq<Byte>, t: Lexer.Stream)
    decreases |ops|
  {
    if |ops| == 0 then s == t
    else Current(s).tok == Char(ops[0]) && IsPrefixOp(Current(s).tok) && PrefixRun(Next(s), ops[1..], t)
  }

  /** The run of prefix operators at the start of `s`. */
  function PrefixOps(s: Lexer.Stream): (ops: seq<Byte>)
    decreases |s.toks|
    ensures PrefixRun(s, ops, AfterPrefixes(s))
  {
    if IsPrefixOp(Current(s).tok) then [Current(s).tok.c] + PrefixOps(Next(s)) else []
  }

  /** Where the run of prefix operators at the start of `s` ends. */
  function AfterPrefixes(s: Lexer.Stream): (t: Lexer.Stream)
    decreases |s.toks|
    ensures !IsPrefixOp(Current(t).tok)
  {
    if IsPrefixOp(Current(s).tok) then AfterPrefixes(Next(s)) else s
  }

  /**
   A run of prefix operators in front of a primary expression nests them
   around it, the first outermost, every node located where the primary
   ended; a failing primary is the failure of the whole run.
   */
  lemma {:induction false} PrefixesNest(s: Lexer.Stream, reg: Binop.Registry, ops: seq<Byte>, t: Lexer.Stream)
    requires PrefixRun(s, ops, t) && !IsPrefixOp(Current(t).tok)
    ensures ParsePrimary(t, reg).Error? ==> ParseUnary(s, reg) == ParsePrimary(t, reg)
    ensures var p := ParsePrimary(t, reg);
            p.Parsed? ==> ParseUnary(s, reg) == Parsed(Prefixed(ops, Current(p.rest).loc, p.value), p.rest)
    decreases |ops|
  {
    if |ops| > 0 {
      PrefixesNest(Next(s), reg, ops[1..], t);
    }
  }

  /**
   Every unary expression is its leading prefix operators wrapped around
   the primary expression that follows them.
   */
  lemma UnaryIsPrefixedPrimary(s: Lexer.Stream, reg: Binop.Registry)
    ensures var p := ParsePrimary(AfterPrefixes(s), reg);
            (p.Error? ==> ParseUnary(s, reg) == p)
            && (p.Parsed? ==> ParseUnary(s, reg) == Parsed(Prefixed(PrefixOps(s), Current(p.rest).loc, p.value), p.rest))
  {
    PrefixesNest(s, reg, PrefixOps(s), AfterPrefixes(s));
  }

  // ------------------------------------------------------------ required keywords

  /** `if` needs `then` after its condition and `else` after its then part. */
  lemma IfNeedsThenAndElse(s: Lexer.Stream, reg: Binop.Registry)
    requires Current(s).tok == Token.If && ParseExpression(Next(s), reg).Parsed?
    ensures var c := ParseExpression(Next(s), reg);
            Current(c.rest).tok != Then ==> ParseIfExpr(s, reg) == Error("expected then", c.rest)
    ensures var c := ParseExpression(Next(s), reg);
            var t := ParseExpression(Next(c.rest), reg);
            Current(c.rest).tok == Then && t.Parsed? && Current(t.rest).tok != Else ==>
              ParseIfExpr(s, reg) == Error("expected else", t.rest)
  {
  }

  /** A complete `if` holds its three parts in order and ends where the else part ends. */
  lemma IfParts(s: Lexer.Stream, reg: Binop.Registry)
    requires Current(s).tok == Token.If && ParseIfExpr(s, reg).Parsed?
    ensures var c := ParseExpression(Next(s), reg);
            c.Parsed? && Current(c.rest).tok == Then
            && var t := ParseExpression(Next(c.rest), reg);
               t.Parsed? && Current(t.rest).tok == Else
               && var f := ParseExpression(Next(t.rest), reg);
                  f.Parsed? && ParseIfExpr(s, reg) == Parsed(Expr.If(Current(s).loc, c.value, t.value, f.value), f.rest)
  {
  }

  /** A parenthesised expression must be closed by `)`. */
  lemma ParenNeedsClose(s: Lexer.Stream, reg: Binop.Registry)
    requires Current(s).tok == Char('(') && ParseExpression(Next(s), reg).Parsed?
    ensures var e := ParseExpression(Next(s), reg);
            Current(e.rest).tok != Char(')') ==> ParseParenExpr(s, reg) == Error("expected ')'", e.rest)
    ensures var e := ParseExpression(Next(s), reg);
            Current(e.rest).tok == Char(')') ==> ParseParenExpr(s, reg) == Parsed(e.value, Next(e.rest))
  {
  }

  /** `for` needs `=` after its variable and `,` after the start value. */
  lemma ForNeedsSeparators(s: Lexer.Stream, reg: Binop.Registry)
    requires Current(s).tok == Token.For && Current(Next(s)).tok.Identifier?
    ensures Current(Next(Next(s))).tok != Char('=') ==>
              ParseForExpr(s, reg) == Error("expected '=' after for", Next(Next(s)))
    ensures var a := ParseExpression(Next(Next(Next(s))), reg);
            Current(Next(Next(s))).tok == Char('=') && a.Parsed? && Current(a.rest).tok != Char(',') ==>
              ParseForExpr(s, reg) == Error("expected ',' after for start value", a.rest)
  {
  }

  /** `var` needs `in` after its list. */
  lemma VarNeedsIn(s: Lexer.Stream, reg: Binop.Registry)
    requires Current(s).tok == Token.Var && Current(Next(s)).tok.Identifier?
    requires ParseVarList(Next(s), reg, []).Parsed?
    ensures var l := ParseVarList(Next(s), reg, []);
            Current(l.rest).tok != In ==> ParseVarExpr(s, reg) == Error("expected 'in' keyword after 'var'", l.rest)
  {
  }

  // ------------------------------------------------------------ small inputs

  /*
   The examples below hold for every run of streams s0, s1, ... whose
   successive current tokens are the ones listed, wherever those tokens sit
   in the program text.
   */

  /** `s` has current token `t`, and reading it leaves `s'`. */
  predicate Reads(s: Lexer.Stream, t: Token, s': Lexer.Stream) {
    Current(s).tok == t && Next(s) == s'
  }

  function L(s: Lexer.Stream): Lexer.Loc {
    Current(s).loc
  }

  /** The built-in table's precedences for the tokens the examples use. */
  lemma BuiltinTable()
    ensures TokenPrecedence(Binop.Empty(), Char('+')) == 20 && TokenPrecedence(Binop.Empty(), Char('-')) == 20
    ensures TokenPrecedence(Binop.Empty(), Char('*')) == 40
    ensures TokenPrecedence(Binop.Empty(), Char(',')) == -1 && TokenPrecedence(Binop.Empty(), Char(')')) == -1
    ensures TokenPrecedence(Binop.Empty(), Char('^')) == -1
    ensures TokenPrecedence(Binop.Empty(), Token.In) == -1 && TokenPrecedence(Binop.Empty(), Eof) == -1
  {
  }

  /** The table once `^` is declared at precedence 60. */
  lemma DeclaredCaret()
    ensures var reg := Binop.SetPrecedence(Binop.Empty(), '^', 60);
            TokenPrecedence(reg, Char('+')) == 20 && TokenPrecedence(reg, Char('^')) == 60
            && TokenPrecedence(reg, Eof) == -1
  {
  }

  /** An identifier is not a prefix operator: a unary expression starting with it is an identifier expression. */
  lemma IdentifierIsUnary(s: Lexer.Stream, reg: Binop.Registry)
    requires Current(s).tok.Identifier?
    ensures ParseUnary(s, reg) == ParseIdentifierExpr(s, reg)
  {
    assert !IsPrefixOp(Current(s).tok);
    assert ParseUnary(s, reg) == ParsePrimary(s, reg);
  }

  /** An identifier not followed by `(` is a variable reference on its own. */
  lemma VariableOperand(s: Lexer.Stream, reg: Binop.Registry)
    requires Current(s).tok.Identifier? && Current(Next(s)).tok != Char('(')
    ensures ParseUnary(s, reg) == Parsed(Variable(Current(s).loc, Current(s).tok.name), Next(s))
  {
    IdentifierIsUnary(s, reg);
  }

  /** `a + b * c` with the built-in table: `*` binds tighter, so it nests to the right. */
  lemma TighterNestsExample(s0: Lexer.Stream, s1: Lexer.Stream, s2: Lexer.Stream, s3: Lexer.Stream,
                            s4: Lexer.Stream, s5: Lexer.Stream)
    requires Reads(s0, Identifier("a"), s1) && Reads(s1, Char('+'), s2) && Reads(s2, Identifier("b"), s3)
    requires Reads(s3, Char('*'), s4) && Reads(s4, Identifier("c"), s5) && Current(s5).tok == Eof
    ensures ParseExpression(s0, Binop.Empty())
         == Parsed(Expr.Binary(L(s1), '+', Variable(L(s0), "a"), Expr.Binary(L(s3), '*', Variable(L(s2), "b"), Variable(L(s4), "c"))), s5)
  {
    var reg := Binop.Empty();
    var a, b, c := Variable(L(s0), "a"), Variable(L(s2), "b"), Variable(L(s4), "c");
    BuiltinTable();
    var bc := Expr.Binary(L(s3), '*', b, c);
    assert ParseBinOpRHS(21, b, s3, reg) == Parsed(bc, s5) by {
      VariableOperand(s4, reg);
      FoldsLeftUnlessTighter(21, b, s3, reg, c, s5);
      BinOpRHSStopsBelowMinimum(21, bc, s5, reg);
    }
    VariableOperand(s0, reg);
    VariableOperand(s2, reg);
    NestsRightWhenTighter(0, a, s1, reg, b, s3);
    BinOpRHSStopsBelowMinimum(0, Expr.Binary(L(s1), '+', a, bc), s5, reg);
  }

  /** `a - b - c`: equal precedence associates to the left. */
  lemma EqualAssociatesLeftExample(s0: Lexer.Stream, s1: Lexer.Stream, s2: Lexer.Stream, s3: Lexer.Stream,
                                   s4: Lexer.Stream, s5: Lexer.Stream)
    requires Reads(s0, Identifier("a"), s1) && Reads(s1, Char('-'), s2) && Reads(s2, Identifier("b"), s3)
    requires Reads(s3, Char('-'), s4) && Reads(s4, Identifier("c"), s5) && Current(s5).tok == Eof
    ensures ParseExpression(s0, Binop.Empty())
         == Parsed(Expr.Binary(L(s3), '-', Expr.Binary(L(s1), '-', Variable(L(s0), "a"), Variable(L(s2), "b")), Variable(L(s4), "c")), s5)
  {
    var reg := Binop.Empty();
    var a, b, c := Variable(L(s0), "a"), Variable(L(s2), "b"), Variable(L(s4), "c");
    VariableOperand(s0, reg);
    VariableOperand(s2, reg);
    VariableOperand(s4, reg);
    var ab := Expr.Binary(L(s1), '-', a, b);
    FoldsLeftUnlessTighter(0, a, s1, reg, b, s3);
    FoldsLeftUnlessTighter(0, ab, s3, reg, c, s5);
    BinOpRHSStopsBelowMinimum(0, Expr.Binary(L(s3), '-', ab, c), s5, reg);
  }

  /** `a + b ^ c` when `^` has no precedence: the expression ends before the `^`. */
  lemma UndeclaredOperatorEndsExample(s0: Lexer.Stream, s1: Lexer.Stream, s2: Lexer.Stream, s3: Lexer.Stream,
                                      s4: Lexer.Stream)
    requires Reads(s0, Identifier("a"), s1) && Reads(s1, Char('+'), s2) && Reads(s2, Identifier("b"), s3)
    requires Reads(s3, Char('^'), s4)
    ensures ParseExpression(s0, Binop.Empty())
         == Parsed(Expr.Binary(L(s1), '+', Variable(L(s0), "a"), Variable(L(s2), "b")), s3)
  {
    var a, b := Variable(L(s0), "a"), Variable(L(s2), "b");
    var reg := Binop.Empty();
    VariableOperand(s0, reg);
    VariableOperand(s2, reg);
    FoldsLeftUnlessTighter(0, a, s1, reg, b, s3);
    BinOpRHSStopsBelowMinimum(0, Expr.Binary(L(s1), '+', a, b), s3, reg);
  }

  /** The same tokens once `^` is declared at precedence 60: it binds tighter than `+`. */
  lemma DeclaredOperatorNestsExample(s0: Lexer.Stream, s1: Lexer.Stream, s2: Lexer.Stream, s3: Lexer.Stream,
                                     s4: Lexer.Stream, s5: Lexer.Stream)
    requires Reads(s0, Identifier("a"), s1) && Reads(s1, Char('+'), s2) && Reads(s2, Identifier("b"), s3)
    requires Reads(s3, Char('^'), s4) && Reads(s4, Identifier("c"), s5) && Current(s5).tok == Eof
    ensures ParseExpression(s0, Binop.SetPrecedence(Binop.Empty(), '^', 60))
         == Parsed(Expr.Binary(L(s1), '+', Variable(L(s0), "a"), Expr.Binary(L(s3), '^', Variable(L(s2), "b"), Variable(L(s4), "c"))), s5)
  {
    var a, b, c := Variable(L(s0), "a"), Variable(L(s2), "b"), Variable(L(s4), "c");
    var reg := Binop.SetPrecedence(Binop.Empty(), '^', 60);
    DeclaredCaret();
    VariableOperand(s0, reg);
    VariableOperand(s2, reg);
    VariableOperand(s4, reg);
    var bc := Expr.Binary(L(s3), '^', b, c);
    FoldsLeftUnlessTighter(21, b, s3, reg, c, s5);
    BinOpRHSStopsBelowMinimum(21, bc, s5, reg);
    NestsRightWhenTighter(0, a, s1, reg, b, s3);
    BinOpRHSStopsBelowMinimum(0, Expr.Binary(L(s1), '+', a, bc), s5, reg);
  }

  /**
   `- a * b`: a prefix operator takes only the operand right after it. The
   unary node is built once its operand is read, at the `*` token's location.
   */
  lemma UnaryBindsTighterExample(s0: Lexer.Stream, s1: Lexer.Stream, s2: Lexer.Stream, s3: Lexer.Stream,
                                 s4: Lexer.Stream)
    requires Reads(s0, Char('-'), s1) && Reads(s1, Identifier("a"), s2) && Reads(s2, Char('*'), s3)
    requires Reads(s3, Identifier("b"), s4) && Current(s4).tok == Eof
    ensures ParseExpression(s0, Binop.Empty())
         == Parsed(Expr.Binary(L(s2), '*', Expr.Unary(L(s2), '-', Variable(L(s1), "a")), Variable(L(s3), "b")), s4)
  {
    var reg := Binop.Empty();
    VariableOperand(s1, reg);
    VariableOperand(s3, reg);
    var na := Expr.Unary(L(s2), '-', Variable(L(s1), "a"));
    assert ParseUnary(s0, reg) == Parsed(na, s2);
    FoldsLeftUnlessTighter(0, na, s2, reg, Variable(L(s3), "b"), s4);
    BinOpRHSStopsBelowMinimum(0, Expr.Binary(L(s2), '*', na, Variable(L(s3), "b")), s4, reg);
  }

  /** `f()` is a call with no arguments. */
  lemma EmptyCallExample(s0: Lexer.Stream, s1: Lexer.Stream, s2: Lexer.Stream, s3: Lexer.Stream, reg: Binop.Registry)
    requires Reads(s0, Identifier("f"), s1) && Reads(s1, Char('('), s2) && Reads(s2, Char(')'), s3)
    ensures ParseUnary(s0, reg) == Parsed(Call(L(s0), "f", []), s3)
  {
    IdentifierIsUnary(s0, reg);
  }

  /** `f(x, y)` is a call with the two arguments in order. */
  lemma CallExample(s0: Lexer.Stream, s1: Lexer.Stream, s2: Lexer.Stream, s3: Lexer.Stream,
                    s4: Lexer.Stream, s5: Lexer.Stream, s6: Lexer.Stream)
    requires Reads(s0, Identifier("f"), s1) && Reads(s1, Char('('), s2) && Reads(s2, Identifier("x"), s3)
    requires Reads(s3, Char(','), s4) && Reads(s4, Identifier("y"), s5) && Reads(s5, Char(')'), s6)
    ensures ParseUnary(s0, Binop.Empty()) == Parsed(Call(L(s0), "f", [Variable(L(s2), "x"), Variable(L(s4), "y")]), s6)
  {
    TwoArguments(s2, s3, s4, s5);
    CallAssembles(s0, Binop.Empty(), [Variable(L(s2), "x"), Variable(L(s4), "y")], s5);
  }

  /** The argument list `x, y )`. */
  lemma TwoArguments(s2: Lexer.Stream, s3: Lexer.Stream, s4: Lexer.Stream, s5: Lexer.Stream)
    requires Reads(s2, Identifier("x"), s3) && Reads(s3, Char(','), s4) && Reads(s4, Identifier("y"), s5)
    requires Current(s5).tok == Char(')')
    ensures ParseArgs(s2, Binop.Empty(), []) == Parsed([Variable(L(s2), "x"), Variable(L(s4), "y")], s5)
  {
    var reg := Binop.Empty();
    var x, y := Variable(L(s2), "x"), Variable(L(s4), "y");
    BuiltinTable();
    LoneVariable(s2, reg);
    LoneVariable(s4, reg);
    ArgumentThenComma(s2, reg, [], x, s3);
    LastArgument(s4, reg, [x], y, s5);
    assert [] + [x] == [x] && [x] + [y] == [x, y];
  }

  /** A name, `(`, and an argument list ending at `)` make a call. */
  lemma CallAssembles(s: Lexer.Stream, reg: Binop.Registry, args: seq<Expr>, rest: Lexer.Stream)
    requires Current(s).tok.Identifier? && Current(Next(s)).tok == Char('(')
    requires Current(Next(Next(s))).tok != Char(')')
    requires ParseArgs(Next(Next(s)), reg, []) == Parsed(args, rest)
    ensures ParseUnary(s, reg) == Parsed(Call(Current(s).loc, Current(s).tok.name, args), Next(rest))
  {
    IdentifierIsUnary(s, reg);
  }

  /** An argument followed by `,`: the list goes on after the comma. */
  lemma ArgumentThenComma(s: Lexer.Stream, reg: Binop.Registry, acc: seq<Expr>, arg: Expr, rest: Lexer.Stream)
    requires forall i :: 0 <= i < |acc| ==> OpsDeclared(reg, acc[i])
    requires ParseExpression(s, reg) == Parsed(arg, rest) && Current(rest).tok == Char(',')
    ensures OpsDeclared(reg, arg)
    ensures ParseArgs(s, reg, acc) == ParseArgs(Next(rest), reg, acc + [arg])
  {
  }

  /** An argument followed by `)` ends the list. */
  lemma LastArgument(s: Lexer.Stream, reg: Binop.Registry, acc: seq<Expr>, arg: Expr, rest: Lexer.Stream)
    requires forall i :: 0 <= i < |acc| ==> OpsDeclared(reg, acc[i])
    requires ParseExpression(s, reg) == Parsed(arg, rest) && Current(rest).tok == Char(')')
    ensures ParseArgs(s, reg, acc) == Parsed(acc + [arg], rest)
  {
  }

  /**
   From `s` on, the stream reads the expressions `args` separated by `,`,
   and the `)` after the last one is current at `t`.
   */
  predicate ArgChain(reg: Binop.Registry, s: Lexer.Stream, args: seq<Expr>, t: Lexer.Stream)
    decreases |args|
  {
    |args| > 0
    && var e := ParseExpression(s, reg);
       e == Parsed(args[0], e.rest)
       && if |args| == 1 then Current(e.rest).tok == Char(')') && e.rest == t
          else Current(e.rest).tok == Char(',') && ArgChain(reg, Next(e.rest), args[1..], t)
  }

  /** `e1 , ... , en )` is the argument list `e1 ... en`, after those already collected. */
  lemma {:induction false} ArgChainParses(s: Lexer.Stream, reg: Binop.Registry, acc: seq<Expr>,
                                          args: seq<Expr>, t: Lexer.Stream)
    requires forall i :: 0 <= i < |acc| ==> OpsDeclared(reg, acc[i])
    requires ArgChain(reg, s, args, t)
    ensures ParseArgs(s, reg, acc) == Parsed(acc + args, t)
    decreases |args|
  {
    var e := ParseExpression(s, reg);
    if |args| == 1 {
      LastArgument(s, reg, acc, args[0], e.rest);
      assert args == [args[0]];
    } else {
      ArgumentThenComma(s, reg, acc, args[0], e.rest);
      ArgChainParses(Next(e.rest), reg, acc + [args[0]], args[1..], t);
      SplitFirst(acc, args);
    }
  }

  /** Conversely, a successful argument list is such a chain after the arguments already collected. */
  lemma {:induction false} ParsedArgsAreChain(s: Lexer.Stream, reg: Binop.Registry, acc: seq<Expr>)
    requires forall i :: 0 <= i < |acc| ==> OpsDeclared(reg, acc[i])
    requires ParseArgs(s, reg, acc).Parsed?
    ensures var r := ParseArgs(s, reg, acc);
            r.value[..|acc|] == acc && ArgChain(reg, s, r.value[|acc|..], r.rest)
    decreases |s.toks|
  {
    var e := ParseExpression(s, reg);
    var r := ParseArgs(s, reg, acc);
    if Current(e.rest).tok == Char(')') {
      assert r.value[|acc|..] == [e.value];
    } else {
      ArgumentThenComma(s, reg, acc, e.value, e.rest);
      ParsedArgsAreChain(Next(e.rest), reg, acc + [e.value]);
      SplitCollected(r.value, acc, e.value);
    }
  }

  lemma SplitFirst<T>(acc: seq<T>, xs: seq<T>)
    requires |xs| > 0
    ensures acc + [xs[0]] + xs[1..] == acc + xs
  {
    assert [xs[0]] + xs[1..] == xs;
  }

  lemma SplitCollected<T>(v: seq<T>, acc: seq<T>, a: T)
    requires |v| > |acc| && v[..|acc| + 1] == acc + [a]
    ensures v[..|acc|] == acc && v[|acc|..][0] == a && v[|acc|..][1..] == v[|acc| + 1..]
  {
    assert v[..|acc|] == v[..|acc| + 1][..|acc|];
  }

  /** Arguments need a comma between them. */
  lemma CallNeedsSeparatorExample(s0: Lexer.Stream, s1: Lexer.Stream, s2: Lexer.Stream, s3: Lexer.Stream, s4: Lexer.Stream)
    requires Reads(s0, Identifier("f"), s1) && Reads(s1, Char('('), s2) && Reads(s2, Identifier("x"), s3)
    requires Reads(s3, Identifier("y"), s4)
    ensures ParseUnary(s0, Binop.Empty()) == Error("Expected ')' or ',' in argument list", s3)
  {
    var reg := Binop.Empty();
    assert ParseArgs(s2, reg, []) == Error("Expected ')' or ',' in argument list", s3) by {
      LoneVariable(s2, reg);
    }
    IdentifierIsUnary(s0, reg);
  }

  /** A `for` without a step leaves the step absent; the node is located at the token after its body. */
  lemma ForWithoutStepExample(s0: Lexer.Stream, s1: Lexer.Stream, s2: Lexer.Stream, s3: Lexer.Stream,
                              s4: Lexer.Stream, s5: Lexer.Stream, s6: Lexer.Stream, s7: Lexer.Stream, s8: Lexer.Stream)
    requires Reads(s0, Token.For, s1) && Reads(s1, Identifier("i"), s2) && Reads(s2, Char('='), s3)
    requires Reads(s3, Identifier("a"), s4) && Reads(s4, Char(','), s5) && Reads(s5, Identifier("b"), s6)
    requires Reads(s6, Token.In, s7) && Reads(s7, Identifier("x"), s8) && Current(s8).tok == Eof
    ensures ParseUnary(s0, Binop.Empty())
         == Parsed(Expr.For(L(s8), "i", Variable(L(s3), "a"), Variable(L(s5), "b"), None, Variable(L(s7), "x")), s8)
  {
    ForWithoutStepLoop(s0, s1, s2, s3, s4, s5, s6, s7, s8);
    ForIsUnary(s0, Binop.Empty());
  }

  /** The `for` parser itself on `for i = a, b in x`. */
  lemma ForWithoutStepLoop(s0: Lexer.Stream, s1: Lexer.Stream, s2: Lexer.Stream, s3: Lexer.Stream,
                           s4: Lexer.Stream, s5: Lexer.Stream, s6: Lexer.Stream, s7: Lexer.Stream, s8: Lexer.Stream)
    requires Reads(s0, Token.For, s1) && Reads(s1, Identifier("i"), s2) && Reads(s2, Char('='), s3)
    requires Reads(s3, Identifier("a"), s4) && Reads(s4, Char(','), s5) && Reads(s5, Identifier("b"), s6)
    requires Reads(s6, Token.In, s7) && Reads(s7, Identifier("x"), s8) && Current(s8).tok == Eof
    ensures ParseForExpr(s0, Binop.Empty())
         == Parsed(Expr.For(L(s8), "i", Variable(L(s3), "a"), Variable(L(s5), "b"), None, Variable(L(s7), "x")), s8)
  {
    var reg := Binop.Empty();
    BuiltinTable();
    LoneVariable(s3, reg);
    LoneVariable(s5, reg);
    LoneVariable(s7, reg);
    ForWithoutStep(s0, reg, Variable(L(s3), "a"), s4, Variable(L(s5), "b"), s6, Variable(L(s7), "x"), s8);
  }

  /** `for` is not a prefix operator: a unary expression starting with it is the loop. */
  lemma ForIsUnary(s: Lexer.Stream, reg: Binop.Registry)
    requires Current(s).tok == Token.For
    ensures ParseUnary(s, reg) == ParseForExpr(s, reg)
  {
    assert !IsPrefixOp(Current(s).tok);
    assert ParseUnary(s, reg) == ParsePrimary(s, reg);
  }

  /** A `for` whose end value is followed by `in` has no step. */
  lemma ForWithoutStep(s: Lexer.Stream, reg: Binop.Registry, start: Expr, a: Lexer.Stream,
                       end: Expr, b: Lexer.Stream, body: Expr, c: Lexer.Stream)
    requires Current(s).tok == Token.For && Current(Next(s)).tok.Identifier?
    requires Current(Next(Next(s))).tok == Char('=')
    requires ParseExpression(Next(Next(Next(s))), reg) == Parsed(start, a) && Current(a).tok == Char(',')
    requires ParseExpression(Next(a), reg) == Parsed(end, b) && Current(b).tok == Token.In
    requires ParseExpression(Next(b), reg) == Parsed(body, c)
    ensures ParseForExpr(s, reg) == Parsed(Expr.For(Current(c).loc, Current(Next(s)).tok.name, start, end, None, body), c)
  {
    assert ParseForStep(b, reg) == Parsed(None, b);
  }

  /** An identifier followed by neither `(` nor a binary operator is a whole expression. */
  lemma LoneVariable(s: Lexer.Stream, reg: Binop.Registry)
    requires Current(s).tok.Identifier? && Current(Next(s)).tok != Char('(')
    requires TokenPrecedence(reg, Current(Next(s)).tok) < 0
    ensures ParseExpression(s, reg) == Parsed(Variable(Current(s).loc, Current(s).tok.name), Next(s))
  {
    VariableOperand(s, reg);
    BinOpRHSStopsBelowMinimum(0, Variable(Current(s).loc, Current(s).tok.name), Next(s), reg);
  }

  // ------------------------------------------------------------ prototypes

  /** `binary | 5` names the operator `binary|` and gives it precedence 5. */
  lemma BinaryHeadExample(s0: Lexer.Stream, s1: Lexer.Stream, s2: Lexer.Stream, s3: Lexer.Stream)
    requires Reads(s0, Token.Binary, s1) && Reads(s1, Char('|'), s2) && Reads(s2, Token.Number("5"), s3)
    ensures ParseHead(s0) == Parsed(Head("binary|", 5), s3)
  {
    Decimal.StrToDOfDigits("5");
    assert NumberValue(Token.Number("5")) == 5.0;
    assert BinaryName('|') == "binary|";
  }

  /** `binary | 5 (l r)` declares the operator `binary|` with precedence 5 and two parameters. */
  lemma BinaryPrototypeExample(s0: Lexer.Stream, s1: Lexer.Stream, s2: Lexer.Stream, s3: Lexer.Stream,
                               s4: Lexer.Stream, s5: Lexer.Stream, s6: Lexer.Stream, s7: Lexer.Stream)
    requires Reads(s0, Token.Binary, s1) && Reads(s1, Char('|'), s2) && Reads(s2, Token.Number("5"), s3)
    requires Reads(s3, Char('('), s4) && Reads(s4, Identifier("l"), s5) && Reads(s5, Identifier("r"), s6)
    requires Reads(s6, Char(')'), s7)
    ensures ParsePrototype(s0) == Parsed(Prototype("binary|", ["l", "r"], true, 5, L(s0).line), s7)
  {
    BinaryHeadExample(s0, s1, s2, s3);
    assert ParseParams(s4, []) == (["l", "r"], s6) by {
      assert ["l"] + ["r"] == ["l", "r"];
      assert ParseParams(s6, ["l", "r"]) == (["l", "r"], s6);
      assert ParseParams(s5, ["l"]) == (["l", "r"], s6);
      assert [] + ["l"] == ["l"];
    }
    PrototypeAssembles(s0, Head("binary|", 5), s3, ["l", "r"], s6);
  }

  /** A head, `(`, a parameter list of the right length and `)` make a prototype. */
  lemma PrototypeAssembles(s: Lexer.Stream, head: Head, rest: Lexer.Stream, params: seq<string>, rest2: Lexer.Stream)
    requires ParseHead(s) == Parsed(head, rest) && Current(rest).tok == Char('(')
    requires ParseParams(Next(rest), []) == (params, rest2) && Current(rest2).tok == Char(')')
    requires ProtoKind(Current(s).tok) == 0 || |params| == ProtoKind(Current(s).tok)
    ensures ParsePrototype(s)
         == Parsed(Prototype(head.name, params, ProtoKind(Current(s).tok) != 0, head.precedence, Current(s).loc.line), Next(rest2))
  {
  }

  /** A precedence outside 1..100 is rejected before the parameter list is read. */
  lemma PrecedenceOutOfRangeExample(s0: Lexer.Stream, s1: Lexer.Stream, s2: Lexer.Stream, s3: Lexer.Stream)
    requires Reads(s0, Token.Binary, s1) && Reads(s1, Char('|'), s2) && Reads(s2, Token.Number("200"), s3)
    ensures ParsePrototype(s0) == Error("Invalid precedecnce: must be 1..100", s2)
  {
    TwoHundred();
    assert ParseHead(s0) == Error("Invalid precedecnce: must be 1..100", s2);
  }

  lemma TwoHundred()
    ensures NumberValue(Token.Number("200")) == 200.0
  {
    Decimal.StrToDOfDigits("200");
    assert "200"[..2] == "20" && "20"[..1] == "2" && "2"[..0] == "";
  }

  /** A binary operator with one parameter is rejected once the whole list has been read. */
  lemma OperatorArityExample(s0: Lexer.Stream, s1: Lexer.Stream, s2: Lexer.Stream, s3: Lexer.Stream,
                             s4: Lexer.Stream, s5: Lexer.Stream)
    requires Reads(s0, Token.Binary, s1) && Reads(s1, Char('|'), s2) && Reads(s2, Char('('), s3)
    requires Reads(s3, Identifier("l"), s4) && Reads(s4, Char(')'), s5)
    ensures ParsePrototype(s0) == Error("Invalid number of operands for operator", s5)
  {
    assert BinaryName('|') == "binary|";
    assert ParseHead(s0) == Parsed(Head("binary|", 30), s2);
    assert ParseParams(s4, ["l"]) == (["l"], s4);
    assert ParseParams(s3, []) == (["l"], s4);
  }

  /** Parameters take no commas: `f(a, b)` stops at the comma. */
  lemma ParametersHaveNoCommasExample(s0: Lexer.Stream, s1: Lexer.Stream, s2: Lexer.Stream, s3: Lexer.Stream,
                                      s4: Lexer.Stream)
    requires Reads(s0, Identifier("f"), s1) && Reads(s1, Char('('), s2) && Reads(s2, Identifier("a"), s3)
    requires Reads(s3, Char(','), s4)
    ensures ParsePrototype(s0) == Error("Expected ')' in prototype", s3)
  {
    assert ParseHead(s0) == Parsed(Head("f", 30), s1);
    assert ParseParams(s3, ["a"]) == (["a"], s3);
    assert ParseParams(s2, []) == (["a"], s3);
  }
}

=== FILE: tokens.dfy ===
/**
 The token kinds of the language (lex.h): the lexer returns one of the named
 negative codes for the things it recognises, and any other character as its
 own code in 0..255.
 */
module Tokens {
  import opened Wrappers
  import Decimal

  /** One input character. The source reads `char`s; they are modelled as unsigned codes. */
  type Byte = c: char | c as int < 256

  /**
   A token together with the text the lexer leaves beside it (`IdentifierStr`
   for identifiers, the lexeme whose `strtod` value is `NumVal` for numbers).
   The definition keyword is `Function`: lex.h declares `tok_function = -2` and
   has `tok_def` commented out, and the dispatcher switches on `tok_function`.
   */
  datatype Token =
    | Eof
    | Function
    | Extern
    | Identifier(name: string)
    | Number(lexeme: string)
    | If
    | Then
    | Else
    | For
    | In
    | Binary
    | Unary
    | Var
    | Char(c: Byte)

  /** The integer the source's `int` token variables hold for each token. */
  function Code(t: Token): (code: int)
    ensures t.Char? ==> 0 <= code < 256 && code == t.c as int
    ensures !t.Char? ==> -13 <= code <= -1
    ensures code == -1 <==> t == Eof
    ensures code == -2 <==> t == Function
  {
    match t
    case Eof => -1
    case Function => -2
    case Extern => -3
    case Identifier(_) => -4
    case Number(_) => -5
    case If => -6
    case Then => -7
    case Else => -8
    case For => -9
    case In => -10
    case Binary => -11
    case Unary => -12
    case Var => -13
    case Char(c) => c as int
  }

  /** The token with its text stripped: all the information its code carries. */
  function Kind(t: Token): Token {
    match t
    case Identifier(_) => Identifier("")
    case Number(_) => Number("")
    case _ => t
  }

  /** Decodes a token code back to its text-free token; codes outside the enum decode to nothing. */
  function FromCode(code: int): Option<Token> {
    if 0 <= code < 256 then Some(Char(code as char))
    else if code == -1 then Some(Eof)
    else if code == -2 then Some(Function)
    else if code == -3 then Some(Extern)
    else if code == -4 then Some(Identifier(""))
    else if code == -5 then Some(Number(""))
    else if code == -6 then Some(If)
    else if code == -7 then Some(Then)
    else if code == -8 then Some(Else)
    else if code == -9 then Some(For)
    else if code == -10 then Some(In)
    else if code == -11 then Some(Binary)
    else if code == -12 then Some(Unary)
    else if code == -13 then Some(Var)
    else None
  }

  /** A code determines the token's kind: decoding the code of any token gives back its kind. */
  lemma CodeRoundTrip(t: Token)
    ensures FromCode(Code(t)) == Some(Kind(t))
  {
  }

  /** Two tokens share a code exactly when they are of the same kind, so the named codes are pairwise distinct. */
  lemma CodesDistinct(t: Token, u: Token)
    ensures Code(t) == Code(u) <==> Kind(t) == Kind(u)
  {
    CodeRoundTrip(t);
    CodeRoundTrip(u);
  }

  /** `isascii` applied to a token code. */
  predicate IsAscii(t: Token) {
    0 <= Code(t) < 128
  }

  /** The reserved words, and `Identifier` for every other name. */
  function KeywordOrIdentifier(s: string): (t: Token)
    ensures t != Eof && !t.Char? && !t.Number?
    ensures t.Identifier? ==> t.name == s
    ensures !t.Identifier? ==> s in ReservedWords()
    ensures s == "def" <==> t == Function
    ensures s == "extern" <==> t == Extern
    ensures s == "if" <==> t == If
    ensures s == "then" <==> t == Then
    ensures s == "else" <==> t == Else
    ensures s == "for" <==> t == For
    ensures s == "in" <==> t == In
    ensures s == "binary" <==> t == Binary
    ensures s == "unary" <==> t == Unary
    ensures s == "var" <==> t == Var
  {
    if s == "def" then Function
    else if s == "extern" then Extern
    else if s == "if" then If
    else if s == "then" then Then
    else if s == "else" then Else
    else if s == "for" then For
    else if s == "in" then In
    else if s == "binary" then Binary
    else if s == "unary" then Unary
    else if s == "var" then Var
    else Identifier(s)
  }

  function ReservedWords(): set<string> {
    {"def", "extern", "if", "then", "else", "for", "in", "binary", "unary", "var"}
  }

  /** A word is an identifier token exactly when it is not one of the ten reserved words. */
  lemma KeywordsReserved(s: string)
    ensures KeywordOrIdentifier(s).Identifier? <==> s !in ReservedWords()
  {
  }

  /** The value the parser reads for a number token (`NumVal`). */
  function NumberValue(t: Token): real
    requires t.Number?
  {
    Decimal.StrToD(t.lexeme)
  }
}

=== FILE: wrappers.dfy ===
/** The optional value used wherever the source keeps a possibly-null pointer. */
module Wrappers {

  datatype Option<+T> = None | Some(value: T) {

    /** The value, or `default` when there is none. */
    function GetOr(default: T): T {
      match this
      case Some(v) => v
      case None => default
    }
  }
}
